=== FILE: README.md ===
# ThicknessDiag sphere sweep: a Dafny model of its bookkeeping core

ThicknessDiag prototypes a Bentley–Ottmann style sweep over the arrangement
that a set of spheres cuts on one chosen sphere. The geometry is CGAL's. This
model covers the deterministic bookkeeping around that geometry, with CGAL's
predicates and constructions passed in as uninterpreted functions.

- **Sphere/circle incidence store** (`SphereIntersecter`, `Handles`). Spheres
  and intersection circles live at explicit addresses. A handle is such an
  address, with 0 standing for the null handle. Two link maps are kept in sync:
  sphere → circles on it, and circle → the pair of spheres it was cut from.
  The model covers duplicate-rejecting insertion, removal, lookups, the
  bounding box and the insert iterator.
- **Events and sweep order** (`Events`, `Priority`). The model covers:
  - the tagged event records, their equalities and their builders;
  - normal event sites;
  - the cross-kind precedence between normal, polar and bipolar sites;
  - the priority queue's `clear`/`push`/`next_event`.
- **Event generation** (`SweepInit`). This is `initialize_E`:
  - every circle contributes events according to its class;
  - every unordered pair of circles contributes tangency or crossing events;
  - normal events are grouped into one site per point;
  - the queue is rebuilt from the sites.

  It also covers the handle fallback of `run_for`.
- **The older prototype** under `tests/Sphere_Sweep_Line`:
  - the event records with their fully written polar ordering and two-queue
    `next_event` (`ProtoEvents`);
  - the radius-ordered circle store with its arc log (`CircleProxies`);
  - the intersection dispatcher (`CircleIntersecter`).
- **Helpers**:
  - the rotation checker `interface/check_output.py` (`RotationCheck`, on top
    of Python 2's `strip`/`split`/`join` in `Text`);
  - the sphere file generator `v-ordering/generate_spheres.py`
    (`SphereGenerator`);
  - the Geomview panel command (`GeomviewPanel`).

The C++ debug build's thrown `logic_error`s and the `CGAL_assertion`s that
inputs can trip are modelled as `Fail` results, and so are the Python
scripts' `ValueError` and `IndexError`. The assertions inside
`remove_sphere_links` are instead proved to hold (see "Left out"). Geometry is held in integer records compared only by equality,
plus an integer squared radius.

## Model

| member | source | states |
|---|---|---|
| Handles.NullHandle | Handle.h:29-36 | A default handle is null and lies below every non-null handle in address order |
| Handles.HandleTo | Handle.h:32-39 | A handle to an object is non-null, its `ptr()` is the object's address, and it differs from the null handle |
| Handles.ComparisonsAreAddressOrder | Handle.h:6-18 | `==` is address equality and `!=` its negation. `<` is a strict total order, `>` is its converse, and `<=`/`>=` are its reflexive closures |
| Handles.WalkInOrder | Handle.h:67-84 | Walking with prefix `++` and walking with postfix `++` (which returns the iterator held before the step) visit the same handles. Each position between the two iterators is visited once, in increasing order, and `*` yields a handle to the object at that position |
| Handles.WalkVisitsStorage | Sphere_intersecter.h:200-222 | Iterating the sphere range from begin to end yields a handle to every stored sphere, in storage order |
| SphereIntersecter.EmptyIntersecter | Sphere_intersecter.h:49-51 | A fresh store is empty and satisfies the link invariant |
| SphereIntersecter.MeetCircle | Sphere_intersecter.h:151-163 | A disjoint result gives no circle. A touching point becomes a zero-radius circle centred there. A meeting circle is kept as is |
| SphereIntersecter.Candidates | Sphere_intersecter.h:132-136 | The tree query returns exactly the stored spheres whose boxes meet the query sphere |
| SphereIntersecter.Link | Sphere_intersecter.h:165-172 | A new circle is stored at the next address and mapped to (new, other). It is prepended to both spheres' circle lists. No other list changes |
| SphereIntersecter.ScanFindsDuplicate | Sphere_intersecter.h:139-148 | The intersection loop stops as a duplicate exactly when some candidate sphere equals the inserted one |
| SphereIntersecter.AdmitDecides | Sphere_intersecter.h:183-191 | The returned handle is null exactly when a duplicate was found. Otherwise it is the address of the new front sphere |
| SphereIntersecter.AdmitAccepts | Sphere_intersecter.h:122-191 | An accepted sphere is prepended to the storage and added to the tree, and one circle is stored per meeting candidate, linked to (new, candidate) |
| SphereIntersecter.AdmitRejects | Sphere_intersecter.h:185-188 | A rejected insertion restores the sphere list, the tree and the circle links, and leaves no list for the rejected sphere |
| SphereIntersecter.AddSphereKeepsValid | Sphere_intersecter.h:120-192 | Insertion, as written and as corrected, preserves the store invariant. The invariant covers two things. Addresses are distinct and allocated. A circle maps to (a, b) exactly when it is listed under both a and b |
| SphereIntersecter.AddSphereRejectsDuplicates | Sphere_intersecter.h:145-188 | Insertion returns the null handle exactly when an equal sphere is already stored, provided boxes meet themselves |
| SphereIntersecter.AddSphereAsWrittenRejectsDuplicates | Sphere_intersecter.h:128-188 | The size guard as written rejects the same spheres: with one stored sphere, the equality test stands in for the scan |
| SphereIntersecter.AddSphereKeepsNoDuplicates | Sphere_intersecter.h:120-192 | A store without equal spheres never gains a pair of equal spheres, under `add_sphere` as written and as corrected |
| SphereIntersecter.AddSphereLinksEveryMeeting | Sphere_intersecter.h:128-172 | With the size guard corrected, the new sphere is linked by a circle to every stored sphere it meets |
| SphereIntersecter.AddSphereAsWrittenMissesSecond | Sphere_intersecter.h:128-181 | As written, inserting a second, different sphere stores no circle and links nothing to it, even when the two meet |
| SphereIntersecter.InsertAllKeepsValid | Sphere_intersecter.h:372-377 | Feeding any sequence of spheres through the insert iterator, which calls `add_sphere` as written, keeps the invariant and the absence of equal spheres. The same holds over the corrected insertion |
| SphereIntersecter.RemoveFirstDistinct | Sphere_intersecter.h:342-343 | Erasing a circle from a duplicate-free list removes exactly that circle |
| SphereIntersecter.UnlinkAllKeepsInvariant | Sphere_intersecter.h:330-345 | The unlink loop keeps its invariant. Each processed circle is gone from the circle map and from the other sphere's list, and the storage is untouched |
| SphereIntersecter.UnlinkAssertionsHold | Sphere_intersecter.h:330-341 | At every step of the unlink loop the three assertions hold: the circle has an entry whose pair names the removed sphere, the other sphere of the pair is a different sphere, and that sphere has a circle list |
| SphereIntersecter.RemoveLinksSpec | Sphere_intersecter.h:325-348 | After `remove_sphere_links` the invariant still holds. The sphere has no list, and no remaining circle mentions it. Exactly the circles not mentioning it remain, with their pairs. The storage is unchanged |
| SphereIntersecter.EraseAtSpec | Sphere_intersecter.h:293-302 | Erasing by address removes that address only |
| SphereIntersecter.RemoveSphereSpec | Sphere_intersecter.h:286-314 | `remove_sphere` reports true exactly when the address was stored. Afterwards the invariant holds, only that address is gone, the tree is rebuilt from the storage, and no link mentions the sphere |
| SphereIntersecter.FindSphereSpec | Sphere_intersecter.h:224-231 | The corrected lookup returns a handle to a stored equal sphere, and null exactly when none is stored |
| SphereIntersecter.FindSphereAsWrittenMissesCopies | Sphere_intersecter.h:224-231 | As written, the lookup compares addresses, so an equal sphere given by value is never found, although the corrected lookup finds it |
| SphereIntersecter.LookupsAgree | Sphere_intersecter.h:266-283 | A known circle is listed on a sphere exactly when its originating pair mentions that sphere. An unknown circle is listed nowhere, and its pair is two null handles |
| SphereIntersecter.FindCircleInSpec | Sphere_intersecter.h:236-244 | The list scan returns the first listed handle whose circle equals the query, or null when none does |
| SphereIntersecter.FindCircleInSphereSpec | Sphere_intersecter.h:233-245 | A returned circle is on the sphere, equals the query, and originates from the sphere. Null means no circle on the sphere equals the query |
| SphereIntersecter.ValueLookupsAsWrittenMissCopies | Sphere_intersecter.h:247-264 | As written, the by-value `find_circle_in_sphere` and `circles_on_sphere` go through the address-keyed `find_sphere`. For a copy of a sphere that is not itself stored, they return null and no circles, whatever is stored |
| SphereIntersecter.ValueLookupsSpec | Sphere_intersecter.h:247-264 | Through the corrected lookup, the by-value overloads answer for a stored sphere equal to the argument exactly what the handle overloads answer for its handle. They answer nothing when no stored sphere equals the argument |
| SphereIntersecter.Bbox | Sphere_intersecter.h:320-322 | The box is the default one exactly when the tree holds at most one sphere. Otherwise it is the box of the tree's spheres |
| SphereIntersecter.BboxOfStorage | Sphere_intersecter.h:320-322 | Restated over the stored spheres: default for at most one sphere, otherwise the box around exactly the stored sphere values |
| Events.EqualityIgnoresSphere | Event_queue.h:75-127 | Equality covers a fixed set of fields. Circle events compare tag and circle, critical events add the point, and polar events add the pole. Intersection events compare type, circles and point. The sphere is never compared |
| Events.BuildersReproduceEvents | Event_queue.h:158-239 | Every builder sets the sphere, the circle, and exactly the fields it is given, so any event is rebuilt from its own fields |
| Events.Filter | Event_queue.h:254-256 | The start (end) events of a site are exactly its critical events tagged Start (End) |
| Events.NewNormalSite | Event_queue.h:261-265 | A new normal site holds its point and sphere and no events |
| Events.AddCritical | Event_queue.h:267-268 | Adding a critical event adds it to the site and changes nothing else |
| Events.AddIntersection | Event_queue.h:270-271 | Adding an intersection event appends it and changes nothing else |
| Events.CrossKindIsRankOrder | Event_queue.h:280-408 | Between sites of different kinds, the precedence is a rank order: polar End, then bipolar, then normal, then polar Start. Exactly one of two such sites comes first |
| Events.CrossKindRules | Event_queue.h:381-408 | A bipolar site precedes every normal site and never follows one. A polar site precedes a normal or bipolar site exactly when it is an End |
| Events.Clear | Event_queue.h:497-498 | `clear()` leaves an empty queue of size 0 |
| Events.Push | Event_queue.h:500-508 | `push` adds the site to the queue's contents and increases the size by one |
| Events.TopSite | Event_queue.h:482 | `top()` returns a site of the queue |
| Events.NextEvent | Event_queue.h:510-512 | `next_event()` is `None` exactly when the queue is empty. Otherwise it is the kind of a site in the queue |
| Events.NextEventIsMaximalKind | Event_queue.h:456-512 | Under a strict order, `next_event()` reports the kind of a site no other site exceeds. After `clear` and one `push`, it reports the pushed site's kind |
| Priority.Top | Event_queue.h:482 | The top of a priority queue is one of its elements |
| Priority.TopIsMaximal | Event_queue.h:482 | Under a strict partial order, nothing in the queue is greater than its top |
| Priority.PushedGreatestIsTop | Event_queue.h:482 | An element greater than all others becomes the top |
| SweepInit.ScheduleVisitsEachPairOnce | main.cpp:170-217 | The loops visit every circle once and every pair i < j once, with no repeats |
| SweepInit.PoleOf | main.cpp:198-200 | The pole is South exactly when the pole point lies above the sphere centre |
| SweepInit.SortedNormals | main.cpp:208-210 | The two meridian normals are n and -n, put in theta order |
| SweepInit.ClassHarvest | main.cpp:178-213 | A circle's events fail exactly when a polar circle does not cut the pole axis once |
| SweepInit.NormalCircleEvents | main.cpp:180-186 | A normal circle gives a Start critical event at its first theta-extremal point and an End event at the second, and no polar or bipolar site |
| SweepInit.PolarCircleEvents | main.cpp:187-203 | A polar circle that cuts the pole axis once gives a polar Start site then an End site at that point, both tagged with the pole it lies on |
| SweepInit.BipolarCircleEvents | main.cpp:204-211 | A bipolar circle gives a Start and an End site on that circle whose normals are the plane normal and its opposite, the Start one first in theta order |
| SweepInit.ThreadedCircleEvents | main.cpp:178-213 | A circle of any other type (threaded) gives no event at all |
| SweepInit.PairHarvest | main.cpp:216-266 | A pair of circles fails exactly when the handles or circles coincide or a crossing is not two simple points |
| SweepInit.PairHarvestCases | main.cpp:227-265 | No intersection, or a common circle, gives nothing. One point gives one Tangency. Two points give Largest then Smallest crossing at each point, in order |
| SweepInit.RunStepsOk | main.cpp:170-268 | The circle loop succeeds exactly when every step succeeds |
| SweepInit.FindSite | main.cpp:153 | The site search returns the first site at the point, or the end when there is none |
| SweepInit.AddToSiteKeepsGrouping | main.cpp:152-157 | `ADD_TO_NE_SITE` keeps the grouping. Each site holds exactly the events emitted at its point, and a site exists exactly for the points that received an event |
| SweepInit.GroupSpec | main.cpp:152-157 | Filing any sequence of events keeps the grouping |
| SweepInit.GroupingIsPerPoint | main.cpp:147-157 | Starting from no sites, the normal events are grouped into exactly one site per point that received an event |
| SweepInit.DistinctPointsCount | main.cpp:148-150 | Sites at pairwise distinct points are counted by their points |
| SweepInit.PushAll | main.cpp:275-285 | Pushing a list of sites adds exactly those sites, one each |
| SweepInit.InitializeESpec | main.cpp:141-286 | `initialize_E` fails exactly when some step fails. Otherwise the queue holds one site per distinct normal point plus every polar and bipolar site, and nothing else |
| SweepInit.RunForHandleFindsSphere | main.cpp:73-83 | With both the insertion and the lookup corrected, `run_for` always obtains a non-null handle to a stored sphere equal to its argument |
| SweepInit.RejectedInsertKeepsSpheres | main.cpp:76-79 | Re-inserting a stored sphere, with `add_sphere` as written or as corrected, returns null and leaves the stored spheres unchanged |
| SweepInit.RunForHandleAsWrittenFailsOnCopies | main.cpp:76-83 | As written, a sphere equal to a stored one, given from another address, trips the assertion that the handle is not null |
| ProtoEvents.IsSouthAsWrittenIsNorth | tests/Sphere_Sweep_Line/Event_queue.h:101-105 | `is_south()` as written equals `is_north()`, so it is false at the South pole |
| ProtoEvents.PolesAreExclusive | tests/Sphere_Sweep_Line/Event_queue.h:95-105 | The corrected `is_south()` holds exactly at the South pole and is the negation of `is_north()` |
| ProtoEvents.NewNormalSite | tests/Sphere_Sweep_Line/Event_queue.h:165-167 | A new normal site holds its point and no events |
| ProtoEvents.AddEvent | tests/Sphere_Sweep_Line/Event_queue.h:170-198 | Adding fails exactly when the two arcs lie on different circles or the circle misses the site's point. A Start goes to the starts, anything else to the ends |
| ProtoEvents.AddIntersection | tests/Sphere_Sweep_Line/Event_queue.h:201-202 | Intersection events are appended and nothing else changes |
| ProtoEvents.AddEventsSpec | tests/Sphere_Sweep_Line/Event_queue.h:206-211 | The range version succeeds exactly when every event is valid at the site. The starts and ends then grow by exactly the Start and End events of the range |
| ProtoEvents.PolarOrderCases | tests/Sphere_Sweep_Line/Event_queue.h:263-302 | The polar ordering case by case: mixed polarities, End before Start, North before South, the radius tie-break, bipolar pairs, and the rules against normal sites |
| ProtoEvents.PolarTieAsWrittenIsReflexive | tests/Sphere_Sweep_Line/Event_queue.h:284-296 | The written tie-break differs from the intended one exactly on single Start sites at the same pole with equal radius. There a site precedes itself, while the corrected order is irreflexive |
| ProtoEvents.PolarOrderIsKeyOrder | tests/Sphere_Sweep_Line/Event_queue.h:268-302 | The corrected polar order is the lexicographic order of a key (group, pole, signed radius) |
| ProtoEvents.PolarOrderIsStrict | tests/Sphere_Sweep_Line/Event_queue.h:317-326 | The site comparator built from the corrected polar order is a strict partial order on any queue, as `priority_queue` requires |
| ProtoEvents.PushNormal | tests/Sphere_Sweep_Line/Event_queue.h:333-334 | Pushing a normal site adds it to the normal queue only |
| ProtoEvents.PushPolar | tests/Sphere_Sweep_Line/Event_queue.h:335-336 | Pushing a polar site adds it to the polar queue only |
| ProtoEvents.NextEventAsWritten | tests/Sphere_Sweep_Line/Event_queue.h:345-362 | As written: None when both queues are empty, Normal when only the polar queue is empty, Polar whenever it is not |
| ProtoEvents.NextEvent | tests/Sphere_Sweep_Line/Event_queue.h:345-362 | Corrected: the same answers when a queue is empty. With both non-empty, it reports the kind of whichever top occurs first |
| ProtoEvents.NextEventAsWrittenSkipsNormal | tests/Sphere_Sweep_Line/Event_queue.h:351-361 | A normal site and a single polar Start site: the normal site occurs first, yet the written code reports Polar and the corrected one Normal |
| ProtoEvents.NextEventReportsFirst | tests/Sphere_Sweep_Line/Event_queue.h:345-362 | The corrected `next_event` reports a top that nothing in either queue precedes |
| CircleProxies.EmptyProxy | tests/Sphere_Sweep_Line/Circle_proxy.h:192-193 | A new proxy holds no circles and no arcs |
| CircleProxies.InsertKeepsOrder | tests/Sphere_Sweep_Line/Circle_proxy.h:142-143 | Inserting at the upper bound of its radius keeps the circles ordered by radius and adds exactly that circle |
| CircleProxies.OnlyInEqualRange | tests/Sphere_Sweep_Line/Circle_proxy.h:104-107 | In a radius-ordered list, an equal circle can only lie in the equal-radius range, so searching that range decides membership |
| CircleProxies.AddCircle | tests/Sphere_Sweep_Line/Circle_proxy.h:102-124 | Adding fails exactly when an equal circle is held. Otherwise the circle is inserted after all circles of the same radius, the order is kept, the arcs are untouched, and the returned handle designates the added circle |
| CircleProxies.AddCircles | tests/Sphere_Sweep_Line/Circle_proxy.h:196-209 | Adding a sequence succeeds exactly when its circles are pairwise distinct and not already held. Circles of equal radius are all kept, in radius order |
| CircleProxies.FindCircleAsWritten | tests/Sphere_Sweep_Line/Circle_proxy.h:153-167 | As written, `find` by radius equivalence returns the first held circle with the same squared radius. It fails only when no held circle has that radius |
| CircleProxies.FindCircle | tests/Sphere_Sweep_Line/Circle_proxy.h:153-167 | Corrected: it returns the first position holding an equal circle, and fails exactly when none is held |
| CircleProxies.FindCircleAsWrittenConfusesEqualRadii | tests/Sphere_Sweep_Line/Circle_proxy.h:156 | For two distinct circles of equal radius, looking up the second returns the first as written, and the second when corrected |
| CircleProxies.ArcCircleAsWritten | tests/Sphere_Sweep_Line/Circle_proxy.h:65-67 | As written, an arc's circle handle goes through `make_circle_handle`, whose `find` matches on squared radius. It fails exactly when no held circle has the arc's radius, and otherwise designates some held circle of that radius |
| CircleProxies.ArcCircleAsWrittenConfusesEqualRadii | tests/Sphere_Sweep_Line/Circle_proxy.h:65-67 | For an arc on the second of two held circles of equal radius, the as-written handle designates the first circle and the intended one designates the second |
| CircleProxies.ArcCircle | tests/Sphere_Sweep_Line/Circle_proxy.h:65-67 | As intended, an arc's circle handle designates its own supporting circle, and fails exactly when that circle is not held |
| CircleProxies.SplitAt | tests/Sphere_Sweep_Line/Circle_proxy.h:169-176 | A one-point split appends exactly one arc, the whole circle cut at the point, and returns its position |
| CircleProxies.SplitBetween | tests/Sphere_Sweep_Line/Circle_proxy.h:178-190 | A two-point split appends source→target and then target→source on the circle, and returns both positions |
| CircleProxies.SplitsOnlyAppend | tests/Sphere_Sweep_Line/Circle_proxy.h:169-190 | Splitting keeps the circles and every arc already logged |
| CircleIntersecter.Dispatch | tests/Sphere_Sweep_Line/Circle_intersecter.h:24-60 | The dispatch fails exactly when the circles are equal or a multi-object result is not two simple points. Handlers receive the two circles given |
| CircleIntersecter.DispatchCases | tests/Sphere_Sweep_Line/Circle_intersecter.h:34-59 | Empty result: no handler. One point: Tangency. One circle: Equality. Two simple points: Crossing. Each result selects exactly one case |
| CircleIntersecter.DispatchPassesPoints | tests/Sphere_Sweep_Line/Circle_intersecter.h:36-58 | The handler receives exactly the points of the intersection result, in result order |
| Text.Lead | interface/check_output.py:56 | The count of leading whitespace: everything before it is whitespace and the character at it is not |
| Text.Trail | interface/check_output.py:56 | The count of trailing whitespace: everything after the kept part is whitespace and the character just before it is not |
| Text.Strip | interface/check_output.py:56 | `strip()` leaves no whitespace at either end of its result |
| Text.StripSpec | interface/check_output.py:56 | `strip()` keeps exactly one contiguous slice of its input, with only whitespace before and after it |
| Text.StripIdempotent | interface/check_output.py:56 | Stripping twice strips nothing more |
| Text.Split | interface/check_output.py:58 | `split()` yields non-empty fields without whitespace |
| Text.SplitJoinRoundTrip | interface/check_output.py:58 | Words joined by single spaces split back into the same words |
| Text.JoinLength | interface/check_output.py:69 | A join is as long as its parts plus one separator between each two |
| RotationCheck.MatrixMult | interface/check_output.py:17-19 | The product has one entry per matrix row, the dot product of v with that row |
| RotationCheck.Dot3 | interface/check_output.py:13-15 | On three components, the dot product is the usual sum of products |
| RotationCheck.RotateXForm | interface/check_output.py:21-27 | Rotating about x keeps the x component and turns (y, z) by the angle |
| RotationCheck.RotateYForm | interface/check_output.py:29-35 | Rotating about y keeps the y component and turns (z, x) by the angle |
| RotationCheck.RotateZForm | interface/check_output.py:37-43 | Rotating about z keeps the z component and turns (x, y) by the angle |
| RotationCheck.RotatePreservesLength | interface/check_output.py:45-51 | With cos² + sin² = 1 for each angle, the combined rotation (z, then y, then x) preserves the squared length |
| RotationCheck.RotateIdentity | interface/check_output.py:45-51 | With zero angles (cos 1, sin 0) the rotation leaves every vector unchanged |
| RotationCheck.DegreesRoundTrip | interface/check_output.py:64-69 | Negated conversion to radians and the printed conversion back recover the input degrees |
| RotationCheck.AllCloseSpec | interface/check_output.py:67-68 | The verdict holds exactly when every zipped pair of components differs by less than epsilon |
| RotationCheck.ReadLine | interface/check_output.py:53-60 | A blank or `#` line after stripping is echoed stripped. Any other line is a record of its first at most six fields |
| RotationCheck.ReadLineRoundTrip | interface/check_output.py:53-58 | One to six words joined by spaces, the first not starting with `#`, read back as exactly those words |
| RotationCheck.ParseAll | interface/check_output.py:58 | Converting the fields succeeds exactly when every field parses, and yields the parsed numbers in order |
| RotationCheck.ProcessLineSpec | interface/check_output.py:62-69 | An echo line prints its stripped text. A record with fewer than three numbers or an unparsable field fails. Otherwise the printed numbers are the input degrees followed by the vector, then `->` and the verdict |
| RotationCheck.ZeroAnglesVerdict | interface/check_output.py:62-68 | With zero angles, the verdict holds exactly when the given vector is within epsilon of (0, 0, 1) on the compared components |
| RotationCheck.RunScript | interface/check_output.py:62-69 | The script prints one line per input line until the first failing line. It fails exactly when some line fails |
| SphereGenerator.Directive | v-ordering/generate_spheres.py:11 | A format directive that parses consumes at least one character and stays within the string |
| SphereGenerator.StringFormat | v-ordering/generate_spheres.py:8-14 | A format is accepted, unchanged, exactly when it consumes four arguments |
| SphereGenerator.LiteralTakesNothing | v-ordering/generate_spheres.py:11 | Text without `%` consumes no argument |
| SphereGenerator.ConversionAfterLiteral | v-ordering/generate_spheres.py:11 | A `%s` after literal text consumes one argument more than the rest |
| SphereGenerator.PercentAfterLiteral | v-ordering/generate_spheres.py:11 | A `%%` consumes no argument |
| SphereGenerator.DefaultFormatAccepted | v-ordering/generate_spheres.py:37-38 | The default format is accepted |
| SphereGenerator.PositiveFloat | v-ordering/generate_spheres.py:16-24 | The float validator returns the number exactly when it parses and is positive |
| SphereGenerator.PositiveInt | v-ordering/generate_spheres.py:26-34 | The integer validator returns the number exactly when it parses and is positive |
| SphereGenerator.Stem | v-ordering/generate_spheres.py:81 | The stem is the part of a name before its first `.` |
| SphereGenerator.NextFileIndex | v-ordering/generate_spheres.py:77-82 | The index fails exactly when some stem is not an integer. It is 0 for no files. Otherwise it is one more than an existing index and greater than all of them |
| SphereGenerator.NewFileIsFresh | v-ordering/generate_spheres.py:81-83 | A file named after an index above every existing one is not among the existing files |
| SphereGenerator.Spheres | v-ordering/generate_spheres.py:70 | Exactly `number` spheres are formatted, in order |
| SphereGenerator.SpheresDataShape | v-ordering/generate_spheres.py:70-71 | The output starts with the first sphere, ends with a newline, and is exactly as long as the spheres, `number - 1` separators and the newline together |
| GeomviewPanel.PanelName | tests/LinearCellComplex/Geomview_stream_extension.cpp:8-18 | Every panel name is a non-empty word without spaces or `)` |
| GeomviewPanel.SetPanelEnabled | tests/LinearCellComplex/Geomview_stream_extension.cpp:4-26 | The command starts with `(ui-panel `, ends with `)`, and holds the panel name, one space and `on`/`off` in between |
| GeomviewPanel.ParsePanelCommand | tests/LinearCellComplex/Geomview_stream_extension.cpp:4-26 | A command read back as a panel and switch is exactly the one written for them |
| GeomviewPanel.PanelCommandRoundTrip | tests/LinearCellComplex/Geomview_stream_extension.cpp:4-26 | Every written command reads back as the panel and switch it was written for |
| GeomviewPanel.PanelCommandInjective | tests/LinearCellComplex/Geomview_stream_extension.cpp:9-24 | Different (panel, switch) pairs give different commands, so no two panels share a name |

## Left out

- `SphereIntersecter.Unlink`: the three assertions of `remove_sphere_links` (Sphere_intersecter.h:336, 339 and 341) are not modelled as `Fail`. A circle without an entry leaves the store unchanged, and a partner sphere without a list keeps no list. `SphereIntersecter.UnlinkAssertionsHold` proves that the three assertions hold at every step of the loop that `SphereIntersecter.RemoveLinksSpec` runs from a valid store.
- Addresses. The model hands out sphere and circle addresses from a counter that only grows, so an address is never reused after `remove_sphere`. The C++ allocator may reuse freed storage. No stated property depends on the choice.
- `SphereIntersecter.Candidates`: the tree query's hits are taken in storage order, because CGAL's traversal order for `all_intersected_primitives` is not modelled. That order decides the order of each sphere's circle list, and so which of two equal circles `find_circle_in_sphere` returns first. No stated property depends on it.
- Geometry. The following are CGAL's and appear as function parameters:
  - sphere/sphere and circle/circle intersection;
  - circle classification and theta-extremal points;
  - the pole-axis intersection and theta comparison;
  - `has_on` and the AABB tree's box test.

  Nothing is claimed about their results beyond what the code checks.
- Release builds. Without NDEBUG, `CGAL_assertion` and the `#ifndef NDEBUG` checks are active; the model follows those debug semantics. In a release build, `Circle_intersecter.h` also loses the `Assign_3` calls that sit inside assertions.
- `run_for` after the handle is obtained, and `initialize_V`:
  - the `boost::thread` fan-out is left out because it is concurrency;
  - `initialize_V` is mostly unfinished stubs plus CGAL ordering;
  - the event-handling loop pops sites whose handlers are commented out.
- Undefined bodies in `Event_queue.h`:
  - `Normal_event_site::add_event` is declared but not defined, so the model only records the event in the site;
  - `Any_event_site::operator<`, the same-kind `occurs_before` rules and the pop functions are also not defined.

  The same-kind order and `operator<` are parameters. The queue's top is the element a left-to-right scan keeps.
- Event_queue.h: `Any_event_site` copying, assignment and destruction are memory management and are left out. So are `empty()` and `size()`, which are modelled only as the queue's length.
- Normal site storage. The normal sites of `initialize_E` are kept in first-occurrence order rather than in `std::map` point order. The queue's contents do not depend on that order.
- Start/end ordering in the older prototype's `Normal_event_site`. It keeps its start and end events in multisets whose comparator does not compile as written (`arc.first`, and `unary_negate` used as a binary comparator). The model keeps them as multisets without an order.
- Older prototype code that cannot compile. Several members of `tests/Sphere_Sweep_Line/Event_queue.h` are modelled by their evident intent:
  - `Normal_event::operator==` reads `ev.args`;
  - the tie-break assigns through a const reference and compares sites that have no `==`;
  - `priority_queue` receives the comparator as its container;
  - `pop()` returns void.
- The older prototype's `make_circle_handle` passes one argument to a two-argument constructor. The model keeps only the lookup. Its radius-keyed `find` is modelled as written in `CircleProxies.FindCircleAsWritten` and `CircleProxies.ArcCircleAsWritten`, and by value in the corrected members.
- Arc handles. `Circular_arc_handle` holds a reference into the proxy's arc vector, and a later `push_back` may reallocate that vector and leave earlier references dangling. This includes `first_arc` in the two-point split. The model designates arcs by position, and positions survive every append, so reference invalidation is not modelled.
- `CircleProxies.AddCircle` returns the position of the inserted circle instead of a handle bound to the proxy. The handle classes `Circle_handle` and `Circular_arc_handle` are modelled by positions.
- Python floating point. `check_output.py` works in IEEE doubles and the model works in reals:
  - rounding and NaN are not modelled;
  - `float()`, `str()`, `cos`, `sin` and `pi` are parameters.
- `RotationCheck.Verdict`: compares through a zip, so lines with fewer than six fields compare fewer components. It is stated as such, not as a full-vector check.
- `generate_spheres.py` I/O and randomness:
  - argparse plumbing, the file system listing, file writing, stdout and `random()` are left out, or enter as the given list of names and a given sphere-text function;
  - `argparse.ArgumentError` called with one argument raises `TypeError` itself; the model records only that the input is refused;
  - when no file exists, the script uses the string `'0'`, which the model writes as index 0.
- `SphereGenerator.PositiveFloat`: does not model that IEEE `inf` passes and `nan` fails through comparisons. Whether text parses is a parameter.
- `SphereGenerator.StringFormat`: the mapping-key form `%(name)s` is refused instead of evaluated, because a tuple argument makes Python raise `TypeError` for it anyway.
- `SweepInit.SortedNormals`: states only that the pair is n and -n with the first not after the second in theta order. It does not claim that `std::sort` puts the theta-smaller first when the theta comparison is not a strict weak order.
- Geomview stream output. It is modelled as the string written. The stream object and the LinearCellComplex demo are left out.

## Findings

| source | as written | input that shows it | evidently intended | confidence | as-written member | corrected member |
|---|---|---|---|---|---|---|
| Sphere_intersecter.h:129 | intersections are computed only when the tree already holds more than one sphere | insert A, then B meeting A: no circle links A and B | compute intersections whenever the tree is non-empty | high, not executed | SphereIntersecter.AddSphereAsWrittenMissesSecond | SphereIntersecter.AddSphereLinksEveryMeeting |
| Sphere_intersecter.h:229 | `std::find` compares handles, i.e. addresses, against a handle built from the argument | `find_sphere(copy)` for a copy of a stored sphere returns null | compare sphere values | high, not executed | SphereIntersecter.FindSphereAsWrittenMissesCopies | SphereIntersecter.FindSphereSpec |
| main.cpp:76-83 | the fallback relies on that lookup | `run_for(copy)` of a stored sphere: add and find both return null, and the assertion fails | obtain the stored sphere's handle | high, not executed | SweepInit.RunForHandleAsWrittenFailsOnCopies | SweepInit.RunForHandleFindsSphere |
| tests/Sphere_Sweep_Line/Event_queue.h:104-105 | `is_south()` returns `pole == North` | a South polar event: `is_south()` is false | `pole == South` | high, not executed | ProtoEvents.IsSouthAsWrittenIsNorth | ProtoEvents.PolesAreExclusive |
| tests/Sphere_Sweep_Line/Event_queue.h:352-361 | both branches of the one-empty-queue test return, so the comparison below is dead | one normal site and one single polar Start site: Polar is reported, though the normal site occurs first | compare the two tops when both queues are non-empty | high, not executed | ProtoEvents.NextEventAsWrittenSkipsNormal | ProtoEvents.NextEventReportsFirst |
| tests/Sphere_Sweep_Line/Event_queue.h:287-293 | in a tie of radii, the site itself is kept as the biggest, and a Start then reports it occurs first | a single polar Start site compared with itself, or with an equal-radius Start at the same pole: each precedes the other | a strict order (an irreflexive tie-break) | medium, not executed | ProtoEvents.PolarTieAsWrittenIsReflexive | ProtoEvents.PolarOrderIsStrict |
| tests/Sphere_Sweep_Line/Circle_proxy.h:156 | `multiset::find` with the radius comparator finds any circle of equal squared radius | two distinct circles of equal radius: looking up the second returns the first | find the equal circle | high, not executed | CircleProxies.FindCircleAsWrittenConfusesEqualRadii | CircleProxies.FindCircle |

=== FILE: circle_intersecter.dfy ===
/** The intersection dispatcher of the older prototype
    (tests/Sphere_Sweep_Line/Circle_intersecter.h): the intersection of two
    circles, computed by the kernel, is handed to exactly one of three
    handlers (tangency, equality, crossing), or to none when the circles do
    not meet. The assertions of the debug build become failures. */
module CircleIntersecter {
  import opened Geometry
  import opened Results

  /** One object of the kernel's intersection result: a point with its
      multiplicity, or a circle. */
  datatype Meet = MeetPoint(point: Point, multiplicity: nat) | MeetCircle(circle: Circle)

  /** The handler invoked, with its arguments. */
  datatype Handled =
    | NoHandler
    | Tangency(c1: Circle, c2: Circle, point: Point)
    | Equality(c1: Circle, c2: Circle)
    | Crossing(c1: Circle, c2: Circle, points: (Point, Point))

  /** Exactly two points, each of multiplicity one. */
  predicate SimpleCrossing(found: seq<Meet>)
  {
    && |found| == 2 && found[0].MeetPoint? && found[1].MeetPoint?
    && found[0].multiplicity == 1 && found[1].multiplicity == 1
  }

  /** `operator()(c1, c2)`, with `intersect` the kernel's `Intersect_3`. */
  function Dispatch(c1: Circle, c2: Circle, intersect: (Circle, Circle) -> seq<Meet>): (r: Result<Handled>)
    ensures r.Ok? <==> c1 != c2 && (|intersect(c1, c2)| <= 1 || SimpleCrossing(intersect(c1, c2)))
    ensures r.Ok? && !r.value.NoHandler? ==> r.value.c1 == c1 && r.value.c2 == c2
  {
    if c1 == c2 then Fail("CGAL assertion: c1 != c2")
    else
      var found := intersect(c1, c2);
      if |found| == 0 then Ok(NoHandler)
      else if |found| == 1 then
        match found[0]
        case MeetPoint(p, _) => Ok(Tangency(c1, c2, p))
        case MeetCircle(_) => Ok(Equality(c1, c2))
      else if |found| != 2 then Fail("CGAL assertion: intersected.size() == 2")
      else if !found[0].MeetPoint? || !found[1].MeetPoint? then Fail("CGAL assertion: both intersections are points")
      else if found[0].multiplicity != 1 || found[1].multiplicity != 1 then Fail("CGAL assertion: both multiplicities are 1")
      else Ok(Crossing(c1, c2, (found[0].point, found[1].point)))
  }

  /** The points a handler receives, in order. */
  function HandledPoints(h: Handled): seq<Point>
  {
    match h
    case NoHandler => []
    case Tangency(_, _, p) => [p]
    case Equality(_, _) => []
    case Crossing(_, _, ps) => [ps.0, ps.1]
  }

  /** The points of an intersection result, in order. */
  function MeetPoints(found: seq<Meet>): seq<Point>
  {
    if found == [] then []
    else (if found[0].MeetPoint? then [found[0].point] else []) + MeetPoints(found[1..])
  }

  /** The dispatch, case by case: equal circles are refused; no intersection
      calls no handler; one point calls the tangency handler with it; one
      circle calls the equality handler; two simple points call the crossing
      handler with both, in result order; anything else fails an assertion. */
  lemma DispatchCases(c1: Circle, c2: Circle, intersect: (Circle, Circle) -> seq<Meet>)
    ensures c1 == c2 ==> Dispatch(c1, c2, intersect).Fail?
    ensures c1 != c2 ==>
              var found := intersect(c1, c2);
              && (Dispatch(c1, c2, intersect) == Ok(NoHandler) <==> |found| == 0)
              && (Dispatch(c1, c2, intersect).Ok? && Dispatch(c1, c2, intersect).value.Tangency? <==>
                    |found| == 1 && found[0].MeetPoint?)
              && (Dispatch(c1, c2, intersect).Ok? && Dispatch(c1, c2, intersect).value.Equality? <==>
                    |found| == 1 && found[0].MeetCircle?)
              && (Dispatch(c1, c2, intersect).Ok? && Dispatch(c1, c2, intersect).value.Crossing? <==>
                    SimpleCrossing(found))
  {
  }

  /** No point is lost or invented: a handler receives exactly the points
      of the intersection result, in order. */
  lemma DispatchPassesPoints(c1: Circle, c2: Circle, intersect: (Circle, Circle) -> seq<Meet>)
    ensures Dispatch(c1, c2, intersect).Ok? ==>
              HandledPoints(Dispatch(c1, c2, intersect).value) == MeetPoints(intersect(c1, c2))
  {
    var found := intersect(c1, c2);
    if |found| == 1 {
      assert MeetPoints(found) == (if found[0].MeetPoint? then [found[0].point] else []) + MeetPoints(found[1..]);
    } else if |found| == 2 {
      assert found[1..][1..] == [];
      assert MeetPoints(found[1..]) == (if found[1].MeetPoint? then [found[1].point] else []) + MeetPoints(found[1..][1..]);
    }
  }
}

=== FILE: circle_proxy.dfy ===
/** The circle store of the older prototype (tests/Sphere_Sweep_Line/
    Circle_proxy.h): a multiset of circles ordered by squared radius that
    refuses a second copy of a circle, and a log of the arcs obtained by
    splitting circles at points. Handles into the store are positions. */
module CircleProxies {
  import opened Geometry
  import opened Results

  datatype CircleProxy = CircleProxy(circles: seq<Circle>, arcs: seq<Arc>)

  /** The order the container keeps: non-decreasing squared radius. */
  predicate RadiusSorted(s: seq<Circle>)
  {
    forall i, j :: 0 <= i < j < |s| ==> s[i].squaredRadius <= s[j].squaredRadius
  }

  function EmptyProxy(): (cp: CircleProxy)
    ensures RadiusSorted(cp.circles) && |cp.circles| == 0 && cp.arcs == []
  {
    CircleProxy([], [])
  }

  /** `s` with `c` inserted at position `i`. */
  function InsertAt(s: seq<Circle>, i: nat, c: Circle): (r: seq<Circle>)
    requires i <= |s|
    ensures |r| == |s| + 1 && r[i] == c
  {
    s[..i] + [c] + s[i..]
  }

  /** Inserting after every circle of radius at most `c`'s and before every
      bigger one keeps the order, and adds exactly `c` to the contents. */
  lemma InsertKeepsOrder(s: seq<Circle>, i: nat, c: Circle)
    requires RadiusSorted(s) && i <= |s|
    requires forall k :: 0 <= k < i ==> s[k].squaredRadius <= c.squaredRadius
    requires forall k :: i <= k < |s| ==> s[k].squaredRadius > c.squaredRadius
    ensures RadiusSorted(InsertAt(s, i, c))
    ensures multiset(InsertAt(s, i, c)) == multiset(s) + multiset{c}
  {
    var r := InsertAt(s, i, c);
    assert s == s[..i] + s[i..];
    forall a, b | 0 <= a < b < |r| ensures r[a].squaredRadius <= r[b].squaredRadius {
      if a < i {
        assert r[a] == s[a];
      }
      if b > i {
        assert r[b] == s[b - 1];
      }
      if a > i {
        assert r[a] == s[a - 1];
      }
      if b < i {
        assert r[b] == s[b];
      }
    }
  }

  /** A circle equal to `c` can only sit in `c`'s equal range. */
  lemma OnlyInEqualRange(s: seq<Circle>, lo: nat, hi: nat, c: Circle)
    requires RadiusSorted(s) && lo <= hi <= |s|
    requires forall k :: 0 <= k < lo ==> s[k].squaredRadius < c.squaredRadius
    requires hi < |s| ==> s[hi].squaredRadius > c.squaredRadius
    requires forall k :: lo <= k < hi ==> s[k] != c
    ensures c !in s
  {
    forall k | 0 <= k < |s| ensures s[k] != c {
      if hi <= k {
        assert s[hi].squaredRadius > c.squaredRadius;
      }
    }
  }

  /** The outcome of `add_circle`: the new store and the position of the
      inserted circle, which the returned `Circle_handle` refers to. */
  datatype Added = Added(proxy: CircleProxy, handle: nat)

  /** `add_circle`: in debug builds a circle equal to one already stored is
      refused with `logic_error` (it is searched for among the stored
      circles of the same squared radius); otherwise the circle is inserted
      after every stored circle of the same radius, as `std::multiset`
      does, and circles of equal radius are all kept. */
  method AddCircle(cp: CircleProxy, c: Circle) returns (r: Result<Added>)
    requires RadiusSorted(cp.circles)
    ensures r.Fail? <==> c in cp.circles
    ensures r.Ok? ==>
              && r.value.handle <= |cp.circles|
              && r.value.proxy.circles == InsertAt(cp.circles, r.value.handle, c)
              && RadiusSorted(r.value.proxy.circles)
              && multiset(r.value.proxy.circles) == multiset(cp.circles) + multiset{c}
              && (forall k :: 0 <= k < r.value.handle ==> cp.circles[k].squaredRadius <= c.squaredRadius)
              && (forall k :: r.value.handle <= k < |cp.circles| ==> cp.circles[k].squaredRadius > c.squaredRadius)
              && r.value.proxy.arcs == cp.arcs
  {
    var s := cp.circles;
    var lo := LowerBound(s, c.squaredRadius);
    var hi := UpperBound(s, lo, c.squaredRadius);
    var i := FindBetween(s, lo, hi, c);
    if i < hi {
      return Fail("Concept violation, cannot insert twice the same circle in the circle proxy");
    }
    OnlyInEqualRange(s, lo, hi, c);
    InsertKeepsOrder(s, hi, c);
    r := Ok(Added(CircleProxy(InsertAt(s, hi, c), cp.arcs), hi));
  }

  /** `lower_bound`: the first position whose squared radius is not below
      `rr`. */
  method LowerBound(s: seq<Circle>, rr: int) returns (lo: nat)
    requires RadiusSorted(s)
    ensures lo <= |s|
    ensures forall k :: 0 <= k < lo ==> s[k].squaredRadius < rr
    ensures lo < |s| ==> s[lo].squaredRadius >= rr
  {
    lo := 0;
    while lo < |s| && s[lo].squaredRadius < rr
      invariant 0 <= lo <= |s|
      invariant forall k :: 0 <= k < lo ==> s[k].squaredRadius < rr
    {
      lo := lo + 1;
    }
  }

  /** `upper_bound` from `lo`: the first position after `lo` whose squared
      radius is above `rr`; every later one is above `rr` as well. */
  method UpperBound(s: seq<Circle>, lo: nat, rr: int) returns (hi: nat)
    requires RadiusSorted(s) && lo <= |s|
    requires forall k :: 0 <= k < lo ==> s[k].squaredRadius < rr
    ensures lo <= hi <= |s|
    ensures forall k :: 0 <= k < hi ==> s[k].squaredRadius <= rr
    ensures forall k :: hi <= k < |s| ==> s[k].squaredRadius > rr
  {
    hi := lo;
    while hi < |s| && s[hi].squaredRadius <= rr
      invariant lo <= hi <= |s|
      invariant forall k :: 0 <= k < hi ==> s[k].squaredRadius <= rr
    {
      hi := hi + 1;
    }
    forall k | hi <= k < |s| ensures s[k].squaredRadius > rr {
      assert s[hi].squaredRadius <= s[k].squaredRadius;
    }
  }

  /** `std::find` over `[lo, hi)`: the first position holding `c`, or `hi`. */
  method FindBetween(s: seq<Circle>, lo: nat, hi: nat, c: Circle) returns (i: nat)
    requires lo <= hi <= |s|
    ensures lo <= i <= hi
    ensures i < hi ==> s[i] == c
    ensures forall k :: lo <= k < i ==> s[k] != c
  {
    i := lo;
    while i < hi && s[i] != c
      invariant lo <= i <= hi
      invariant forall k :: lo <= k < i ==> s[k] != c
    {
      i := i + 1;
    }
  }

  /** A candidate list is accepted when no circle occurs twice, neither in
      the list nor in the store. */
  predicate FreshCircles(stored: seq<Circle>, cs: seq<Circle>)
  {
    && (forall i :: 0 <= i < |cs| ==> cs[i] !in stored)
    && (forall i, j :: 0 <= i < j < |cs| ==> cs[i] != cs[j])
  }

  /** What the first `n` circles of a range add to the store. */
  lemma PrefixMembers(stored: seq<Circle>, cs: seq<Circle>, n: nat, x: Circle)
    requires n <= |cs|
    ensures x in multiset(stored) + multiset(cs[..n]) <==> x in stored || exists a :: 0 <= a < n && cs[a] == x
  {
    assert x in cs[..n] <==> exists a :: 0 <= a < n && cs[a] == x by {
      if x in cs[..n] {
        var a :| 0 <= a < n && cs[..n][a] == x;
      }
      if exists a :: 0 <= a < n && cs[a] == x {
        var a :| 0 <= a < n && cs[a] == x;
        assert cs[..n][a] == x;
      }
    }
  }

  /** A circle of the range already present before its turn makes the
      range not fresh. */
  lemma RepeatNotFresh(stored: seq<Circle>, cs: seq<Circle>, i: nat)
    requires i < |cs| && cs[i] in multiset(stored) + multiset(cs[..i])
    ensures !FreshCircles(stored, cs)
  {
    PrefixMembers(stored, cs, i, cs[i]);
    if cs[i] !in stored {
      var a :| 0 <= a < i && cs[a] == cs[i];
    }
  }

  /** A circle absent before its turn extends a fresh prefix. */
  lemma FreshExtends(stored: seq<Circle>, cs: seq<Circle>, i: nat)
    requires i < |cs| && cs[i] !in multiset(stored) + multiset(cs[..i])
    requires forall a :: 0 <= a < i ==> cs[a] !in stored
    requires forall a, b :: 0 <= a < b < i ==> cs[a] != cs[b]
    ensures forall a :: 0 <= a < i + 1 ==> cs[a] !in stored
    ensures forall a, b :: 0 <= a < b < i + 1 ==> cs[a] != cs[b]
  {
    PrefixMembers(stored, cs, i, cs[i]);
  }

  /** `add_circle` seen from the store alone: refused exactly for a circle
      already present, and otherwise one more copy of it, in order. */
  method AddCircleToStore(cp: CircleProxy, c: Circle) returns (r: Result<CircleProxy>)
    requires RadiusSorted(cp.circles)
    ensures r.Fail? <==> c in cp.circles
    ensures r.Ok? ==> && RadiusSorted(r.value.circles)
                      && multiset(r.value.circles) == multiset(cp.circles) + multiset{c}
                      && r.value.arcs == cp.arcs
  {
    var a := AddCircle(cp, c);
    match a
    case Fail(why) => r := Fail(why);
    case Ok(added) => r := Ok(added.proxy);
  }

  /** One more circle of the range added to the store. */
  lemma AddedStep(stored: seq<Circle>, cs: seq<Circle>, i: nat, cur: seq<Circle>, next: seq<Circle>)
    requires i < |cs|
    requires multiset(cur) == multiset(stored) + multiset(cs[..i])
    requires multiset(next) == multiset(cur) + multiset{cs[i]}
    ensures multiset(next) == multiset(stored) + multiset(cs[..i + 1])
  {
    assert cs[..i + 1] == cs[..i] + [cs[i]];
  }

  /** The adder applied to a range of circles, stopping at the first one
      refused. */
  method AddCircles(cp: CircleProxy, cs: seq<Circle>) returns (r: Result<CircleProxy>)
    requires RadiusSorted(cp.circles)
    ensures r.Ok? <==> FreshCircles(cp.circles, cs)
    ensures r.Ok? ==> && RadiusSorted(r.value.circles)
                      && multiset(r.value.circles) == multiset(cp.circles) + multiset(cs)
                      && r.value.arcs == cp.arcs
  {
    var cur := cp;
    var i := 0;
    while i < |cs|
      invariant 0 <= i <= |cs|
      invariant RadiusSorted(cur.circles) && cur.arcs == cp.arcs
      invariant multiset(cur.circles) == multiset(cp.circles) + multiset(cs[..i])
      invariant forall a :: 0 <= a < i ==> cs[a] !in cp.circles
      invariant forall a, b :: 0 <= a < b < i ==> cs[a] != cs[b]
    {
      var step := AddCircleToStore(cur, cs[i]);
      if step.Fail? {
        assert cs[i] in multiset(cur.circles);
        RepeatNotFresh(cp.circles, cs, i);
        return Fail(step.reason);
      }
      assert cs[i] !in multiset(cur.circles);
      FreshExtends(cp.circles, cs, i);
      AddedStep(cp.circles, cs, i, cur.circles, step.value.circles);
      cur := step.value;
      i := i + 1;
    }
    assert cs[..i] == cs;
    r := Ok(cur);
  }

  /** `make_circle_handle` as written: `std::multiset::find` looks a circle
      up by the container's order, so it finds the first stored circle of
      the same squared radius, which may be a different circle. */
  function FindCircleAsWritten(cp: CircleProxy, c: Circle): (r: Result<nat>)
    ensures r.Fail? <==> forall k :: 0 <= k < |cp.circles| ==> cp.circles[k].squaredRadius != c.squaredRadius
    ensures r.Ok? ==> r.value < |cp.circles| && cp.circles[r.value].squaredRadius == c.squaredRadius
    ensures r.Ok? ==> forall k :: 0 <= k < r.value ==> cp.circles[k].squaredRadius != c.squaredRadius
  {
    FirstFrom(cp.circles, (x: Circle) => x.squaredRadius == c.squaredRadius, 0)
  }

  /** `make_circle_handle` as intended: the position of the circle itself. */
  function FindCircle(cp: CircleProxy, c: Circle): (r: Result<nat>)
    ensures r.Fail? <==> c !in cp.circles
    ensures r.Ok? ==> r.value < |cp.circles| && cp.circles[r.value] == c
    ensures r.Ok? ==> forall k :: 0 <= k < r.value ==> cp.circles[k] != c
  {
    FirstFrom(cp.circles, (x: Circle) => x == c, 0)
  }

  /** The first position from `i` on whose circle satisfies `p`; the lookup
      fails with `logic_error` when there is none. */
  function FirstFrom(s: seq<Circle>, p: Circle -> bool, i: nat): (r: Result<nat>)
    requires i <= |s|
    ensures r.Fail? <==> forall k :: i <= k < |s| ==> !p(s[k])
    ensures r.Ok? ==> i <= r.value < |s| && p(s[r.value])
    ensures r.Ok? ==> forall k :: i <= k < r.value ==> !p(s[k])
    decreases |s| - i
  {
    if i == |s| then Fail("Cannot make circle handle from circle which isn't present in the circle proxy")
    else if p(s[i]) then Ok(i)
    else FirstFrom(s, p, i + 1)
  }

  /** Two different circles of the same radius, the second one stored after
      the first: looking up the second as written yields the first. */
  lemma FindCircleAsWrittenConfusesEqualRadii(c1: Circle, c2: Circle)
    requires c1 != c2 && c1.squaredRadius == c2.squaredRadius
    ensures FindCircleAsWritten(CircleProxy([c1, c2], []), c2) == Ok(0)
    ensures CircleProxy([c1, c2], []).circles[0] != c2
    ensures FindCircle(CircleProxy([c1, c2], []), c2) == Ok(1)
  {
    assert CircleProxy([c1, c2], []).circles[1..] == [c2];
  }

  /** `Circular_arc_handle::circle()` as written: `make_circle_handle` on
      the supporting circle, whose `find` matches on the squared radius
      only, so any held circle of that radius may be answered. */
  function ArcCircleAsWritten(cp: CircleProxy, a: Arc): (r: Result<nat>)
    ensures r.Ok? <==> exists k :: 0 <= k < |cp.circles| && cp.circles[k].squaredRadius == a.support.squaredRadius
    ensures r.Ok? ==> r.value < |cp.circles| && cp.circles[r.value].squaredRadius == a.support.squaredRadius
  {
    FindCircleAsWritten(cp, a.support)
  }

  /** An arc on the second of two held circles of the same radius: as
      written its circle handle designates the first circle, while the
      intended lookup designates its own supporting circle. */
  lemma ArcCircleAsWrittenConfusesEqualRadii(c1: Circle, c2: Circle, a: Arc)
    requires c1 != c2 && c1.squaredRadius == c2.squaredRadius && a.support == c2
    ensures ArcCircleAsWritten(CircleProxy([c1, c2], [a]), a) == Ok(0)
    ensures ArcCircle(CircleProxy([c1, c2], [a]), a) == Ok(1)
  {
    FindCircleAsWrittenConfusesEqualRadii(c1, c2);
  }

  /** `Circular_arc_handle::circle()`: the handle of the supporting circle
      of an arc, looked up as intended. */
  function ArcCircle(cp: CircleProxy, a: Arc): (r: Result<nat>)
    ensures r.Ok? <==> a.support in cp.circles
    ensures r.Ok? ==> r.value < |cp.circles| && cp.circles[r.value] == a.support
  {
    FindCircle(cp, a.support)
  }

  // ---------------------------------------------------------------------
  // Splitting circles into arcs

  /** Split at one point: one arc, the whole circle cut open at `p`, is
      logged and its position returned. */
  function SplitAt(cp: CircleProxy, ch: nat, p: Point): (r: (CircleProxy, nat))
    requires ch < |cp.circles|
    ensures r.0.circles == cp.circles && |r.0.arcs| == |cp.arcs| + 1
    ensures r.1 == |cp.arcs| && r.0.arcs[r.1] == WholeArc(cp.circles[ch], p)
  {
    (cp.(arcs := cp.arcs + [WholeArc(cp.circles[ch], p)]), |cp.arcs|)
  }

  /** Split at two points: the arc from `source` to `target`, then the arc
      from `target` back to `source`, are logged and their positions
      returned. */
  function SplitBetween(cp: CircleProxy, ch: nat, source: Point, target: Point): (r: (CircleProxy, nat, nat))
    requires ch < |cp.circles|
    ensures r.0.circles == cp.circles && |r.0.arcs| == |cp.arcs| + 2
    ensures r.1 == |cp.arcs| && r.2 == r.1 + 1
    ensures r.0.arcs[r.1] == PartArc(cp.circles[ch], source, target)
    ensures r.0.arcs[r.2] == PartArc(cp.circles[ch], target, source)
  {
    (cp.(arcs := cp.arcs + [PartArc(cp.circles[ch], source, target), PartArc(cp.circles[ch], target, source)]),
     |cp.arcs|, |cp.arcs| + 1)
  }

  /** Splitting only appends to the arc log: every earlier arc keeps its
      position, the circle store is
      untouched, and each new arc lies on the split circle; the two halves
      of a two-point split run between the same points in opposite
      directions. */
  lemma SplitsOnlyAppend(cp: CircleProxy, ch: nat, p: Point, q: Point)
    requires ch < |cp.circles|
    ensures var (cp', i) := SplitAt(cp, ch, p);
            && cp'.arcs[..|cp.arcs|] == cp.arcs && cp'.arcs[i].support == cp.circles[ch]
            && cp'.arcs[i].SquaredRadius() == cp.circles[ch].squaredRadius
    ensures var (cp', i, j) := SplitBetween(cp, ch, p, q);
            && cp'.arcs[..|cp.arcs|] == cp.arcs
            && cp'.arcs[i].support == cp'.arcs[j].support == cp.circles[ch]
            && cp'.arcs[i].source == cp'.arcs[j].target && cp'.arcs[i].target == cp'.arcs[j].source
  {
    var (cp1, i) := SplitAt(cp, ch, p);
    assert cp1.arcs[..|cp.arcs|] == cp.arcs;
    var (cp2, i2, j2) := SplitBetween(cp, ch, p, q);
    assert cp2.arcs[..|cp.arcs|] == cp.arcs;
  }
}

=== FILE: events.dfy ===
/** Event records of the sweep (Event_queue.h): the events attached to a
    sphere of the arrangement, the builders that fill them in, the three kinds
    of event sites with the fixed precedence between sites of different kinds,
    and the event queue.

    Points, vectors and the ordering of two sites of the same kind are
    geometric; the latter is an oracle (`SameKindOrder`). */
module Events {
  import opened Handles
  import opened Geometry
  import opened Priority

  datatype Tag = Start | End
  datatype Pole = North | South
  datatype IntersectionType = SmallestCrossing | LargestCrossing | Tangency

  /** A critical event: the sweep meridian is tangent to `circle`. */
  datatype CriticalEvent = CriticalEvent(sphere: Handle, circle: Handle, tag: Tag, point: Point)
  {
    predicate IsStart() { tag == Start }
    predicate IsEnd() { tag == End }
  }

  /** Two arcs cross or touch at `point`. */
  datatype IntersectionEvent = IntersectionEvent(
    sphere: Handle, itype: IntersectionType, circles: (Handle, Handle), point: Point)

  /** A critical event at one of the poles of the sphere. */
  datatype PolarEvent = PolarEvent(sphere: Handle, circle: Handle, tag: Tag, point: Point, pole: Pole)
  {
    predicate IsStart() { tag == Start }
    predicate IsEnd() { tag == End }
    predicate IsNorth() { pole == North }
    predicate IsSouth() { pole == South }
    function Critical(): CriticalEvent { CriticalEvent(sphere, circle, tag, point) }
  }

  /** A circle through both poles, entered or left at the meridian whose
      plane has normal `normal`. */
  datatype BipolarEvent = BipolarEvent(sphere: Handle, circle: Handle, tag: Tag, normal: Vector)
  {
    predicate IsStart() { tag == Start }
    predicate IsEnd() { tag == End }
  }

  // ---------------------------------------------------------------------
  // Equality operators

  /** `Circle_event::operator==`: tag and circle; the sphere is ignored. */
  predicate CircleEventEq(tag1: Tag, circle1: Handle, tag2: Tag, circle2: Handle)
  {
    tag1 == tag2 && circle1 == circle2
  }

  predicate CriticalEq(a: CriticalEvent, b: CriticalEvent)
  {
    CircleEventEq(a.tag, a.circle, b.tag, b.circle) && a.point == b.point
  }

  predicate PolarEq(a: PolarEvent, b: PolarEvent)
  {
    CriticalEq(a.Critical(), b.Critical()) && a.pole == b.pole
  }

  /** Bipolar events have no operator of their own: the inherited
      `Circle_event::operator==` applies, so the normal is ignored. */
  predicate BipolarEq(a: BipolarEvent, b: BipolarEvent)
  {
    CircleEventEq(a.tag, a.circle, b.tag, b.circle)
  }

  predicate IntersectionEq(a: IntersectionEvent, b: IntersectionEvent)
  {
    a.itype == b.itype && a.circles == b.circles && a.point == b.point
  }

  /** Event equality is structural equality up to the source sphere (and,
      for bipolar events, up to the normal), and the equalities refine one
      another: polar, then critical, then circle-event equality. */
  lemma EqualityIgnoresSphere(a: PolarEvent, b: PolarEvent, i: IntersectionEvent, j: IntersectionEvent, c: BipolarEvent, d: BipolarEvent)
    ensures PolarEq(a, b) <==> a.(sphere := b.sphere) == b
    ensures CriticalEq(a.Critical(), b.Critical()) <==> a.Critical().(sphere := b.sphere) == b.Critical()
    ensures IntersectionEq(i, j) <==> i.(sphere := j.sphere) == j
    ensures BipolarEq(c, d) <==> c.(sphere := d.sphere, normal := d.normal) == d
    ensures PolarEq(a, b) ==> CriticalEq(a.Critical(), b.Critical())
    ensures CriticalEq(a.Critical(), b.Critical()) ==> CircleEventEq(a.tag, a.circle, b.tag, b.circle)
  {
  }

  // ---------------------------------------------------------------------
  // Builders

  /** `Event_builder`: remembers the sphere every built event is linked to. */
  datatype EventBuilder = EventBuilder(sphere: Handle)
  {
    function PrepareCircleEvent(c: Handle): (b: CircleEventBuilder)
      ensures b.sphere == sphere && b.circle == c
    {
      CircleEventBuilder(sphere, c)
    }

    function Intersection(first: Handle, second: Handle, point: Point, itype: IntersectionType): (e: IntersectionEvent)
      ensures e.sphere == sphere && e.circles == (first, second) && e.point == point && e.itype == itype
    {
      IntersectionEvent(sphere, itype, (first, second), point)
    }
  }

  /** `Circle_event_builder`: also remembers the circle. */
  datatype CircleEventBuilder = CircleEventBuilder(sphere: Handle, circle: Handle)
  {
    function Critical(point: Point, tag: Tag): (e: CriticalEvent)
      ensures e.sphere == sphere && e.circle == circle && e.point == point && e.tag == tag
    {
      CriticalEvent(sphere, circle, tag, point)
    }

    function Polar(point: Point, pole: Pole, tag: Tag): (e: PolarEvent)
      ensures e.sphere == sphere && e.circle == circle && e.point == point && e.pole == pole && e.tag == tag
      ensures e.Critical() == Critical(point, tag)
    {
      PolarEvent(sphere, circle, tag, point, pole)
    }

    function Bipolar(normal: Vector, tag: Tag): (e: BipolarEvent)
      ensures e.sphere == sphere && e.circle == circle && e.normal == normal && e.tag == tag
    {
      BipolarEvent(sphere, circle, tag, normal)
    }
  }

  /** Every event is built back from its own fields: the builders set each
      field from their arguments and leave nothing else to chance. */
  lemma BuildersReproduceEvents(c: CriticalEvent, p: PolarEvent, b: BipolarEvent, i: IntersectionEvent)
    ensures EventBuilder(c.sphere).PrepareCircleEvent(c.circle).Critical(c.point, c.tag) == c
    ensures EventBuilder(p.sphere).PrepareCircleEvent(p.circle).Polar(p.point, p.pole, p.tag) == p
    ensures EventBuilder(b.sphere).PrepareCircleEvent(b.circle).Bipolar(b.normal, b.tag) == b
    ensures EventBuilder(i.sphere).Intersection(i.circles.0, i.circles.1, i.point, i.itype) == i
  {
  }

  // ---------------------------------------------------------------------
  // Event sites

  /** A normal site: the events of one sphere at one point. The order in
      which `add_event` files them is not visible; the site keeps them in
      the order they were added. */
  datatype NormalSite = NormalSite(
    point: Point, sphere: Handle,
    critical: seq<CriticalEvent>, intersections: seq<IntersectionEvent>)
  {
    function Starts(): (r: seq<CriticalEvent>)
      ensures forall e :: e in r <==> e in critical && e.IsStart()
    {
      Filter(critical, Start)
    }

    function Ends(): (r: seq<CriticalEvent>)
      ensures forall e :: e in r <==> e in critical && e.IsEnd()
    {
      Filter(critical, End)
    }
  }

  function Filter(es: seq<CriticalEvent>, tag: Tag): (r: seq<CriticalEvent>)
    ensures forall e :: e in r <==> e in es && e.tag == tag
  {
    if es == [] then []
    else (if es[0].tag == tag then [es[0]] else []) + Filter(es[1..], tag)
  }

  /** The empty site built at `p` for sphere `s`. */
  function NewNormalSite(s: Handle, p: Point): (n: NormalSite)
    ensures n.point == p && n.sphere == s && n.critical == [] && n.intersections == []
  {
    NormalSite(p, s, [], [])
  }

  function AddCritical(n: NormalSite, e: CriticalEvent): (r: NormalSite)
    ensures r.critical == n.critical + [e]
    ensures r.point == n.point && r.sphere == n.sphere && r.intersections == n.intersections
  {
    n.(critical := n.critical + [e])
  }

  function AddIntersection(n: NormalSite, e: IntersectionEvent): (r: NormalSite)
    ensures r.intersections == n.intersections + [e]
    ensures r.point == n.point && r.sphere == n.sphere && r.critical == n.critical
  {
    n.(intersections := n.intersections + [e])
  }

  datatype PolarSite = PolarSite(event: PolarEvent)
  datatype BipolarSite = BipolarSite(event: BipolarEvent)

  datatype SiteKind = NoSite | Normal | Polar | Bipolar

  /** `Any_event_site`. */
  datatype AnySite = NormalAt(normal: NormalSite) | PolarAt(polar: PolarSite) | BipolarAt(bipolar: BipolarSite)
  {
    function Kind(): (k: SiteKind)
      ensures k != NoSite
      ensures k == Normal <==> NormalAt?
      ensures k == Polar <==> PolarAt?
      ensures k == Bipolar <==> BipolarAt?
    {
      match this
      case NormalAt(_) => Normal
      case PolarAt(_) => Polar
      case BipolarAt(_) => Bipolar
    }
  }

  // ---------------------------------------------------------------------
  // Precedence between sites

  /** Precedence between two sites of the same kind: geometric, defined
      elsewhere. */
  datatype SameKindOrder = SameKindOrder(
    normal: (NormalSite, NormalSite) -> bool,
    polar: (PolarSite, PolarSite) -> bool,
    bipolar: (BipolarSite, BipolarSite) -> bool)

  predicate PolarBeforeNormal(p: PolarSite, n: NormalSite) { p.event.IsEnd() }
  predicate BipolarBeforeNormal(b: BipolarSite, n: NormalSite) { true }
  predicate BipolarBeforePolar(b: BipolarSite, p: PolarSite) { !p.event.IsEnd() }

  /** The three remaining cross-kind rules are the negated mirror images. */
  predicate NormalBeforePolar(n: NormalSite, p: PolarSite) { !PolarBeforeNormal(p, n) }
  predicate NormalBeforeBipolar(n: NormalSite, b: BipolarSite) { !BipolarBeforeNormal(b, n) }
  predicate PolarBeforeBipolar(p: PolarSite, b: BipolarSite) { !BipolarBeforePolar(b, p) }

  /** `a.occurs_before(b)` for any two sites. */
  predicate OccursBefore(a: AnySite, b: AnySite, same: SameKindOrder)
  {
    match (a, b)
    case (NormalAt(x), NormalAt(y)) => same.normal(x, y)
    case (NormalAt(x), PolarAt(y)) => NormalBeforePolar(x, y)
    case (NormalAt(x), BipolarAt(y)) => NormalBeforeBipolar(x, y)
    case (PolarAt(x), NormalAt(y)) => PolarBeforeNormal(x, y)
    case (PolarAt(x), PolarAt(y)) => same.polar(x, y)
    case (PolarAt(x), BipolarAt(y)) => PolarBeforeBipolar(x, y)
    case (BipolarAt(x), NormalAt(y)) => BipolarBeforeNormal(x, y)
    case (BipolarAt(x), PolarAt(y)) => BipolarBeforePolar(x, y)
    case (BipolarAt(x), BipolarAt(y)) => same.bipolar(x, y)
  }

  /** Position of a site in the cross-kind precedence: polar end sites
      first, then bipolar sites, then normal sites, then polar start sites. */
  function Rank(a: AnySite): nat
  {
    match a
    case PolarAt(p) => if p.event.IsEnd() then 0 else 3
    case BipolarAt(_) => 1
    case NormalAt(_) => 2
  }

  /** Between sites of different kinds the precedence rules are the order
      of `Rank`: consistent (exactly one of two sites of different kinds
      comes first) and transitive. */
  lemma CrossKindIsRankOrder(a: AnySite, b: AnySite, same: SameKindOrder)
    requires a.Kind() != b.Kind()
    ensures OccursBefore(a, b, same) <==> Rank(a) < Rank(b)
    ensures OccursBefore(a, b, same) <==> !OccursBefore(b, a, same)
  {
  }

  /** The consequences spelled out: a bipolar site precedes every normal
      site and never follows one; a polar site precedes a normal site
      exactly when it is an end. */
  lemma CrossKindRules(n: NormalSite, p: PolarSite, b: BipolarSite, same: SameKindOrder)
    ensures OccursBefore(BipolarAt(b), NormalAt(n), same) && !OccursBefore(NormalAt(n), BipolarAt(b), same)
    ensures OccursBefore(PolarAt(p), NormalAt(n), same) <==> p.event.IsEnd()
    ensures OccursBefore(NormalAt(n), PolarAt(p), same) <==> p.event.IsStart()
    ensures OccursBefore(BipolarAt(b), PolarAt(p), same) <==> p.event.IsStart()
    ensures OccursBefore(PolarAt(p), BipolarAt(b), same) <==> p.event.IsEnd()
  {
  }

  // ---------------------------------------------------------------------
  // The queue

  /** The queue's contents, as a bag; `less` is `Any_event_site::operator<`,
      whose definition is not part of this model. */
  datatype EventQueue = EventQueue(sites: seq<AnySite>)
  {
    predicate IsEmpty() { |sites| == 0 }
    function Size(): nat { |sites| }
  }

  function Clear(q: EventQueue): (r: EventQueue)
    ensures r.IsEmpty() && r.Size() == 0
  {
    EventQueue([])
  }

  function Push(q: EventQueue, s: AnySite): (r: EventQueue)
    ensures r.Size() == q.Size() + 1 && !r.IsEmpty()
    ensures multiset(r.sites) == multiset(q.sites) + multiset{s}
  {
    EventQueue(q.sites + [s])
  }

  /** The site `top()` returns. */
  function TopSite(q: EventQueue, less: (AnySite, AnySite) -> bool): (t: AnySite)
    requires !q.IsEmpty()
    ensures t in q.sites
  {
    Top(q.sites, less)
  }

  /** `next_event()`: the kind of the top site, or `None` when empty. */
  function NextEvent(q: EventQueue, less: (AnySite, AnySite) -> bool): (k: SiteKind)
    ensures k == NoSite <==> q.IsEmpty()
    ensures k != NoSite ==> exists s :: s in q.sites && s.Kind() == k
  {
    if q.IsEmpty() then NoSite else TopSite(q, less).Kind()
  }

  /** When `less` is a strict order, `next_event()` reports the kind of a
      site that nothing in the queue is greater than; after `clear()` and
      one `push` it reports the kind of the pushed site. */
  lemma NextEventIsMaximalKind(q: EventQueue, less: (AnySite, AnySite) -> bool, s: AnySite)
    requires StrictOrderOn(q.sites, less)
    ensures !q.IsEmpty() ==> exists t :: t in q.sites && NextEvent(q, less) == t.Kind()
                                         && forall x :: x in q.sites ==> !less(t, x)
    ensures NextEvent(Push(Clear(q), s), less) == s.Kind()
  {
    if !q.IsEmpty() {
      TopIsMaximal(q.sites, less);
      var t := TopSite(q, less);
      assert NextEvent(q, less) == t.Kind();
    }
  }
}

=== FILE: geometry.dfy ===
/** Geometric values, kept opaque: the model only compares them for equality,
    reads the z coordinate of a point and the squared radius of a circle or
    sphere. Every real geometric computation (intersections, theta ordering,
    classification) is an oracle passed in as a function parameter. */
module Geometry {

  datatype Point = Point(x: int, y: int, z: int)

  datatype Vector = Vector(dx: int, dy: int, dz: int)
  {
    /** The opposite vector, `-v`. */
    function Neg(): Vector { Vector(-dx, -dy, -dz) }
  }

  datatype Sphere = Sphere(center: Point, squaredRadius: int)

  /** A circle in space: centre, squared radius and the normal of its plane. */
  datatype Circle = Circle(center: Point, squaredRadius: int, normal: Vector)

  /** A circular arc on a supporting circle: either the whole circle cut open
      at one point, or the arc running from `source` to `target`. */
  datatype Arc =
    | WholeArc(support: Circle, at: Point)
    | PartArc(support: Circle, source: Point, target: Point)
  {
    function SquaredRadius(): int { support.squaredRadius }
  }

  /** `-(-v) == v`, and a vector differs from its opposite unless it is zero. */
  lemma NegInvolutive(v: Vector)
    ensures v.Neg().Neg() == v
    ensures v != Vector(0, 0, 0) ==> v.Neg() != v
  {
  }
}

=== FILE: geomview_panel.dfy ===
/** The Geomview command that shows or hides one of its panels
    (tests/LinearCellComplex/Geomview_stream_extension.cpp), as the text
    written to the stream: `(ui-panel <name> on)` or `(ui-panel <name> off)`. */
module GeomviewPanel {
  import opened Results
  import opened Text

  /** `Geomview_panel::Identifier`. */
  datatype Panel = Geomview | Tools | Appearance | Cameras | Lighting | Obscure | Materials | Command | Credits

  /** The name Geomview knows each panel by. */
  function PanelName(p: Panel): (name: string)
    ensures name != [] && NoSpace(name) && ')' !in name
  {
    match p
    case Geomview => "geomview"
    case Tools => "tools"
    case Appearance => "appearance"
    case Cameras => "cameras"
    case Lighting => "lighting"
    case Obscure => "obscure"
    case Materials => "materials"
    case Command => "command"
    case Credits => "credits"
  }

  function Switch(enabled: bool): (word: string)
    ensures word != [] && NoSpace(word) && ')' !in word
  {
    if enabled then "on" else "off"
  }

  const Prefix: string := "(ui-panel "

  /** `set_panel_enabled(gv, panel, enabled)`: the text written. */
  function SetPanelEnabled(panel: Panel, enabled: bool): (cmd: string)
    ensures |cmd| > |Prefix| && cmd[..|Prefix|] == Prefix && cmd[|cmd| - 1] == ')'
    ensures cmd[|Prefix|..|cmd| - 1] == PanelName(panel) + " " + Switch(enabled)
  {
    var cmd := Prefix + PanelName(panel) + " " + Switch(enabled) + ")";
    assert cmd[|Prefix|..|cmd| - 1] == PanelName(panel) + " " + Switch(enabled);
    cmd
  }

  /** The panel a name designates. */
  function PanelNamed(name: string): (r: Option<Panel>)
    ensures r.Some? ==> PanelName(r.value) == name
  {
    if name == "geomview" then Some(Geomview)
    else if name == "tools" then Some(Tools)
    else if name == "appearance" then Some(Appearance)
    else if name == "cameras" then Some(Cameras)
    else if name == "lighting" then Some(Lighting)
    else if name == "obscure" then Some(Obscure)
    else if name == "materials" then Some(Materials)
    else if name == "command" then Some(Command)
    else if name == "credits" then Some(Credits)
    else None
  }

  /** Reading a panel command back: the panel and the switch it sets. */
  function ParsePanelCommand(cmd: string): (r: Option<(Panel, bool)>)
    ensures r.Some? ==> SetPanelEnabled(r.value.0, r.value.1) == cmd
  {
    if |cmd| <= |Prefix| || cmd[..|Prefix|] != Prefix || cmd[|cmd| - 1] != ')' then None
    else
      var words := Split(cmd[|Prefix|..|cmd| - 1]);
      if |words| != 2 || (words[1] != "on" && words[1] != "off") then None
      else
        match PanelNamed(words[0])
        case None => None
        case Some(p) =>
          var enabled := words[1] == "on";
          if SetPanelEnabled(p, enabled) == cmd then Some((p, enabled)) else None
  }

  /** Every command written is read back as the panel and switch it was
      written for; in particular no two (panel, switch) pairs give the same
      command, and no two panels share a name. */
  lemma {:induction false} PanelCommandRoundTrip(panel: Panel, enabled: bool)
    ensures ParsePanelCommand(SetPanelEnabled(panel, enabled)) == Some((panel, enabled))
  {
    var cmd := SetPanelEnabled(panel, enabled);
    var words := [PanelName(panel), Switch(enabled)];
    assert Join(" ", words) == PanelName(panel) + " " + Switch(enabled);
    assert cmd[|Prefix|..|cmd| - 1] == Join(" ", words);
    SplitJoinRoundTrip(words);
    assert (words[1] == "on") == enabled;
    PanelNamedInverts(panel);
  }

  /** Every panel is found again from its name. */
  lemma PanelNamedInverts(p: Panel)
    ensures PanelNamed(PanelName(p)) == Some(p)
  {
    match p
    case Geomview =>
    case Tools =>
    case Appearance =>
    case Cameras =>
    case Lighting =>
    case Obscure =>
    case Materials =>
    case Command =>
    case Credits =>
  }

  lemma PanelCommandInjective(p1: Panel, e1: bool, p2: Panel, e2: bool)
    requires SetPanelEnabled(p1, e1) == SetPanelEnabled(p2, e2)
    ensures p1 == p2 && e1 == e2
  {
    PanelCommandRoundTrip(p1, e1);
    PanelCommandRoundTrip(p2, e2);
  }
}

=== FILE: handle.dfy ===
/** Non-owning references (Handle.h): a handle is the address of the object it
    designates, address 0 being the null handle. Every comparison operator is
    delegated to the address, so handles are ordered as addresses are. */
module Handles {

  datatype Handle = Handle(addr: nat)
  {
    predicate IsNull() { addr == 0 }

    /** The raw address, `ptr()`. */
    function Ptr(): nat { addr }

    predicate Less(o: Handle) { addr < o.addr }
    predicate Greater(o: Handle) { addr > o.addr }
    predicate LessEq(o: Handle) { addr <= o.addr }
    predicate GreaterEq(o: Handle) { addr >= o.addr }
    predicate Eq(o: Handle) { addr == o.addr }
    predicate Neq(o: Handle) { addr != o.addr }
  }

  /** A default-constructed handle. */
  function NullHandle(): (h: Handle)
    ensures h.IsNull()
    ensures forall o: Handle :: !o.IsNull() ==> h.Less(o)
  {
    Handle(0)
  }

  /** A handle built from an object living at `address` (never 0). */
  function HandleTo(address: nat): (h: Handle)
    requires address > 0
    ensures !h.IsNull() && h.Ptr() == address
    ensures h.Neq(NullHandle())
  {
    Handle(address)
  }

  /** Two handles compare equal exactly when they are the same handle, and the
      six operators are the address order: `<` is a strict total order, `>` its
      converse, `<=`/`>=` its reflexive closures and `!=` the negation of `==`. */
  lemma ComparisonsAreAddressOrder(a: Handle, b: Handle, c: Handle)
    ensures a.Eq(b) <==> a == b
    ensures a.Neq(b) <==> !a.Eq(b)
    ensures !a.Less(a)
    ensures a.Less(b) && b.Less(c) ==> a.Less(c)
    ensures a.Less(b) || a.Eq(b) || b.Less(a)
    ensures a.Greater(b) <==> b.Less(a)
    ensures a.LessEq(b) <==> a.Less(b) || a.Eq(b)
    ensures a.GreaterEq(b) <==> b.LessEq(a)
  {
  }

  /** A stored object: its address and its value. */
  datatype Cell<T> = Cell(addr: nat, value: T)

  /** Handles to the objects of `cells`, in storage order. */
  function HandlesOf<T>(cells: seq<Cell<T>>): (hs: seq<Handle>)
    ensures |hs| == |cells|
    ensures forall i :: 0 <= i < |cells| ==> hs[i].addr == cells[i].addr
  {
    if cells == [] then [] else [Handle(cells[0].addr)] + HandlesOf(cells[1..])
  }

  /** `Handle_iterator`: a position in a storage list; dereferencing yields a
      handle to the current element rather than the element itself. */
  datatype HandleIterator = HandleIterator(pos: nat)
  {
    /** Prefix `++`: the advanced iterator. */
    function Next(): (it: HandleIterator)
      ensures it.pos == pos + 1
    {
      HandleIterator(pos + 1)
    }

    /** Postfix `++`: the pair (value returned, iterator after the call). */
    function PostNext(): (r: (HandleIterator, HandleIterator))
      ensures r.0 == this && r.1 == Next()
      ensures r.1 != r.0
    {
      (this, Next())
    }

    predicate Equals(o: HandleIterator) { pos == o.pos }

    predicate NotEquals(o: HandleIterator) { !Equals(o) }

    /** `*it`: a handle to the element under the iterator. */
    function Deref<T>(cells: seq<Cell<T>>): (h: Handle)
      requires pos < |cells|
      ensures h.Ptr() == cells[pos].addr
    {
      Handle(cells[pos].addr)
    }
  }

  /** The handles visited by walking from `first` up to (excluding) `last`. */
  function Walk<T>(cells: seq<Cell<T>>, first: HandleIterator, last: HandleIterator): seq<Handle>
    requires first.pos <= last.pos <= |cells|
    decreases last.pos - first.pos
  {
    if first.Equals(last) then [] else [first.Deref(cells)] + Walk(cells, first.Next(), last)
  }

  /** The same walk written with postfix `++`, `*it++`: the handle under
      the iterator returned by the increment. */
  function PostfixWalk<T>(cells: seq<Cell<T>>, first: HandleIterator, last: HandleIterator): seq<Handle>
    requires first.pos <= last.pos <= |cells|
    decreases last.pos - first.pos
  {
    if first.Equals(last) then []
    else
      var (before, after) := first.PostNext();
      [before.Deref(cells)] + PostfixWalk(cells, after, last)
  }

  /** Walking from `first` to `last`, with prefix or with postfix `++`,
      visits each position between them once, in increasing order, and
      yields at the i-th step a handle to the object `i` places after
      `first`. */
  lemma {:induction false} WalkInOrder<T>(cells: seq<Cell<T>>, first: HandleIterator, last: HandleIterator)
    requires first.pos <= last.pos <= |cells|
    ensures PostfixWalk(cells, first, last) == Walk(cells, first, last)
    ensures |Walk(cells, first, last)| == last.pos - first.pos
    ensures forall i :: 0 <= i < last.pos - first.pos ==> Walk(cells, first, last)[i].Ptr() == cells[first.pos + i].addr
    decreases last.pos - first.pos
  {
    if first.pos < last.pos {
      WalkInOrder(cells, first.Next(), last);
      var w := Walk(cells, first, last);
      assert w == [first.Deref(cells)] + Walk(cells, first.Next(), last);
      forall i | 1 <= i < last.pos - first.pos ensures w[i].Ptr() == cells[first.pos + i].addr {
        assert w[i] == Walk(cells, first.Next(), last)[i - 1];
      }
    }
  }

  /** Walking a storage list from its begin to its end yields a handle to every
      stored object, in storage order. */
  lemma {:induction false} WalkVisitsStorage<T>(cells: seq<Cell<T>>, from: nat)
    requires from <= |cells|
    ensures Walk(cells, HandleIterator(from), HandleIterator(|cells|)) == HandlesOf(cells[from..])
    decreases |cells| - from
  {
    if from < |cells| {
      WalkVisitsStorage(cells, from + 1);
      assert cells[from..][1..] == cells[from + 1..];
    }
  }
}

=== FILE: priority.dfy ===
/** The top of a `std::priority_queue` under a caller-supplied "less than":
    the standard only promises that `top()` is an element nothing in the
    queue is greater than. The model takes the element a left-to-right scan
    keeps, replacing the current best whenever a later element is greater. */
module Priority {

  /** `less` is a strict partial order on the elements of `s`. */
  ghost predicate StrictOrderOn<T(!new)>(s: seq<T>, less: (T, T) -> bool)
  {
    && (forall a :: a in s ==> !less(a, a))
    && (forall a, b, c :: a in s && b in s && c in s && less(a, b) && less(b, c) ==> less(a, c))
  }

  function Top<T>(s: seq<T>, less: (T, T) -> bool): (m: T)
    requires |s| > 0
    ensures m in s
    decreases |s|
  {
    if |s| == 1 then s[0]
    else
      var best := Top(s[..|s| - 1], less);
      if less(best, s[|s| - 1]) then s[|s| - 1] else best
  }

  /** Under a strict partial order no element of the queue is greater than
      its top. */
  lemma {:induction false} TopIsMaximal<T(!new)>(s: seq<T>, less: (T, T) -> bool)
    requires |s| > 0 && StrictOrderOn(s, less)
    ensures forall x :: x in s ==> !less(Top(s, less), x)
    decreases |s|
  {
    if |s| > 1 {
      var init := s[..|s| - 1];
      var last := s[|s| - 1];
      assert forall x :: x in init ==> x in s;
      assert StrictOrderOn(init, less);
      TopIsMaximal(init, less);
      forall x | x in s ensures x in init || x == last {
        var i :| 0 <= i < |s| && s[i] == x;
        if i < |s| - 1 { assert init[i] == x; }
      }
    }
  }

  /** An element pushed on top of everything becomes the new top. */
  lemma PushedGreatestIsTop<T>(s: seq<T>, x: T, less: (T, T) -> bool)
    requires |s| > 0 && forall y :: y in s ==> less(y, x)
    ensures Top(s + [x], less) == x
  {
    assert (s + [x])[..|s|] == s;
  }
}

=== FILE: proto_events.dfy ===
/** The older event-queue prototype (tests/Sphere_Sweep_Line/Event_queue.h):
    tagged normal and polar events carrying arcs, normal event sites that
    sort incoming events into starts and ends, the full precedence between
    polar sites, and a queue made of one priority queue per site kind.

    The order of two normal sites compares their points by theta then z; it
    is geometric and passed in as `thetaZLess`. */
module ProtoEvents {
  import opened Geometry
  import opened Results
  import opened Priority
  import E = Events

  /** A normal event: the pair of arcs around its circle and a tag. */
  datatype NormalEvent = NormalEvent(tag: E.Tag, arcs: (Arc, Arc))
  {
    predicate IsStart() { tag == E.Start }
    predicate IsEnd() { tag == E.End }
  }

  datatype Polarity = Single | Dual

  /** A polar (`Single`) or bipolar (`Dual`) event: the arc of its circle, a
      tag, a polarity flag and a pole. */
  datatype PolarEvent = PolarEvent(tag: E.Tag, arc: Arc, polarity: Polarity, pole: E.Pole)
  {
    predicate IsStart() { tag == E.Start }
    predicate IsEnd() { tag == E.End }
    predicate IsSinglePolar() { polarity == Single }
    predicate IsBipolar() { polarity == Dual }
    predicate IsNorth() { pole == E.North }

    /** `is_south()` as written: it tests for the north pole. */
    predicate IsSouthAsWritten() { pole == E.North }

    /** `is_south()` as intended. */
    predicate IsSouth() { pole == E.South }
  }

  /** A crossing or tangency of two arcs. */
  datatype IntersectionEvent = IntersectionEvent(arcs: (Arc, Arc), itype: E.IntersectionType)

  /** `is_south()` as written answers the same as `is_north()`, so a south
      polar event is never recognised as such. */
  lemma IsSouthAsWrittenIsNorth(e: PolarEvent)
    ensures e.IsSouthAsWritten() == e.IsNorth()
    ensures e.pole == E.South ==> !e.IsSouthAsWritten()
  {
  }

  /** The corrected `is_south()` holds exactly at the south pole, and every
      polar event is at exactly one of the two poles. */
  lemma PolesAreExclusive(e: PolarEvent)
    ensures e.IsSouth() <==> e.pole == E.South
    ensures e.IsSouth() <==> !e.IsNorth()
  {
  }

  // ---------------------------------------------------------------------
  // Normal event sites

  /** `Normal_event_site`: a point and the events located there. */
  datatype NormalSite = NormalSite(
    point: Point,
    starts: multiset<NormalEvent>,
    ends: multiset<NormalEvent>,
    cts: seq<IntersectionEvent>)

  function NewNormalSite(p: Point): (n: NormalSite)
    ensures n.point == p && |n.starts| == 0 && |n.ends| == 0 && n.cts == []
  {
    NormalSite(p, multiset{}, multiset{}, [])
  }

  /** The debug checks of `add_event`: both arcs lie on the same circle, and
      that circle passes through the site's point (`hasOn` is the circle's
      `has_on`). */
  predicate ValidAt(ev: NormalEvent, p: Point, hasOn: (Circle, Point) -> bool)
  {
    ev.arcs.0.support == ev.arcs.1.support && hasOn(ev.arcs.0.support, p)
  }

  /** `add_event` for a normal event; a failed debug check throws. */
  function AddEvent(n: NormalSite, ev: NormalEvent, hasOn: (Circle, Point) -> bool): (r: Result<NormalSite>)
    ensures r.Ok? <==> ValidAt(ev, n.point, hasOn)
    ensures r.Ok? ==> r.value.point == n.point && r.value.cts == n.cts
    ensures r.Ok? && ev.IsStart() ==> r.value.starts == n.starts + multiset{ev} && r.value.ends == n.ends
    ensures r.Ok? && ev.IsEnd() ==> r.value.ends == n.ends + multiset{ev} && r.value.starts == n.starts
  {
    if ev.arcs.0.support != ev.arcs.1.support then Fail("Normal event isn't valid, arcs do not lie on the same circle")
    else if !hasOn(ev.arcs.0.support, n.point) then Fail("Can only add valid events to normal event site")
    else if ev.IsStart() then Ok(n.(starts := n.starts + multiset{ev}))
    else Ok(n.(ends := n.ends + multiset{ev}))
  }

  /** `add_event` for an intersection event: appended, never checked. */
  function AddIntersection(n: NormalSite, ev: IntersectionEvent): (r: NormalSite)
    ensures r.cts == n.cts + [ev] && r.point == n.point
    ensures r.starts == n.starts && r.ends == n.ends
  {
    n.(cts := n.cts + [ev])
  }

  /** The range version of `add_event`: one call per event, stopping at the
      first that throws. */
  function AddEvents(n: NormalSite, evs: seq<NormalEvent>, hasOn: (Circle, Point) -> bool): (r: Result<NormalSite>)
    ensures r.Ok? ==> r.value.point == n.point && r.value.cts == n.cts
    decreases |evs|
  {
    if evs == [] then Ok(n)
    else
      match AddEvent(n, evs[0], hasOn)
      case Fail(why) => Fail(why)
      case Ok(n') => AddEvents(n', evs[1..], hasOn)
  }

  /** The events of `evs` carrying tag `t`, in order. */
  function Tagged(evs: seq<NormalEvent>, t: E.Tag): (r: seq<NormalEvent>)
  {
    if evs == [] then []
    else (if evs[0].tag == t then [evs[0]] else []) + Tagged(evs[1..], t)
  }

  /** Adding a range succeeds exactly when every event passes the debug
      checks; the site then holds its earlier events plus exactly the start
      events of the range among its starts and the end events among its
      ends. */
  lemma AddEventsSpec(n: NormalSite, evs: seq<NormalEvent>, hasOn: (Circle, Point) -> bool)
    ensures AddEvents(n, evs, hasOn).Ok? <==> forall e :: e in evs ==> ValidAt(e, n.point, hasOn)
    ensures AddEvents(n, evs, hasOn).Ok? ==>
              && AddEvents(n, evs, hasOn).value.starts == n.starts + multiset(Tagged(evs, E.Start))
              && AddEvents(n, evs, hasOn).value.ends == n.ends + multiset(Tagged(evs, E.End))
  {
    AddEventsSucceeds(n, evs, hasOn);
    AddEventsContents(n, evs, hasOn);
  }

  lemma {:induction false} AddEventsSucceeds(n: NormalSite, evs: seq<NormalEvent>, hasOn: (Circle, Point) -> bool)
    ensures AddEvents(n, evs, hasOn).Ok? <==> forall e :: e in evs ==> ValidAt(e, n.point, hasOn)
    decreases |evs|
  {
    if evs != [] {
      var r := AddEvent(n, evs[0], hasOn);
      assert forall e :: e in evs <==> e == evs[0] || e in evs[1..];
      if r.Ok? {
        AddEventsSucceeds(r.value, evs[1..], hasOn);
      }
    }
  }

  lemma {:induction false} AddEventsContents(n: NormalSite, evs: seq<NormalEvent>, hasOn: (Circle, Point) -> bool)
    ensures AddEvents(n, evs, hasOn).Ok? ==>
              && AddEvents(n, evs, hasOn).value.starts == n.starts + multiset(Tagged(evs, E.Start))
              && AddEvents(n, evs, hasOn).value.ends == n.ends + multiset(Tagged(evs, E.End))
    decreases |evs|
  {
    if evs != [] {
      var r := AddEvent(n, evs[0], hasOn);
      if r.Ok? {
        AddEventsContents(r.value, evs[1..], hasOn);
        if evs[0].IsStart() {
          assert Tagged(evs, E.Start) == [evs[0]] + Tagged(evs[1..], E.Start);
          assert Tagged(evs, E.End) == Tagged(evs[1..], E.End);
        } else {
          assert Tagged(evs, E.End) == [evs[0]] + Tagged(evs[1..], E.End);
          assert Tagged(evs, E.Start) == Tagged(evs[1..], E.Start);
        }
      }
    }
  }

  // ---------------------------------------------------------------------
  // Precedence between sites

  /** `Polar_event_site`: one polar or bipolar event. */
  datatype PolarSite = PolarSite(event: PolarEvent)
  {
    function SquaredRadius(): int { event.arc.SquaredRadius() }
  }

  /** Two normal sites: by their points, theta then z. */
  predicate NormalBeforeNormal(a: NormalSite, b: NormalSite, thetaZLess: (Point, Point) -> bool)
  {
    thetaZLess(a.point, b.point)
  }

  /** A polar site comes before a normal site when it is bipolar or an end. */
  predicate PolarBeforeNormal(p: PolarSite, n: NormalSite)
  {
    p.event.IsBipolar() || p.event.IsEnd()
  }

  /** The normal side is the negated mirror image. */
  predicate NormalBeforePolar(n: NormalSite, p: PolarSite)
  {
    !PolarBeforeNormal(p, n)
  }

  /** Two polar sites, as written: the single polar end before a bipolar
      site before a single polar start; between single sites, ends before
      starts, then north before south, then for two starts the site whose
      circle is not smaller, for two ends the site whose circle is strictly
      smaller; two bipolar sites are never ordered. */
  predicate PolarBeforePolarAsWritten(a: PolarSite, b: PolarSite)
  {
    if a.event.polarity != b.event.polarity then
      if a.event.IsSinglePolar() then a.event.IsEnd() else b.event.IsStart()
    else if a.event.IsSinglePolar() then
      if a.event.tag != b.event.tag then a.event.IsEnd()
      else if a.event.pole != b.event.pole then a.event.IsNorth()
      else
        var thisIsBiggest := !(b.SquaredRadius() > a.SquaredRadius());
        if a.event.IsStart() then thisIsBiggest else !thisIsBiggest
    else false
  }

  /** Two polar sites, with the radius tie broken as intended: a start site
      comes first only when its circle is strictly bigger. */
  predicate PolarBeforePolar(a: PolarSite, b: PolarSite)
  {
    if a.event.polarity != b.event.polarity then
      if a.event.IsSinglePolar() then a.event.IsEnd() else b.event.IsStart()
    else if a.event.IsSinglePolar() then
      if a.event.tag != b.event.tag then a.event.IsEnd()
      else if a.event.pole != b.event.pole then a.event.IsNorth()
      else if a.event.IsStart() then a.SquaredRadius() > b.SquaredRadius()
      else a.SquaredRadius() < b.SquaredRadius()
    else false
  }

  /** `Comp_event_sites(l, r)`: `l` is of lower priority when `r` occurs
      before it, so the queue's top is a site nothing occurs before. */
  function CompPolar(l: PolarSite, r: PolarSite): bool
  {
    PolarBeforePolar(r, l)
  }

  function CompNormal(thetaZLess: (Point, Point) -> bool): (NormalSite, NormalSite) -> bool
  {
    (l: NormalSite, r: NormalSite) => NormalBeforeNormal(r, l, thetaZLess)
  }

  /** The rules between two polar sites spelled out. */
  lemma PolarOrderCases(a: PolarSite, b: PolarSite, n: NormalSite)
    ensures a.event.IsSinglePolar() && b.event.IsBipolar() ==> (PolarBeforePolar(a, b) <==> a.event.IsEnd())
    ensures a.event.IsBipolar() && b.event.IsSinglePolar() ==> (PolarBeforePolar(a, b) <==> b.event.IsStart())
    ensures a.event.IsBipolar() && b.event.IsBipolar() ==> !PolarBeforePolar(a, b)
    ensures a.event.IsSinglePolar() && b.event.IsSinglePolar() && a.event.tag != b.event.tag ==>
              (PolarBeforePolar(a, b) <==> a.event.IsEnd())
    ensures a.event.IsSinglePolar() && b.event.IsSinglePolar() && a.event.tag == b.event.tag && a.event.pole != b.event.pole ==>
              (PolarBeforePolar(a, b) <==> a.event.IsNorth())
    ensures a.event.IsSinglePolar() && b.event.IsSinglePolar() && a.event.tag == b.event.tag && a.event.pole == b.event.pole ==>
              && (a.event.IsStart() ==> (PolarBeforePolar(a, b) <==> a.SquaredRadius() > b.SquaredRadius()))
              && (a.event.IsEnd() ==> (PolarBeforePolar(a, b) <==> a.SquaredRadius() < b.SquaredRadius()))
    ensures PolarBeforeNormal(a, n) <==> a.event.IsBipolar() || a.event.IsEnd()
    ensures NormalBeforePolar(n, a) <==> a.event.IsSinglePolar() && a.event.IsStart()
  {
  }

  /** The as-written polar order differs from the intended one only on two
      single polar starts at the same pole with circles of equal radius,
      where it says that each comes before the other; in particular such a
      site comes before itself, so `Comp_event_sites` is not irreflexive. */
  lemma PolarTieAsWrittenIsReflexive(a: PolarSite, b: PolarSite)
    ensures PolarBeforePolarAsWritten(a, b) != PolarBeforePolar(a, b) <==>
              && a.event.IsSinglePolar() && b.event.IsSinglePolar()
              && a.event.IsStart() && b.event.IsStart()
              && a.event.pole == b.event.pole && a.SquaredRadius() == b.SquaredRadius()
    ensures a.event.IsSinglePolar() && a.event.IsStart() ==> PolarBeforePolarAsWritten(a, a)
    ensures !PolarBeforePolar(a, a)
  {
  }

  /** The rank of a polar site in the intended order: group (end, bipolar,
      start), then pole, then radius in the direction the tag asks for. */
  function PolarKey(p: PolarSite): (int, int, int)
  {
    if p.event.IsBipolar() then (1, 0, 0)
    else
      var pole := if p.event.IsNorth() then 0 else 1;
      if p.event.IsEnd() then (0, pole, p.SquaredRadius()) else (2, pole, -p.SquaredRadius())
  }

  predicate KeyLess(x: (int, int, int), y: (int, int, int))
  {
    x.0 < y.0 || (x.0 == y.0 && (x.1 < y.1 || (x.1 == y.1 && x.2 < y.2)))
  }

  /** The intended polar order is the lexicographic order of `PolarKey`. */
  lemma PolarOrderIsKeyOrder(a: PolarSite, b: PolarSite)
    ensures PolarBeforePolar(a, b) <==> KeyLess(PolarKey(a), PolarKey(b))
  {
  }

  /** The intended polar order is a strict order, as `std::priority_queue`
      requires of its comparison, on any queue of polar sites. */
  lemma PolarOrderIsStrict(s: seq<PolarSite>)
    ensures StrictOrderOn(s, CompPolar)
  {
    forall a, b, c | a in s && b in s && c in s && CompPolar(a, b) && CompPolar(b, c)
      ensures CompPolar(a, c)
    {
      PolarOrderIsKeyOrder(b, a);
      PolarOrderIsKeyOrder(c, b);
      PolarOrderIsKeyOrder(c, a);
    }
    forall a | a in s ensures !CompPolar(a, a) {
      PolarOrderIsKeyOrder(a, a);
    }
  }

  // ---------------------------------------------------------------------
  // The queue

  datatype SiteType = NoSite | Normal | Polar

  /** `Event_queue`: one priority queue of normal sites and one of polar
      sites, each held as the bag of its elements. */
  datatype ProtoQueue = ProtoQueue(normals: seq<NormalSite>, polars: seq<PolarSite>)

  function PushNormal(q: ProtoQueue, n: NormalSite): (r: ProtoQueue)
    ensures multiset(r.normals) == multiset(q.normals) + multiset{n} && r.polars == q.polars
  {
    q.(normals := q.normals + [n])
  }

  function PushPolar(q: ProtoQueue, p: PolarSite): (r: ProtoQueue)
    ensures multiset(r.polars) == multiset(q.polars) + multiset{p} && r.normals == q.normals
  {
    q.(polars := q.polars + [p])
  }

  /** `next_event()` as written: an early return decides as soon as one
      queue is non-empty, so the two tops are never compared and any
      non-empty polar queue wins. */
  function NextEventAsWritten(q: ProtoQueue): (k: SiteType)
    ensures k == NoSite <==> q.normals == [] && q.polars == []
    ensures k == Normal <==> q.normals != [] && q.polars == []
    ensures k == Polar <==> q.polars != []
  {
    if q.normals == [] && q.polars == [] then NoSite
    else if q.polars == [] then Normal
    else Polar
  }

  /** `next_event()` as intended: with both queues non-empty it compares the
      two tops. */
  function NextEvent(q: ProtoQueue, thetaZLess: (Point, Point) -> bool): (k: SiteType)
    ensures k == NoSite <==> q.normals == [] && q.polars == []
    ensures k == Normal ==> q.normals != []
    ensures k == Polar ==> q.polars != []
    ensures q.normals == [] || q.polars == [] ==> k == NextEventAsWritten(q)
  {
    if q.normals == [] && q.polars == [] then NoSite
    else if q.polars == [] then Normal
    else if q.normals == [] then Polar
    else if NormalBeforePolar(Top(q.normals, CompNormal(thetaZLess)), Top(q.polars, CompPolar)) then Normal
    else Polar
  }

  /** With a normal site pending and a polar start at the top of the polar
      queue, the normal site comes first, yet the written `next_event()`
      reports the polar queue. */
  lemma NextEventAsWrittenSkipsNormal(n: NormalSite, p: PolarSite, thetaZLess: (Point, Point) -> bool)
    requires p.event.IsSinglePolar() && p.event.IsStart()
    ensures NormalBeforePolar(n, p)
    ensures NextEventAsWritten(ProtoQueue([n], [p])) == Polar
    ensures NextEvent(ProtoQueue([n], [p]), thetaZLess) == Normal
  {
  }

  /** The site `next_event()` designates: nothing in either queue occurs
      before it, provided the theta-z order is strict on the normal
      sites. */
  lemma {:induction false} NextEventReportsFirst(q: ProtoQueue, thetaZLess: (Point, Point) -> bool)
    requires StrictOrderOn(q.normals, CompNormal(thetaZLess))
    ensures NextEvent(q, thetaZLess) == Normal ==>
              var t := Top(q.normals, CompNormal(thetaZLess));
              && (forall m :: m in q.normals ==> !NormalBeforeNormal(m, t, thetaZLess))
              && (forall p :: p in q.polars ==> NormalBeforePolar(t, p))
    ensures NextEvent(q, thetaZLess) == Polar ==>
              var t := Top(q.polars, CompPolar);
              && (forall p :: p in q.polars ==> !PolarBeforePolar(p, t))
              && (forall m :: m in q.normals ==> PolarBeforeNormal(t, m))
  {
    var k := NextEvent(q, thetaZLess);
    if q.normals != [] {
      TopIsMaximal(q.normals, CompNormal(thetaZLess));
    }
    if q.polars != [] {
      PolarOrderIsStrict(q.polars);
      TopIsMaximal(q.polars, CompPolar);
    }
    if k == Normal && q.polars != [] {
      var t := Top(q.normals, CompNormal(thetaZLess));
      var tp := Top(q.polars, CompPolar);
      assert NormalBeforePolar(t, tp);
      forall p | p in q.polars ensures NormalBeforePolar(t, p) {
        assert !CompPolar(tp, p);
      }
    }
  }
}

=== FILE: results.dfy ===
/** Failure-carrying wrappers shared by the whole model. */
module Results {

  /** A value that may be missing (a null handle, a failed lookup). */
  datatype Option<+T> = None | Some(value: T)

  /** The outcome of an operation that can abort: a value, or the reason
      (a failed debug assertion, a thrown exception, a rejected argument). */
  datatype Result<+T> = Ok(value: T) | Fail(reason: string)
}

=== FILE: rotation_check.dfy ===
/** The rotation filter script (interface/check_output.py): each data line
    holds three rotation angles in degrees and an expected vector; the
    script rotates (0, 0, 1) about z, then y, then x by the negated angles
    and says whether the result is within 0.01 of the expected vector,
    component by component. Other lines are echoed.

    Arithmetic is exact (`real`). The trigonometric functions, pi, the
    conversion of a field to a float and the printing of a float are
    parameters. */
module RotationCheck {
  import opened Results
  import opened Text

  // ---------------------------------------------------------------------
  // Vectors and matrices

  /** `dot_product(u, v)`: the sum of the pairwise products over `zip(u, v)`,
      which stops at the shorter of the two. */
  function Dot(u: seq<real>, v: seq<real>): real
  {
    if u == [] || v == [] then 0.0 else u[0] * v[0] + Dot(u[1..], v[1..])
  }

  /** `matrix_mult(matrix, v)`: one dot product per row. */
  function MatrixMult(m: seq<seq<real>>, v: seq<real>): (r: seq<real>)
    ensures |r| == |m|
    ensures forall i :: 0 <= i < |m| ==> r[i] == Dot(v, m[i])
  {
    seq(|m|, i requires 0 <= i < |m| => Dot(v, m[i]))
  }

  /** The cosine and the sine of one angle. */
  datatype Trig = Trig(cos: real, sin: real)

  predicate Unit(t: Trig) { t.cos * t.cos + t.sin * t.sin == 1.0 }

  function RotateX(v: seq<real>, t: Trig): seq<real>
  {
    MatrixMult([[1.0, 0.0, 0.0], [0.0, t.cos, -t.sin], [0.0, t.sin, t.cos]], v)
  }

  function RotateY(v: seq<real>, t: Trig): seq<real>
  {
    MatrixMult([[t.cos, 0.0, t.sin], [0.0, 1.0, 0.0], [-t.sin, 0.0, t.cos]], v)
  }

  function RotateZ(v: seq<real>, t: Trig): seq<real>
  {
    MatrixMult([[t.cos, -t.sin, 0.0], [t.sin, t.cos, 0.0], [0.0, 0.0, 1.0]], v)
  }

  /** The dot product of two 3-vectors, written out. */
  lemma Dot3(u: seq<real>, v: seq<real>)
    requires |u| == 3 && |v| == 3
    ensures Dot(u, v) == u[0] * v[0] + u[1] * v[1] + u[2] * v[2]
  {
    assert u[1..][1..] == u[2..] && v[1..][1..] == v[2..];
    assert u[2..][1..] == [] && v[2..][1..] == [];
    assert Dot(u[2..], v[2..]) == u[2] * v[2];
    assert Dot(u[1..], v[1..]) == u[1] * v[1] + u[2] * v[2];
  }

  /** Each axis rotation of a 3-vector, component by component: the
      component along its own axis is unchanged, the other two turn in
      their plane. */
  lemma RotateXForm(v: seq<real>, t: Trig)
    requires |v| == 3
    ensures RotateX(v, t) == [v[0], t.cos * v[1] - t.sin * v[2], t.sin * v[1] + t.cos * v[2]]
  {
    var r := RotateX(v, t);
    Dot3(v, [1.0, 0.0, 0.0]);
    Dot3(v, [0.0, t.cos, -t.sin]);
    Dot3(v, [0.0, t.sin, t.cos]);
    assert r[0] == v[0] && r[1] == t.cos * v[1] - t.sin * v[2] && r[2] == t.sin * v[1] + t.cos * v[2];
  }

  lemma RotateYForm(v: seq<real>, t: Trig)
    requires |v| == 3
    ensures RotateY(v, t) == [t.cos * v[0] + t.sin * v[2], v[1], -t.sin * v[0] + t.cos * v[2]]
  {
    var r := RotateY(v, t);
    Dot3(v, [t.cos, 0.0, t.sin]);
    Dot3(v, [0.0, 1.0, 0.0]);
    Dot3(v, [-t.sin, 0.0, t.cos]);
    assert r[0] == t.cos * v[0] + t.sin * v[2] && r[1] == v[1] && r[2] == -t.sin * v[0] + t.cos * v[2];
  }

  lemma RotateZForm(v: seq<real>, t: Trig)
    requires |v| == 3
    ensures RotateZ(v, t) == [t.cos * v[0] - t.sin * v[1], t.sin * v[0] + t.cos * v[1], v[2]]
  {
    var r := RotateZ(v, t);
    Dot3(v, [t.cos, -t.sin, 0.0]);
    Dot3(v, [t.sin, t.cos, 0.0]);
    Dot3(v, [0.0, 0.0, 1.0]);
    assert r[0] == t.cos * v[0] - t.sin * v[1] && r[1] == t.sin * v[0] + t.cos * v[1] && r[2] == v[2];
  }

  function Norm2(v: seq<real>): real
    requires |v| == 3
  {
    v[0] * v[0] + v[1] * v[1] + v[2] * v[2]
  }

  /** A turn by a unit (cos, sin) pair keeps the squared length in its
      plane. */
  lemma PlaneTurn(c: real, s: real, a: real, b: real)
    requires c * c + s * s == 1.0
    ensures (c * a - s * b) * (c * a - s * b) + (s * a + c * b) * (s * a + c * b) == a * a + b * b
  {
    calc {
      (c * a - s * b) * (c * a - s * b) + (s * a + c * b) * (s * a + c * b);
      (c * c + s * s) * (a * a) + (c * c + s * s) * (b * b);
      a * a + b * b;
    }
  }

  /** `rotate(vec, angles)`: about z by the third angle, then about y by
      the second, then about x by the first. */
  function Rotate(v: seq<real>, tx: Trig, ty: Trig, tz: Trig): seq<real>
  {
    RotateX(RotateY(RotateZ(v, tz), ty), tx)
  }

  /** Each axis rotation by a unit (cos, sin) pair keeps the length of a
      3-vector. */
  lemma RotateXKeepsLength(v: seq<real>, t: Trig)
    requires |v| == 3 && Unit(t)
    ensures |RotateX(v, t)| == 3 && Norm2(RotateX(v, t)) == Norm2(v)
  {
    RotateXForm(v, t);
    var r := RotateX(v, t);
    PlaneTurn(t.cos, t.sin, v[1], v[2]);
    assert r[1] * r[1] + r[2] * r[2] == v[1] * v[1] + v[2] * v[2];
  }

  lemma RotateYKeepsLength(v: seq<real>, t: Trig)
    requires |v| == 3 && Unit(t)
    ensures |RotateY(v, t)| == 3 && Norm2(RotateY(v, t)) == Norm2(v)
  {
    RotateYForm(v, t);
    var r := RotateY(v, t);
    PlaneTurn(t.cos, -t.sin, v[0], v[2]);
    assert r[0] == t.cos * v[0] - (-t.sin) * v[2] && r[2] == (-t.sin) * v[0] + t.cos * v[2];
    assert r[0] * r[0] + r[2] * r[2] == v[0] * v[0] + v[2] * v[2];
  }

  lemma RotateZKeepsLength(v: seq<real>, t: Trig)
    requires |v| == 3 && Unit(t)
    ensures |RotateZ(v, t)| == 3 && Norm2(RotateZ(v, t)) == Norm2(v)
  {
    RotateZForm(v, t);
    var r := RotateZ(v, t);
    PlaneTurn(t.cos, t.sin, v[0], v[1]);
    assert r[0] * r[0] + r[1] * r[1] == v[0] * v[0] + v[1] * v[1];
  }

  /** Rotations by unit (cos, sin) pairs keep the length of a 3-vector. */
  lemma RotatePreservesLength(v: seq<real>, tx: Trig, ty: Trig, tz: Trig)
    requires |v| == 3
    requires Unit(tx) && Unit(ty) && Unit(tz)
    ensures |Rotate(v, tx, ty, tz)| == 3 && Norm2(Rotate(v, tx, ty, tz)) == Norm2(v)
  {
    RotateZKeepsLength(v, tz);
    RotateYKeepsLength(RotateZ(v, tz), ty);
    RotateXKeepsLength(RotateY(RotateZ(v, tz), ty), tx);
  }

  /** With every angle zero (cos 1, sin 0) the vector is unchanged. */
  lemma {:induction false} RotateIdentity(v: seq<real>)
    requires |v| == 3
    ensures Rotate(v, Trig(1.0, 0.0), Trig(1.0, 0.0), Trig(1.0, 0.0)) == v
  {
    var id := Trig(1.0, 0.0);
    RotateZForm(v, id);
    RotateYForm(RotateZ(v, id), id);
    RotateXForm(RotateY(RotateZ(v, id), id), id);
  }

  // ---------------------------------------------------------------------
  // Angles and the verdict

  /** `-x * pi / 180`: degrees to negated radians. */
  function ToRadians(x: real, pi: real): real { -x * pi / 180.0 }

  /** `-x * 180 / pi`: back to the degrees read. */
  function FromRadians(a: real, pi: real): real
    requires pi != 0.0
  {
    -a * 180.0 / pi
  }

  /** The printed angles are the angles read. */
  lemma DegreesRoundTrip(x: real, pi: real)
    requires pi != 0.0
    ensures FromRadians(ToRadians(x, pi), pi) == x
  {
    calc {
      FromRadians(ToRadians(x, pi), pi);
      -(-x * pi / 180.0) * 180.0 / pi;
      (x * pi) / pi;
      x;
    }
  }

  function Abs(x: real): real { if x < 0.0 then -x else x }

  const Epsilon: real := 0.01

  /** `all(abs(x - y) < epsilon for x, y in zip(vec, rotated_vec))`. */
  function AllClose(u: seq<real>, v: seq<real>, eps: real): bool
  {
    u == [] || v == [] || (Abs(u[0] - v[0]) < eps && AllClose(u[1..], v[1..], eps))
  }

  /** The verdict holds exactly when every compared component is within
      `eps`; only as many components as the shorter vector has are
      compared. */
  lemma {:induction false} AllCloseSpec(u: seq<real>, v: seq<real>, eps: real)
    ensures AllClose(u, v, eps) <==>
              forall i :: 0 <= i < |u| && i < |v| ==> Abs(u[i] - v[i]) < eps
  {
    if u != [] && v != [] {
      AllCloseSpec(u[1..], v[1..], eps);
      assert forall i :: 1 <= i < |u| && i < |v| ==> u[1..][i - 1] == u[i] && v[1..][i - 1] == v[i];
    }
  }

  // ---------------------------------------------------------------------
  // Lines

  /** What `read_data` makes of a line. */
  datatype LineItem = Echo(text: string) | Record(fields: seq<string>)

  /** The first `n` elements, or all of them when there are fewer. */
  function Take(fs: seq<string>, n: nat): (r: seq<string>)
    ensures |r| <= n && |r| <= |fs| && r == fs[..|r|]
    ensures |fs| <= n ==> r == fs
  {
    if |fs| <= n then fs else fs[..n]
  }

  /** The line is stripped; a blank or `#` line is echoed, any other is a
      record of its first six fields. */
  function ReadLine(line: string): (r: LineItem)
    ensures r.Echo? <==> Strip(line) == [] || Strip(line)[0] == '#'
    ensures r.Echo? ==> r.text == Strip(line)
    ensures r.Record? ==> 1 <= |r.fields| <= 6 && |r.fields| <= |Split(Strip(line))|
    ensures r.Record? ==> r.fields == Split(Strip(line))[..|r.fields|]
  {
    ReadStripped(Strip(line))
  }

  /** `read_data` on a line already stripped. */
  function ReadStripped(s: string): (r: LineItem)
    requires s == [] || !IsSpace(s[0])
    ensures r.Echo? <==> s == [] || s[0] == '#'
    ensures r.Echo? ==> r.text == s
    ensures r.Record? ==> 1 <= |r.fields| <= 6 && |r.fields| <= |Split(s)|
    ensures r.Record? ==> r.fields == Split(s)[..|r.fields|]
  {
    if s != [] && s[0] != '#' then
      SplitNonEmpty(s);
      Record(Take(Split(s), 6))
    else Echo(s)
  }

  /** A string with something other than whitespace has a field. */
  lemma {:induction false} SplitNonEmpty(s: string)
    requires s != [] && !IsSpace(s[0])
    ensures |Split(s)| > 0
  {
  }

  /** A string with no whitespace at either end strips to itself. */
  lemma StripNoEdge(s: string)
    requires s != [] && !IsSpace(s[0]) && !IsSpace(s[|s| - 1])
    ensures Strip(s) == s
  {
    assert Lead(s) == 0;
    assert Trail(s) == 0;
  }

  /** Up to six words written on one line with single spaces, the first not
      starting with `#`, are read back as exactly those fields. */
  lemma {:induction false} ReadLineRoundTrip(fs: seq<string>)
    requires 1 <= |fs| <= 6
    requires forall k :: 0 <= k < |fs| ==> fs[k] != [] && NoSpace(fs[k])
    requires fs[0][0] != '#'
    ensures ReadLine(Join(" ", fs)) == Record(fs)
  {
    var s := Join(" ", fs);
    JoinedWordsStrip(fs);
    SplitJoinRoundTrip(fs);
    assert Take(fs, 6) == fs;
  }

  /** Words joined by spaces strip to themselves, and the line starts
      with the first word. */
  lemma JoinedWordsStrip(fs: seq<string>)
    requires 1 <= |fs|
    requires forall k :: 0 <= k < |fs| ==> fs[k] != [] && NoSpace(fs[k])
    ensures Strip(Join(" ", fs)) == Join(" ", fs)
    ensures Join(" ", fs) != [] && Join(" ", fs)[0] == fs[0][0]
  {
    JoinEdges(fs);
    StripNoEdge(Join(" ", fs));
  }

  /** A join of words by spaces begins with the first word's first
      character and ends with the last word's last character. */
  lemma {:induction false} JoinEdges(fs: seq<string>)
    requires 1 <= |fs|
    requires forall k :: 0 <= k < |fs| ==> fs[k] != [] && NoSpace(fs[k])
    ensures var s := Join(" ", fs); s != [] && s[0] == fs[0][0] && s[|s| - 1] == fs[|fs| - 1][|fs[|fs| - 1]| - 1]
    ensures !IsSpace(fs[0][0]) && !IsSpace(fs[|fs| - 1][|fs[|fs| - 1]| - 1])
  {
    if |fs| > 1 {
      JoinEdges(fs[1..]);
    }
  }

  /** Every field converted by `float`, or nothing when one fails. */
  function ParseAll(fields: seq<string>, parse: string -> Option<real>): (r: Option<seq<real>>)
    ensures r.Some? <==> forall k :: 0 <= k < |fields| ==> parse(fields[k]).Some?
    ensures r.Some? ==> (&& |r.value| == |fields|
                         && forall k :: 0 <= k < |fields| ==> r.value[k] == parse(fields[k]).value)
  {
    if fields == [] then Some([])
    else
      match parse(fields[0])
      case None => None
      case Some(x) =>
        match ParseAll(fields[1..], parse)
        case None => None
        case Some(xs) => Some([x] + xs)
  }

  /** The numbers printed for a record. */
  function Shown(xs: seq<real>, show: real -> string): (r: seq<string>)
    ensures |r| == |xs| && forall k :: 0 <= k < |xs| ==> r[k] == show(xs[k])
  {
    seq(|xs|, k requires 0 <= k < |xs| => show(xs[k]))
  }

  /** The geometry the script needs from outside: pi and the
      trigonometric functions of the float library. */
  datatype MathLib = MathLib(pi: real, cos: real -> real, sin: real -> real)
  {
    function TrigOf(a: real): Trig { Trig(cos(a), sin(a)) }
  }

  /** The verdict for a record `d`: the negated angles in radians, the
      expected vector, and the comparison with the rotated (0, 0, 1). */
  function Verdict(d: seq<real>, lib: MathLib): bool
    requires |d| >= 3
  {
    var angles := [ToRadians(d[0], lib.pi), ToRadians(d[1], lib.pi), ToRadians(d[2], lib.pi)];
    var rotated := Rotate([0.0, 0.0, 1.0], lib.TrigOf(angles[0]), lib.TrigOf(angles[1]), lib.TrigOf(angles[2]));
    AllClose(d[3..], rotated, Epsilon)
  }

  /** The output line for one input line. A field that is not a number
      raises `ValueError`; a record of fewer than three fields raises
      `IndexError` when the third angle is read. */
  function ProcessLine(line: string, parse: string -> Option<real>, lib: MathLib, show: real -> string): (r: Result<string>)
    requires lib.pi != 0.0
  {
    match ReadLine(line)
    case Echo(s) => Ok(s)
    case Record(fields) =>
      match ParseAll(fields, parse)
      case None => Fail("ValueError")
      case Some(d) =>
        if |d| < 3 then Fail("IndexError")
        else
          var back := [FromRadians(ToRadians(d[0], lib.pi), lib.pi), FromRadians(ToRadians(d[1], lib.pi), lib.pi),
                       FromRadians(ToRadians(d[2], lib.pi), lib.pi)];
          Ok(Join(" ", Shown(back + d[3..], show)) + " -> " + (if Verdict(d, lib) then "True" else "False"))
  }

  /** A record line prints the numbers it was read from, then `->` and the
      verdict; it fails exactly when a field is not a number or there are
      fewer than three. */
  lemma ProcessLineSpec(line: string, parse: string -> Option<real>, lib: MathLib, show: real -> string)
    requires lib.pi != 0.0
    ensures ReadLine(line).Echo? ==> ProcessLine(line, parse, lib, show) == Ok(Strip(line))
    ensures ReadLine(line).Record? ==>
              var fields := ReadLine(line).fields;
              && (ProcessLine(line, parse, lib, show).Ok? <==>
                    ParseAll(fields, parse).Some? && |fields| >= 3)
              && (ProcessLine(line, parse, lib, show).Ok? ==>
                    var d := ParseAll(fields, parse).value;
                    ProcessLine(line, parse, lib, show).value ==
                      Join(" ", Shown(d, show)) + " -> " + (if Verdict(d, lib) then "True" else "False"))
  {
    if ReadLine(line).Record? {
      var fields := ReadLine(line).fields;
      if ParseAll(fields, parse).Some? && |fields| >= 3 {
        var d := ParseAll(fields, parse).value;
        DegreesRoundTrip(d[0], lib.pi);
        DegreesRoundTrip(d[1], lib.pi);
        DegreesRoundTrip(d[2], lib.pi);
        assert [d[0], d[1], d[2]] + d[3..] == d;
      }
    }
  }

  /** With all three angles zero (cos 0 = 1, sin 0 = 0) the rotated vector
      is (0, 0, 1), and the verdict holds exactly when the expected
      components given are within 0.01 of it. */
  lemma ZeroAnglesVerdict(d: seq<real>, lib: MathLib)
    requires |d| >= 3 && d[0] == 0.0 && d[1] == 0.0 && d[2] == 0.0
    requires lib.cos(0.0) == 1.0 && lib.sin(0.0) == 0.0
    ensures Verdict(d, lib) <==>
              forall i :: 3 <= i < |d| && i < 6 ==> Abs(d[i] - [0.0, 0.0, 1.0][i - 3]) < Epsilon
  {
    assert ToRadians(0.0, lib.pi) == 0.0;
    RotateIdentity([0.0, 0.0, 1.0]);
    var z := [0.0, 0.0, 1.0];
    AllCloseSpec(d[3..], z, Epsilon);
    assert forall i :: 3 <= i < |d| && i < 6 ==> d[3..][i - 3] == d[i];
    assert forall i :: 0 <= i < |d[3..]| && i < 3 ==> d[3..][i] == d[i + 3];
  }

  /** The outcome of the whole script: the lines printed, and the error
      that stopped it, if any. */
  datatype Run = Run(printed: seq<string>, error: Option<string>)

  /** Runs `step` over the lines in order, stopping at the first failure. */
  function RunLines(lines: seq<string>, step: string -> Result<string>): (r: Run)
    ensures |r.printed| <= |lines|
    ensures r.error.None? ==> |r.printed| == |lines|
    ensures r.error.Some? ==> |r.printed| < |lines| && step(lines[|r.printed|]) == Fail(r.error.value)
    ensures forall k :: 0 <= k < |r.printed| ==> Ok(r.printed[k]) == step(lines[k])
  {
    if lines == [] then Run([], None)
    else
      match step(lines[0])
      case Fail(why) => Run([], Some(why))
      case Ok(out) =>
        var rest := RunLines(lines[1..], step);
        assert forall k :: 1 <= k < |lines| ==> lines[1..][k - 1] == lines[k];
        Run([out] + rest.printed, rest.error)
  }

  /** The script: every line processed in turn until one raises. It prints
      one output per line it processed, and fails exactly when some line
      fails, with the error of the first failing line. */
  function RunScript(lines: seq<string>, parse: string -> Option<real>, lib: MathLib, show: real -> string): (r: Run)
    requires lib.pi != 0.0
    ensures r.error.None? ==> |r.printed| == |lines|
    ensures r.error.None? <==> forall k :: 0 <= k < |lines| ==> ProcessLine(lines[k], parse, lib, show).Ok?
    ensures r.error.Some? ==> |r.printed| < |lines| && ProcessLine(lines[|r.printed|], parse, lib, show) == Fail(r.error.value)
    ensures forall k :: 0 <= k < |r.printed| ==> k < |lines| && Ok(r.printed[k]) == ProcessLine(lines[k], parse, lib, show)
  {
    var step := l requires lib.pi != 0.0 => ProcessLine(l, parse, lib, show);
    assert forall k :: 0 <= k < |lines| ==> step(lines[k]) == ProcessLine(lines[k], parse, lib, show);
    RunLines(lines, step)
  }
}

=== FILE: sphere_generator.dfy ===
/** The sphere file generator (v-ordering/generate_spheres.py): argument
    validators, the choice of the next free file index in the output
    directory, and the assembly of the output text.

    Reading numbers from text, printing numbers, randomness and the file
    system are parameters: the file names found in the directory are
    given, and so are the formatted spheres. */
module SphereGenerator {
  import opened Results
  import opened Text

  // ---------------------------------------------------------------------
  // The format validator

  /** First position at or after `i` that is not in `cs`. */
  function SkipAll(s: string, i: nat, cs: string): (j: nat)
    requires i <= |s|
    ensures i <= j <= |s| && (j < |s| ==> s[j] !in cs)
    ensures forall k :: i <= k < j ==> s[k] in cs
    decreases |s| - i
  {
    if i < |s| && s[i] in cs then SkipAll(s, i + 1, cs) else i
  }

  const Flags: string := "-+ #0"
  const Digits: string := "0123456789"
  const LengthModifiers: string := "hlL"
  const ConversionTypes: string := "diouxXeEfFgGcrs%"

  /** What a directive consumes: arguments, and characters of the format. */
  datatype Span = Span(args: nat, len: nat)

  /** One formatting directive, read from the text after its `%`: the
      number of arguments it takes and the number of characters it spans.
      A directive is: optional flags, a width (digits or `*`, which takes
      an argument), a precision (`.` then digits or `*`), a length
      modifier, and a conversion type; `%` as the type takes no value. A
      mapping key cannot be used with a tuple of arguments; a missing or
      unknown type is an error. */
  function Directive(s: string): (r: Result<Span>)
    ensures r.Ok? ==> 1 <= r.value.len <= |s|
  {
    if s != [] && s[0] == '(' then Fail("format requires a mapping")
    else
      var i0 := SkipAll(s, 0, Flags);
      var (w, i1) := if i0 < |s| && s[i0] == '*' then (1, i0 + 1) else (0, SkipAll(s, i0, Digits));
      var (p, i2) :=
        if i1 < |s| && s[i1] == '.' then
          if i1 + 1 < |s| && s[i1 + 1] == '*' then (1, i1 + 2) else (0, SkipAll(s, i1 + 1, Digits))
        else (0, i1);
      var i3 := if i2 < |s| && s[i2] in LengthModifiers then i2 + 1 else i2;
      if i3 >= |s| then Fail("incomplete format")
      else if s[i3] !in ConversionTypes then Fail("unsupported format character")
      else if s[i3] == '%' then Ok(Span(w + p, i3 + 1))
      else Ok(Span(w + p + 1, i3 + 1))
  }

  /** The number of arguments `fmt % args` consumes, or the error it
      raises whatever the arguments. */
  function Conversions(fmt: string): (r: Result<nat>)
    decreases |fmt|
  {
    if fmt == [] then Ok(0)
    else if fmt[0] != '%' then Conversions(fmt[1..])
    else
      match Directive(fmt[1..])
      case Fail(why) => Fail(why)
      case Ok(Span(n, len)) =>
        match Conversions(fmt[1 + len..])
        case Fail(why) => Fail(why)
        case Ok(m) => Ok(n + m)
  }

  /** `string_format(fmt)`: the format is kept exactly when formatting four
      arguments with it neither raises nor leaves an argument unused. */
  function StringFormat(fmt: string): (r: Result<string>)
    ensures r.Ok? <==> Conversions(fmt) == Ok(4)
    ensures r.Ok? ==> r.value == fmt
  {
    if Conversions(fmt) == Ok(4) then Ok(fmt) else Fail("Bad format string")
  }

  /** Text without `%` takes no argument. */
  lemma {:induction false} LiteralTakesNothing(s: string)
    requires '%' !in s
    ensures Conversions(s) == Ok(0)
    decreases |s|
  {
    if s != [] {
      assert s[0] in s;
      assert forall c :: c in s[1..] ==> c in s;
      LiteralTakesNothing(s[1..]);
    }
  }

  /** Literal text followed by `%s` and more: the `%s` takes one
      argument. */
  lemma {:induction false} ConversionAfterLiteral(lit: string, rest: string)
    requires '%' !in lit
    ensures Conversions(lit + "%s" + rest).Ok? <==> Conversions(rest).Ok?
    ensures Conversions(rest).Ok? ==> Conversions(lit + "%s" + rest) == Ok(Conversions(rest).value + 1)
    decreases |lit|
  {
    if lit == [] {
      var f := "%s" + rest;
      assert f[1..] == "s" + rest;
      assert Directive("s" + rest) == Ok(Span(1, 1));
      assert f[2..] == rest;
      assert lit + "%s" + rest == f;
    } else {
      LiteralStep(lit, "%s" + rest);
      ConversionAfterLiteral(lit[1..], rest);
      assert lit + "%s" + rest == lit + ("%s" + rest);
      assert lit[1..] + "%s" + rest == lit[1..] + ("%s" + rest);
    }
  }

  /** Literal text followed by `%%` and more: the `%%` takes nothing. */
  lemma {:induction false} PercentAfterLiteral(lit: string, rest: string)
    requires '%' !in lit
    ensures Conversions(lit + "%%" + rest) == Conversions(rest)
    decreases |lit|
  {
    if lit == [] {
      var f := "%%" + rest;
      assert f[1..] == "%" + rest;
      assert Directive("%" + rest) == Ok(Span(0, 1));
      assert f[2..] == rest;
      assert lit + "%%" + rest == f;
    } else {
      LiteralStep(lit, "%%" + rest);
      PercentAfterLiteral(lit[1..], rest);
      assert lit + "%%" + rest == lit + ("%%" + rest);
      assert lit[1..] + "%%" + rest == lit[1..] + ("%%" + rest);
    }
  }

  /** A first character other than `%` is copied and takes nothing. */
  lemma LiteralStep(lit: string, rest: string)
    requires lit != [] && '%' !in lit
    ensures '%' !in lit[1..]
    ensures Conversions(lit + rest) == Conversions(lit[1..] + rest)
  {
    assert lit[0] in lit;
    assert forall c :: c in lit[1..] ==> c in lit;
    assert (lit + rest)[1..] == lit[1..] + rest;
  }

  const DefaultFormat: string := "{ %s, %s, %s, %s }"

  /** The default format takes exactly the four values of a sphere. */
  lemma DefaultFormatAccepted()
    ensures StringFormat(DefaultFormat) == Ok(DefaultFormat)
  {
    assert DefaultFormat == "{ " + "%s" + (", " + "%s" + (", " + "%s" + (", " + "%s" + " }")));
    LiteralTakesNothing(" }");
    ConversionAfterLiteral(", ", " }");
    ConversionAfterLiteral(", ", ", " + "%s" + " }");
    ConversionAfterLiteral(", ", ", " + "%s" + (", " + "%s" + " }"));
    ConversionAfterLiteral("{ ", ", " + "%s" + (", " + "%s" + (", " + "%s" + " }")));
  }

  // ---------------------------------------------------------------------
  // Number validators

  /** `positive_float(text)`: the number read when it is positive; text
      that is not a number, or a number that is not positive, is rejected.
      `readFloat` is `float()`. */
  function PositiveFloat(text: string, readFloat: string -> Option<real>): (r: Result<real>)
    ensures r.Ok? <==> readFloat(text).Some? && readFloat(text).value > 0.0
    ensures r.Ok? ==> r.value == readFloat(text).value && r.value > 0.0
  {
    match readFloat(text)
    case None => Fail("Must be floating point number")
    case Some(f) => if f <= 0.0 then Fail("Must be positive float") else Ok(f)
  }

  /** `positive_int(text)`, with `readInt` as `int()`. */
  function PositiveInt(text: string, readInt: string -> Option<int>): (r: Result<nat>)
    ensures r.Ok? <==> readInt(text).Some? && readInt(text).value > 0
    ensures r.Ok? ==> r.value == readInt(text).value && r.value > 0
  {
    match readInt(text)
    case None => Fail("Must be an integer")
    case Some(n) => if n <= 0 then Fail("Must be positive integer") else Ok(n)
  }

  // ---------------------------------------------------------------------
  // The next file index

  /** The part of a file name before its first `.`. */
  function Stem(name: string): (r: string)
    ensures |r| <= |name| && r == name[..|r|] && '.' !in r
    ensures |r| < |name| ==> name[|r|] == '.'
  {
    if name == [] || name[0] == '.' then []
    else
      var t := Stem(name[1..]);
      assert [name[0]] + t == name[..1 + |t|];
      [name[0]] + t
  }

  /** The index of the next file: 0 when there is no `.h` file, otherwise
      one more than the largest index read from a file name's stem. A
      stem that is not a number stops the program. */
  method NextFileIndex(names: seq<string>, readInt: string -> Option<int>) returns (r: Result<int>)
    ensures r.Ok? <==> forall k :: 0 <= k < |names| ==> readInt(Stem(names[k])).Some?
    ensures r.Ok? && names == [] ==> r.value == 0
    ensures r.Ok? ==> forall k :: 0 <= k < |names| ==> readInt(Stem(names[k])).value < r.value
    ensures r.Ok? && names != [] ==> exists k :: 0 <= k < |names| && readInt(Stem(names[k])).value + 1 == r.value
  {
    if names == [] {
      return Ok(0);
    }
    var best: int := 0;
    var i := 0;
    while i < |names|
      invariant 0 <= i <= |names|
      invariant forall k :: 0 <= k < i ==> readInt(Stem(names[k])).Some? && readInt(Stem(names[k])).value <= best
      invariant i > 0 ==> exists k :: 0 <= k < i && readInt(Stem(names[k])).value == best
    {
      match readInt(Stem(names[i])) {
        case None =>
          return Fail("invalid literal for int()");
        case Some(n) =>
          if i == 0 || n > best {
            best := n;
          }
      }
      i := i + 1;
    }
    r := Ok(best + 1);
  }

  /** The new file never replaces an existing one: the name written is the
      index followed by `.h`, and a name of that form already present would
      have been read as that same index, which is larger than every index
      read. `show` prints an integer; it writes no `.` and `readInt` reads
      it back. */
  lemma NewFileIsFresh(names: seq<string>, readInt: string -> Option<int>, show: int -> string, index: int)
    requires forall k :: 0 <= k < |names| ==> readInt(Stem(names[k])).Some? && readInt(Stem(names[k])).value < index
    requires '.' !in show(index) && readInt(show(index)) == Some(index)
    ensures show(index) + ".h" !in names
  {
    var name := show(index) + ".h";
    if name in names {
      var k :| 0 <= k < |names| && names[k] == name;
      StemOfNumberedName(show(index));
    }
  }

  /** The stem of `d + ".h"` is `d` when `d` has no `.`. */
  lemma {:induction false} StemOfNumberedName(d: string)
    requires '.' !in d
    ensures Stem(d + ".h") == d
    decreases |d|
  {
    if d == [] {
      assert (d + ".h")[0] == '.';
    } else {
      assert d[0] in d;
      assert forall c :: c in d[1..] ==> c in d;
      StemOfNumberedName(d[1..]);
      assert (d + ".h")[1..] == d[1..] + ".h";
    }
  }

  // ---------------------------------------------------------------------
  // Output

  /** The output text: `number` spheres, each the format applied to its
      four values (`sphere(i)` for the `i`-th), joined by the separator,
      and one newline. */
  function SpheresData(number: nat, sphere: nat -> string, separator: string): (r: string)
  {
    Join(separator, Spheres(number, sphere)) + "\n"
  }

  /** The texts of the first `number` spheres. */
  function Spheres(number: nat, sphere: nat -> string): (r: seq<string>)
    ensures |r| == number && forall i :: 0 <= i < number ==> r[i] == sphere(i)
  {
    seq(number, (i: int) requires 0 <= i < number => sphere(i))
  }

  /** The output ends with its one newline and holds every sphere's text
      and `number - 1` separators: nothing is lost or added. */
  lemma SpheresDataShape(number: nat, sphere: nat -> string, separator: string)
    requires number > 0
    ensures var r := SpheresData(number, sphere, separator);
            && r[|r| - 1] == '\n'
            && |r| == SumLengths(Spheres(number, sphere)) + (number - 1) * |separator| + 1
            && r[..|sphere(0)|] == sphere(0)
  {
    var parts := Spheres(number, sphere);
    JoinLength(separator, parts);
    JoinStartsWithFirst(separator, parts);
  }

  /** A join starts with its first part. */
  lemma JoinStartsWithFirst(sep: string, parts: seq<string>)
    requires |parts| > 0
    ensures |parts[0]| <= |Join(sep, parts)| && Join(sep, parts)[..|parts[0]|] == parts[0]
  {
  }
}

=== FILE: sphere_intersecter.dfy ===
/** The sphere/circle incidence store of Sphere_intersecter.h: a list of
    stored spheres, the AABB tree over them, the list of intersection circles,
    and two link maps kept in sync, sphere -> circles lying on it and
    circle -> the pair of spheres it was cut from.

    Storage is modelled with explicit addresses: each pushed sphere or circle
    receives the next unused address `nextAddr` (addresses are never reused), and
    a handle is that address. The AABB tree is the sequence of stored cells it
    holds; which of them a query box meets is the `boxesMeet` oracle, so the
    tree answers a superset of the spheres that really meet the query. */
module SphereIntersecter {
  import opened Handles
  import opened Geometry
  import opened Results

  datatype HandlePair = HandlePair(first: Handle, second: Handle)
  {
    predicate Mentions(h: Handle) { first == h || second == h }
  }

  /** What the kernel's sphere/sphere intersection returns for two different
      spheres: nothing, a single tangency point, or a circle. */
  datatype SphereMeet = Disjoint | TouchAt(point: Point) | MeetAlong(circle: Circle)

  /** The geometric oracles: the tree's bounding-box overlap test and the
      exact sphere/sphere intersection. */
  datatype Kernel = Kernel(boxesMeet: (Sphere, Sphere) -> bool, meet: (Sphere, Sphere) -> SphereMeet)

  /** A sphere's box always meets itself. */
  ghost predicate BoxesReflexive(k: Kernel)
  {
    forall s: Sphere :: k.boxesMeet(s, s)
  }

  datatype Intersecter = Intersecter(
    spheres: seq<Cell<Sphere>>,                 // front = most recently added
    tree: seq<Cell<Sphere>>,                    // primitives of the AABB tree
    circles: seq<Cell<Circle>>,                 // circle storage, front = newest
    sphereCircles: map<Handle, seq<Handle>>,    // sphere -> circles on it
    circleSpheres: map<Handle, HandlePair>,     // circle -> originating spheres
    nextAddr: nat)                                 // next unused address

  function EmptyIntersecter(): (st: Intersecter)
    ensures Valid(st) && st.spheres == [] && st.tree == []
  {
    Intersecter([], [], [], map[], map[], 1)
  }

  // ---------------------------------------------------------------------
  // Invariants

  ghost predicate Distinct<T>(s: seq<T>)
  {
    forall i, j :: 0 <= i < j < |s| ==> s[i] != s[j]
  }

  /** Every address is a real (non-null) address already handed out, and no
      two cells share one. */
  ghost predicate WellAddressed<T>(cells: seq<Cell<T>>, nextAddr: nat)
  {
    && (forall i :: 0 <= i < |cells| ==> 0 < cells[i].addr < nextAddr)
    && (forall i, j :: 0 <= i < j < |cells| ==> cells[i].addr != cells[j].addr)
  }

  predicate IsStored<T>(cells: seq<Cell<T>>, a: nat)
  {
    exists i :: 0 <= i < |cells| && cells[i].addr == a
  }

  /** The circles of `h`, the empty list when `h` has no entry. */
  function CirclesOf(links: map<Handle, seq<Handle>>, h: Handle): seq<Handle>
  {
    if h in links then links[h] else []
  }

  /** Circle `c` with originating pair `p` is listed on both (distinct) spheres. */
  predicate PairLinked(links: map<Handle, seq<Handle>>, p: HandlePair, c: Handle)
  {
    && p.first != p.second
    && p.first in links && p.second in links
    && c in links[p.first] && c in links[p.second]
  }

  /** The two link maps agree: a circle maps to (a, b) exactly when it is in
      the circle lists of a and of b. */
  ghost predicate LinksOk(st: Intersecter)
  {
    && KeysStored(st.sphereCircles, st.spheres)
    && ListsDistinct(st.sphereCircles)
    && ListedLinked(st.sphereCircles, st.circleSpheres)
    && PairsListed(st.sphereCircles, st.circleSpheres)
    && CirclesAllocated(st.circleSpheres, st.circles, st.nextAddr)
  }

  /** Only stored spheres have a circle list. */
  ghost predicate KeysStored(S: map<Handle, seq<Handle>>, spheres: seq<Cell<Sphere>>)
  {
    forall h :: h in S ==> IsStored(spheres, h.addr)
  }

  ghost predicate ListsDistinct(S: map<Handle, seq<Handle>>)
  {
    forall h :: h in S ==> Distinct(S[h])
  }

  /** A circle listed on `h` maps to a pair containing `h`. */
  ghost predicate ListedLinked(S: map<Handle, seq<Handle>>, C: map<Handle, HandlePair>)
  {
    forall h, c :: h in S && c in S[h] ==> c in C && C[c].Mentions(h)
  }

  /** A circle mapping to (a, b) is listed on a and on b. */
  ghost predicate PairsListed(S: map<Handle, seq<Handle>>, C: map<Handle, HandlePair>)
  {
    forall c :: c in C ==> PairLinked(S, C[c], c)
  }

  /** Linked circles are stored circles, with addresses already handed out. */
  ghost predicate CirclesAllocated(C: map<Handle, HandlePair>, circles: seq<Cell<Circle>>, nextAddr: nat)
  {
    forall c :: c in C ==> 0 < c.addr < nextAddr && IsStored(circles, c.addr)
  }

  ghost predicate Valid(st: Intersecter)
  {
    && st.nextAddr > 0
    && WellAddressed(st.spheres, st.nextAddr)
    && WellAddressed(st.circles, st.nextAddr)
    && multiset(st.tree) == multiset(st.spheres)
    && LinksOk(st)
  }

  /** No two stored spheres are equal. */
  ghost predicate NoDuplicateSpheres(st: Intersecter)
  {
    forall i, j :: 0 <= i < j < |st.spheres| ==> st.spheres[i].value != st.spheres[j].value
  }

  // ---------------------------------------------------------------------
  // Insertion

  /** The circle stored for an intersection result: a tangency point becomes
      the zero-radius circle at that point whose plane is orthogonal to the
      line through the two centres. */
  function MeetCircle(m: SphereMeet, s1: Sphere, s2: Sphere): (r: Option<Circle>)
    ensures r.None? <==> m.Disjoint?
    ensures m.TouchAt? ==> r.value.center == m.point && r.value.squaredRadius == 0
    ensures m.MeetAlong? ==> r.value == m.circle
  {
    match m
    case Disjoint => None
    case TouchAt(p) =>
      Some(Circle(p, 0, Vector(s2.center.x - s1.center.x, s2.center.y - s1.center.y, s2.center.z - s1.center.z)))
    case MeetAlong(c) => Some(c)
  }

  /** The spheres of the tree whose boxes meet the box of `s`. */
  function Candidates(tree: seq<Cell<Sphere>>, s: Sphere, k: Kernel): (r: seq<Cell<Sphere>>)
    ensures forall c :: c in r ==> c in tree && k.boxesMeet(s, c.value)
    ensures forall c :: c in tree && k.boxesMeet(s, c.value) ==> c in r
  {
    if tree == [] then []
    else (if k.boxesMeet(s, tree[0].value) then [tree[0]] else []) + Candidates(tree[1..], s, k)
  }

  /** Store a new circle cut from spheres `a` and `b`, and link it both ways:
      it maps to (a, b) and is put at the front of both spheres' lists. */
  function Link(st: Intersecter, a: Handle, b: Handle, circle: Circle): (r: Intersecter)
    ensures r.circles == [Cell(st.nextAddr, circle)] + st.circles
    ensures r.circleSpheres == st.circleSpheres[Handle(st.nextAddr) := HandlePair(a, b)]
    ensures a != b ==> CirclesOf(r.sphereCircles, a) == [Handle(st.nextAddr)] + CirclesOf(st.sphereCircles, a)
    ensures a != b ==> CirclesOf(r.sphereCircles, b) == [Handle(st.nextAddr)] + CirclesOf(st.sphereCircles, b)
    ensures forall h :: h != a && h != b ==> CirclesOf(r.sphereCircles, h) == CirclesOf(st.sphereCircles, h)
    ensures forall h :: h in r.sphereCircles <==> h in st.sphereCircles || h == a || h == b
    ensures r.spheres == st.spheres && r.tree == st.tree && r.nextAddr == st.nextAddr + 1
  {
    var ch := Handle(st.nextAddr);
    var S1 := st.sphereCircles[a := [ch] + CirclesOf(st.sphereCircles, a)];
    st.(circles := [Cell(st.nextAddr, circle)] + st.circles,
        circleSpheres := st.circleSpheres[ch := HandlePair(a, b)],
        sphereCircles := S1[b := [ch] + CirclesOf(S1, b)],
        nextAddr := st.nextAddr + 1)
  }

  /** The loop over the spheres met by the new sphere `s1` (handle `sh1`):
      stops at the first equal sphere (reporting a duplicate), otherwise
      links one circle per non-empty intersection. */
  function Scan(st: Intersecter, sh1: Handle, s1: Sphere, cands: seq<Cell<Sphere>>, k: Kernel): (r: (Intersecter, bool))
    ensures r.0.spheres == st.spheres && r.0.tree == st.tree
    decreases |cands|
  {
    if cands == [] then (st, false)
    else if s1 == cands[0].value then (st, true)
    else
      var next := match MeetCircle(k.meet(s1, cands[0].value), s1, cands[0].value)
        case None => st
        case Some(c) => Link(st, sh1, Handle(cands[0].addr), c);
      Scan(next, sh1, s1, cands[1..], k)
  }

  /** A circle created by an insertion: the other sphere and the circle. */
  datatype Meeting = Meeting(partner: Handle, circle: Circle)

  /** Reference for the circles an insertion creates: one per candidate met,
      in candidate order, up to the first candidate equal to `s1`. */
  function Meetings(s1: Sphere, cands: seq<Cell<Sphere>>, k: Kernel): seq<Meeting>
    decreases |cands|
  {
    if cands == [] || cands[0].value == s1 then []
    else match MeetCircle(k.meet(s1, cands[0].value), s1, cands[0].value)
      case None => Meetings(s1, cands[1..], k)
      case Some(c) => [Meeting(Handle(cands[0].addr), c)] + Meetings(s1, cands[1..], k)
  }

  /** The circle cells created for `ms`, numbered from `base`, newest first. */
  function NewCells(base: nat, ms: seq<Meeting>): seq<Cell<Circle>>
    decreases |ms|
  {
    if ms == [] then [] else NewCells(base + 1, ms[1..]) + [Cell(base, ms[0].circle)]
  }

  function PushFront(st: Intersecter, s: Sphere): Intersecter
  {
    st.(spheres := [Cell(st.nextAddr, s)] + st.spheres, nextAddr := st.nextAddr + 1)
  }

  /** Either accept the pushed sphere into the tree and return its handle,
      or undo: unlink it, pop it from storage and return a null handle. */
  function Finish(st: Intersecter, sh1: Handle, dup: bool): (Intersecter, Handle)
    requires |st.spheres| > 0
  {
    if dup then
      var r := RemoveLinks(st, sh1);
      (r.(spheres := st.spheres[1..]), NullHandle())
    else
      (st.(tree := st.tree + [st.spheres[0]]), sh1)
  }

  /** Insertion of `s` checked against `cands`; `forcedDup` is a duplicate
      found without scanning. */
  function Admit(st: Intersecter, s: Sphere, k: Kernel, cands: seq<Cell<Sphere>>, forcedDup: bool): (Intersecter, Handle)
  {
    var sh1 := Handle(st.nextAddr);
    var scanned := Scan(PushFront(st, s), sh1, s, cands, k);
    Finish(scanned.0, sh1, scanned.1 || forcedDup)
  }

  /** `add_sphere` as written: intersections are only computed when the tree
      already holds more than one sphere; with exactly one, the new sphere is
      only compared for equality with it. */
  function AddSphereAsWritten(st: Intersecter, s: Sphere, k: Kernel): (Intersecter, Handle)
  {
    if |st.tree| > 1 then Admit(st, s, k, Candidates(st.tree, s, k), false)
    else Admit(st, s, k, [], |st.spheres| == 1 && s == st.spheres[0].value)
  }

  /** `add_sphere` with the evidently intended behaviour: when the tree holds
      a single sphere (too few for a tree query) the new sphere is intersected
      with it directly instead of only being compared with it. */
  function AddSphere(st: Intersecter, s: Sphere, k: Kernel): (Intersecter, Handle)
  {
    Admit(st, s, k, if |st.tree| > 1 then Candidates(st.tree, s, k) else st.tree, false)
  }

  /** The insert iterator as written: every sphere of `ss` is added in turn
      by `add_sphere` as written, the returned handles being dropped. */
  function InsertAllAsWritten(st: Intersecter, ss: seq<Sphere>, k: Kernel): Intersecter
    decreases |ss|
  {
    if ss == [] then st else InsertAllAsWritten(AddSphereAsWritten(st, ss[0], k).0, ss[1..], k)
  }

  /** The insert iterator over the corrected `add_sphere`. */
  function InsertAll(st: Intersecter, ss: seq<Sphere>, k: Kernel): Intersecter
    decreases |ss|
  {
    if ss == [] then st else InsertAll(AddSphere(st, ss[0], k).0, ss[1..], k)
  }

  // ---------------------------------------------------------------------
  // Removal

  function RemoveFirst<T(==)>(s: seq<T>, x: T): (r: seq<T>)
    ensures x !in s ==> r == s
    ensures x in s ==> |r| == |s| - 1
  {
    if s == [] then []
    else if s[0] == x then s[1..]
    else [s[0]] + RemoveFirst(s[1..], x)
  }

  /** One step of `remove_sphere_links`: drop circle `ch` of sphere `sh` from
      the other sphere's list and from the circle map. The step's assertions
      are not checked here: a circle without an entry is left alone, and a
      partner without a list keeps none; `UnlinkAssertionsHold` shows that
      neither case, nor a pair naming `sh` twice, arises during the loop. */
  function Unlink(st: Intersecter, sh: Handle, ch: Handle): Intersecter
  {
    if ch !in st.circleSpheres then st
    else
      var p := st.circleSpheres[ch];
      var sh2 := if p.first != sh then p.first else p.second;
      var S := if sh2 in st.sphereCircles
        then st.sphereCircles[sh2 := RemoveFirst(st.sphereCircles[sh2], ch)]
        else st.sphereCircles;
      st.(sphereCircles := S, circleSpheres := st.circleSpheres - {ch})
  }

  function UnlinkAll(st: Intersecter, sh: Handle, todo: seq<Handle>): Intersecter
    decreases |todo|
  {
    if todo == [] then st else UnlinkAll(Unlink(st, sh, todo[0]), sh, todo[1..])
  }

  /** `remove_sphere_links`. */
  function RemoveLinks(st: Intersecter, sh: Handle): Intersecter
  {
    if sh !in st.sphereCircles then st
    else
      var r := UnlinkAll(st, sh, st.sphereCircles[sh]);
      r.(sphereCircles := r.sphereCircles - {sh})
  }

  /** Storage without the first cell at address `a`. */
  function EraseAt<T>(cells: seq<Cell<T>>, a: nat): (r: seq<Cell<T>>)
    ensures IsStored(cells, a) ==> |r| == |cells| - 1
    ensures !IsStored(cells, a) ==> r == cells
    ensures forall c :: c in r ==> c in cells
  {
    if cells == [] then []
    else if cells[0].addr == a then cells[1..]
    else
      var rest := EraseAt(cells[1..], a);
      assert IsStored(cells, a) <==> IsStored(cells[1..], a) by {
        if IsStored(cells, a) {
          var i :| 0 <= i < |cells| && cells[i].addr == a;
          assert cells[1..][i - 1].addr == a;
        }
        if IsStored(cells[1..], a) {
          var i :| 0 <= i < |cells[1..]| && cells[1..][i].addr == a;
          assert cells[i + 1].addr == a;
        }
      }
      [cells[0]] + rest
  }

  /** `remove_sphere`: unlink, erase from storage and, when something was
      erased, rebuild the tree from the remaining spheres. */
  function RemoveSphere(st: Intersecter, sh: Handle): (Intersecter, bool)
  {
    var unlinked := RemoveLinks(st, sh);
    var kept := EraseAt(unlinked.spheres, sh.addr);
    if |kept| != |unlinked.spheres| then (unlinked.(spheres := kept, tree := kept), true)
    else (unlinked, false)
  }

  // ---------------------------------------------------------------------
  // Lookups

  /** The value stored at address `a`. */
  function ValueAt<T>(cells: seq<Cell<T>>, a: nat): (r: Option<T>)
    ensures r.Some? ==> Cell(a, r.value) in cells
    ensures r.None? ==> !IsStored(cells, a)
  {
    if cells == [] then None
    else if cells[0].addr == a then Some(cells[0].value)
    else
      ValueAt(cells[1..], a)
  }

  /** First element of `cs` satisfying `p`, as a handle, or null. */
  function FirstMatch(cs: seq<Cell<Sphere>>, p: Cell<Sphere> -> bool): (h: Handle)
    ensures !h.IsNull() ==> exists c :: c in cs && p(c) && h == Handle(c.addr)
    ensures (forall c :: c in cs ==> c.addr > 0) && (exists c :: c in cs && p(c)) ==> !h.IsNull()
    ensures (forall c :: c in cs ==> c.addr > 0) && h.IsNull() ==> forall c :: c in cs ==> !p(c)
  {
    if cs == [] then NullHandle()
    else if p(cs[0]) then Handle(cs[0].addr)
    else FirstMatch(cs[1..], p)
  }

  /** `find_sphere` as written: `std::find` compares the candidate handles
      with `Handle(s)`, built from the caller's reference, so the match is on
      the address of the caller's object, `obj.addr`, not on its value. */
  function FindSphereAsWritten(st: Intersecter, obj: Cell<Sphere>, k: Kernel): Handle
  {
    FirstMatch(Candidates(st.tree, obj.value, k), (c: Cell<Sphere>) => c.addr == obj.addr)
  }

  /** `find_sphere` as intended: a handle to a stored sphere equal to `s`. */
  function FindSphere(st: Intersecter, s: Sphere, k: Kernel): Handle
  {
    FirstMatch(Candidates(st.tree, s, k), (c: Cell<Sphere>) => c.value == s)
  }

  /** `circles_on_sphere(sh, out)`: the circles listed for `sh`, in order. */
  function CirclesOnSphere(st: Intersecter, sh: Handle): seq<Handle>
  {
    CirclesOf(st.sphereCircles, sh)
  }

  /** `circles_on_sphere(s, out)` as written: through `find_sphere` as
      written, so keyed on the caller's object `obj`. */
  function CirclesOnSphereValueAsWritten(st: Intersecter, obj: Cell<Sphere>, k: Kernel): seq<Handle>
  {
    var sh := FindSphereAsWritten(st, obj, k);
    if sh.IsNull() then [] else CirclesOnSphere(st, sh)
  }

  /** `circles_on_sphere(s, out)` through the corrected `find_sphere`. */
  function CirclesOnSphereValue(st: Intersecter, s: Sphere, k: Kernel): seq<Handle>
  {
    var sh := FindSphere(st, s, k);
    if sh.IsNull() then [] else CirclesOnSphere(st, sh)
  }

  /** `originating_spheres`: the stored pair, or two null handles. */
  function OriginatingSpheres(st: Intersecter, ch: Handle): HandlePair
  {
    if ch in st.circleSpheres then st.circleSpheres[ch] else HandlePair(NullHandle(), NullHandle())
  }

  /** The first circle of `list` whose stored value is `c`, or null. */
  function FindCircleIn(circles: seq<Cell<Circle>>, list: seq<Handle>, c: Circle): Handle
  {
    if list == [] then NullHandle()
    else if ValueAt(circles, list[0].addr) == Some(c) then list[0]
    else FindCircleIn(circles, list[1..], c)
  }

  /** `find_circle_in_sphere(sh, c)`. */
  function FindCircleInSphere(st: Intersecter, sh: Handle, c: Circle): Handle
  {
    FindCircleIn(st.circles, CirclesOf(st.sphereCircles, sh), c)
  }

  /** `find_circle_in_sphere(s, c)` as written: through `find_sphere` as
      written, so keyed on the caller's object `obj`. */
  function FindCircleInSphereValueAsWritten(st: Intersecter, obj: Cell<Sphere>, c: Circle, k: Kernel): Handle
  {
    var sh := FindSphereAsWritten(st, obj, k);
    if sh.IsNull() then NullHandle() else FindCircleInSphere(st, sh, c)
  }

  /** `find_circle_in_sphere(s, c)` through the corrected `find_sphere`. */
  function FindCircleInSphereValue(st: Intersecter, s: Sphere, c: Circle, k: Kernel): Handle
  {
    var sh := FindSphere(st, s, k);
    if sh.IsNull() then NullHandle() else FindCircleInSphere(st, sh, c)
  }

  /** The tree's bounding box: the box of its spheres, or a default box. */
  datatype Box = DefaultBox | BoxAround(spheres: seq<Sphere>)

  function SphereValues(cells: seq<Cell<Sphere>>): (r: seq<Sphere>)
    ensures |r| == |cells| && forall i :: 0 <= i < |cells| ==> r[i] == cells[i].value
  {
    if cells == [] then [] else [cells[0].value] + SphereValues(cells[1..])
  }

  /** `bbox()`: the box of all spheres, or the default box while the tree
      holds at most one sphere. */
  function Bbox(st: Intersecter): (b: Box)
    ensures b == DefaultBox <==> |st.tree| <= 1
    ensures b.BoxAround? ==> b.spheres == SphereValues(st.tree)
  {
    if |st.tree| > 1 then BoxAround(SphereValues(st.tree)) else DefaultBox
  }

  // ---------------------------------------------------------------------
  // Proofs: linking

  lemma {:induction false} RemoveFirstDistinct<T>(s: seq<T>, x: T)
    requires Distinct(s)
    ensures Distinct(RemoveFirst(s, x))
    ensures forall y :: y in RemoveFirst(s, x) <==> y in s && y != x
    decreases |s|
  {
    if s != [] && s[0] != x {
      assert Distinct(s[1..]) by {
        forall i, j | 0 <= i < j < |s[1..]| ensures s[1..][i] != s[1..][j] {
          assert s[1..][i] == s[i + 1] && s[1..][j] == s[j + 1];
        }
      }
      RemoveFirstDistinct(s[1..], x);
      var r := RemoveFirst(s[1..], x);
      assert s[0] !in r by {
        forall j | 0 <= j < |s[1..]| ensures s[1..][j] != s[0] {
          assert s[1..][j] == s[j + 1];
        }
      }
      forall y ensures y in s <==> y == s[0] || y in s[1..] {
        if y in s {
          var i :| 0 <= i < |s| && s[i] == y;
          if i > 0 { assert s[1..][i - 1] == y; }
        }
      }
    } else if s != [] {
      forall i, j | 0 <= i < j < |s[1..]| ensures s[1..][i] != s[1..][j] {
        assert s[1..][i] == s[i + 1] && s[1..][j] == s[j + 1];
      }
      forall y ensures y in s[1..] <==> y in s && y != x {
        if y in s && y != x {
          var i :| 0 <= i < |s| && s[i] == y;
          assert i > 0;
          assert s[1..][i - 1] == y;
        }
        if y in s[1..] {
          var i :| 0 <= i < |s[1..]| && s[1..][i] == y;
          assert s[i + 1] == y;
        }
      }
    }
  }

  /** Linking a new circle between two different stored spheres keeps the
      link maps in agreement. */
  lemma LinkKeepsLinks(st: Intersecter, a: Handle, b: Handle, circle: Circle)
    requires LinksOk(st) && WellAddressed(st.circles, st.nextAddr) && st.nextAddr > 0
    requires a != b && IsStored(st.spheres, a.addr) && IsStored(st.spheres, b.addr)
    ensures LinksOk(Link(st, a, b, circle))
    ensures WellAddressed(Link(st, a, b, circle).circles, st.nextAddr + 1)
  {
    LinkKeysStored(st, a, b, circle);
    LinkListsDistinct(st, a, b, circle);
    LinkListedLinked(st, a, b, circle);
    LinkPairsListed(st, a, b, circle);
    LinkCirclesAllocated(st, a, b, circle);
  }

  lemma LinkKeysStored(st: Intersecter, a: Handle, b: Handle, circle: Circle)
    requires KeysStored(st.sphereCircles, st.spheres)
    requires IsStored(st.spheres, a.addr) && IsStored(st.spheres, b.addr)
    ensures KeysStored(Link(st, a, b, circle).sphereCircles, Link(st, a, b, circle).spheres)
  {
  }

  lemma LinkCirclesAllocated(st: Intersecter, a: Handle, b: Handle, circle: Circle)
    requires CirclesAllocated(st.circleSpheres, st.circles, st.nextAddr)
    requires WellAddressed(st.circles, st.nextAddr) && st.nextAddr > 0
    ensures CirclesAllocated(Link(st, a, b, circle).circleSpheres, Link(st, a, b, circle).circles, st.nextAddr + 1)
    ensures WellAddressed(Link(st, a, b, circle).circles, st.nextAddr + 1)
  {
    var r := Link(st, a, b, circle);
    forall c | c in r.circleSpheres ensures IsStored(r.circles, c.addr) {
      StoredPrepend(Cell(st.nextAddr, circle), st.circles, c.addr);
    }
  }

  lemma LinkListsDistinct(st: Intersecter, a: Handle, b: Handle, circle: Circle)
    requires ListsDistinct(st.sphereCircles) && ListedLinked(st.sphereCircles, st.circleSpheres)
    requires CirclesAllocated(st.circleSpheres, st.circles, st.nextAddr) && a != b
    ensures ListsDistinct(Link(st, a, b, circle).sphereCircles)
  {
    var S, S' := st.sphereCircles, Link(st, a, b, circle).sphereCircles;
    var ch := Handle(st.nextAddr);
    forall h | h in S' ensures Distinct(S'[h]) {
      if h == a || h == b {
        assert ch !in CirclesOf(S, h);
        PrependDistinct(ch, CirclesOf(S, h));
      } else {
        assert S'[h] == S[h];
      }
    }
  }

  lemma LinkListedLinked(st: Intersecter, a: Handle, b: Handle, circle: Circle)
    requires ListedLinked(st.sphereCircles, st.circleSpheres) && a != b
    requires CirclesAllocated(st.circleSpheres, st.circles, st.nextAddr)
    ensures ListedLinked(Link(st, a, b, circle).sphereCircles, Link(st, a, b, circle).circleSpheres)
  {
    var r := Link(st, a, b, circle);
    var S, S', C' := st.sphereCircles, r.sphereCircles, r.circleSpheres;
    forall h, c | h in S' && c in S'[h] ensures c in C' && C'[c].Mentions(h) {
      assert S'[h] == CirclesOf(S', h);
      if c != Handle(st.nextAddr) {
        assert c in CirclesOf(S, h);
      }
    }
  }

  lemma LinkPairsListed(st: Intersecter, a: Handle, b: Handle, circle: Circle)
    requires PairsListed(st.sphereCircles, st.circleSpheres) && a != b
    ensures PairsListed(Link(st, a, b, circle).sphereCircles, Link(st, a, b, circle).circleSpheres)
  {
    var r := Link(st, a, b, circle);
    var S, C, S', C' := st.sphereCircles, st.circleSpheres, r.sphereCircles, r.circleSpheres;
    forall c | c in C' ensures PairLinked(S', C'[c], c) {
      if c != Handle(st.nextAddr) {
        var p := C[c];
        assert c in CirclesOf(S, p.first) && c in CirclesOf(S, p.second);
        assert c in CirclesOf(S', p.first) && c in CirclesOf(S', p.second);
      } else {
        assert CirclesOf(S', a)[0] == c && CirclesOf(S', b)[0] == c;
      }
    }
  }

  lemma StoredPrepend<T>(x: Cell<T>, cells: seq<Cell<T>>, a: nat)
    ensures IsStored([x] + cells, a) <==> x.addr == a || IsStored(cells, a)
  {
    var t := [x] + cells;
    if IsStored(cells, a) {
      var i :| 0 <= i < |cells| && cells[i].addr == a;
      assert t[i + 1] == cells[i];
    }
    if IsStored(t, a) && x.addr != a {
      var i :| 0 <= i < |t| && t[i].addr == a;
      assert cells[i - 1] == t[i];
    }
    if x.addr == a {
      assert t[0] == x;
    }
  }

  lemma PrependDistinct<T>(x: T, s: seq<T>)
    requires Distinct(s) && x !in s
    ensures Distinct([x] + s)
  {
    var t := [x] + s;
    forall i, j | 0 <= i < j < |t| ensures t[i] != t[j] {
      if i == 0 { assert t[j] == s[j - 1]; }
      else { assert t[i] == s[i - 1] && t[j] == s[j - 1]; }
    }
  }

  /** The circle map after linking the circles of `ms`, numbered from `base`. */
  function Grow(C: map<Handle, HandlePair>, sh1: Handle, base: nat, ms: seq<Meeting>): map<Handle, HandlePair>
    decreases |ms|
  {
    if ms == [] then C else Grow(C[Handle(base) := HandlePair(sh1, ms[0].partner)], sh1, base + 1, ms[1..])
  }

  /** The scan keeps the link maps in agreement. */
  lemma {:induction false} ScanKeepsLinks(st: Intersecter, sh1: Handle, s1: Sphere, cands: seq<Cell<Sphere>>, k: Kernel)
    requires LinksOk(st) && WellAddressed(st.circles, st.nextAddr) && st.nextAddr > 0
    requires IsStored(st.spheres, sh1.addr)
    requires forall c :: c in cands ==> c in st.spheres && c.addr != sh1.addr
    ensures LinksOk(Scan(st, sh1, s1, cands, k).0)
    ensures WellAddressed(Scan(st, sh1, s1, cands, k).0.circles, Scan(st, sh1, s1, cands, k).0.nextAddr)
    ensures Scan(st, sh1, s1, cands, k).0.nextAddr >= st.nextAddr
    decreases |cands|
  {
    if cands != [] && s1 != cands[0].value {
      var c0 := cands[0];
      var i :| 0 <= i < |st.spheres| && st.spheres[i] == c0;
      assert IsStored(st.spheres, c0.addr) by { assert st.spheres[i].addr == c0.addr; }
      var m := MeetCircle(k.meet(s1, c0.value), s1, c0.value);
      assert forall c :: c in cands[1..] ==> c in cands;
      if m.Some? {
        LinkKeepsLinks(st, sh1, Handle(c0.addr), m.value);
        ScanKeepsLinks(Link(st, sh1, Handle(c0.addr), m.value), sh1, s1, cands[1..], k);
      } else {
        ScanKeepsLinks(st, sh1, s1, cands[1..], k);
      }
    }
  }

  /** The scan reports a duplicate exactly when a candidate equals the new
      sphere. */
  lemma {:induction false} ScanFindsDuplicate(st: Intersecter, sh1: Handle, s1: Sphere, cands: seq<Cell<Sphere>>, k: Kernel)
    ensures Scan(st, sh1, s1, cands, k).1 <==> exists c :: c in cands && c.value == s1
    decreases |cands|
  {
    if cands != [] && s1 != cands[0].value {
      var c0 := cands[0];
      var m := MeetCircle(k.meet(s1, c0.value), s1, c0.value);
      var next := if m.Some? then Link(st, sh1, Handle(c0.addr), m.value) else st;
      ScanFindsDuplicate(next, sh1, s1, cands[1..], k);
      assert (exists c :: c in cands && c.value == s1) ==> (exists c :: c in cands[1..] && c.value == s1) by {
        if exists c :: c in cands && c.value == s1 {
          var c :| c in cands && c.value == s1;
          var j :| 0 <= j < |cands| && cands[j] == c;
          assert cands[1..][j - 1] == c;
        }
      }
      assert forall c :: c in cands[1..] ==> c in cands;
    }
  }

  lemma AppendAssoc<T>(a: seq<T>, b: seq<T>, c: seq<T>)
    ensures a + (b + c) == (a + b) + c
  {
  }

  /** The scan creates exactly the circles of `Meetings`, at consecutive
      fresh addresses. */
  lemma ScanCreates(st: Intersecter, sh1: Handle, s1: Sphere, cands: seq<Cell<Sphere>>, k: Kernel)
    ensures var r := Scan(st, sh1, s1, cands, k).0;
      && r.nextAddr == st.nextAddr + |Meetings(s1, cands, k)|
      && r.circles == NewCells(st.nextAddr, Meetings(s1, cands, k)) + st.circles
      && r.circleSpheres == Grow(st.circleSpheres, sh1, st.nextAddr, Meetings(s1, cands, k))
  {
    ScanStoresCircles(st, sh1, s1, cands, k);
    ScanLinksCircles(st, sh1, s1, cands, k);
  }

  lemma {:induction false} ScanStoresCircles(st: Intersecter, sh1: Handle, s1: Sphere, cands: seq<Cell<Sphere>>, k: Kernel)
    ensures var r := Scan(st, sh1, s1, cands, k).0;
      && r.nextAddr == st.nextAddr + |Meetings(s1, cands, k)|
      && r.circles == NewCells(st.nextAddr, Meetings(s1, cands, k)) + st.circles
    decreases |cands|
  {
    if cands != [] && s1 != cands[0].value {
      var c0 := cands[0];
      var m := MeetCircle(k.meet(s1, c0.value), s1, c0.value);
      if m.Some? {
        var next := Link(st, sh1, Handle(c0.addr), m.value);
        assert Scan(st, sh1, s1, cands, k) == Scan(next, sh1, s1, cands[1..], k);
        ScanStoresCircles(next, sh1, s1, cands[1..], k);
        var ms, rest := Meetings(s1, cands, k), Meetings(s1, cands[1..], k);
        assert ms == [Meeting(Handle(c0.addr), m.value)] + rest;
        assert ms[1..] == rest;
        assert NewCells(st.nextAddr, ms) == NewCells(st.nextAddr + 1, rest) + [Cell(st.nextAddr, m.value)];
        AppendAssoc(NewCells(st.nextAddr + 1, rest), [Cell(st.nextAddr, m.value)], st.circles);
      } else {
        ScanStoresCircles(st, sh1, s1, cands[1..], k);
      }
    }
  }

  lemma {:induction false} ScanLinksCircles(st: Intersecter, sh1: Handle, s1: Sphere, cands: seq<Cell<Sphere>>, k: Kernel)
    ensures Scan(st, sh1, s1, cands, k).0.circleSpheres == Grow(st.circleSpheres, sh1, st.nextAddr, Meetings(s1, cands, k))
    decreases |cands|
  {
    if cands != [] && s1 != cands[0].value {
      var c0 := cands[0];
      var m := MeetCircle(k.meet(s1, c0.value), s1, c0.value);
      if m.Some? {
        var next := Link(st, sh1, Handle(c0.addr), m.value);
        assert Scan(st, sh1, s1, cands, k) == Scan(next, sh1, s1, cands[1..], k);
        ScanLinksCircles(next, sh1, s1, cands[1..], k);
        var ms, rest := Meetings(s1, cands, k), Meetings(s1, cands[1..], k);
        assert ms == [Meeting(Handle(c0.addr), m.value)] + rest;
        assert ms[1..] == rest;
        assert Grow(st.circleSpheres, sh1, st.nextAddr, ms) == Grow(next.circleSpheres, sh1, st.nextAddr + 1, rest);
      } else {
        ScanLinksCircles(st, sh1, s1, cands[1..], k);
      }
    }
  }

  // ---------------------------------------------------------------------
  // Proofs: unlinking

  /** Loop invariant of `remove_sphere_links(sh)` after the first `k`
      circles of `L`, the circle list of `sh`, have been unlinked; `C0` is the
      circle map before the loop. */
  ghost predicate Unlinking(st: Intersecter, sh: Handle, L: seq<Handle>, k: nat, C0: map<Handle, HandlePair>)
  {
    var S := st.sphereCircles;
    var C := st.circleSpheres;
    && k <= |L| && sh in S && S[sh] == L && Distinct(L)
    && KeysStored(S, st.spheres) && ListsDistinct(S)
    && OthersLinked(S, C, sh)
    && PairsListed(S, C)
    && CirclesAllocated(C, st.circles, st.nextAddr)
    && TodoLinked(C, L, k, sh)
    && DoneGone(C, L, k)
    && Shrunk(C, C0, L)
  }

  /** `ListedLinked` for every sphere but `sh`. */
  ghost predicate OthersLinked(S: map<Handle, seq<Handle>>, C: map<Handle, HandlePair>, sh: Handle)
  {
    forall h, c :: h in S && h != sh && c in S[h] ==> c in C && C[c].Mentions(h)
  }

  ghost predicate TodoLinked(C: map<Handle, HandlePair>, L: seq<Handle>, k: nat, sh: Handle)
  {
    forall i :: k <= i < |L| ==> L[i] in C && C[L[i]].Mentions(sh)
  }

  ghost predicate DoneGone(C: map<Handle, HandlePair>, L: seq<Handle>, k: nat)
  {
    forall i :: 0 <= i < k && i < |L| ==> L[i] !in C
  }

  /** `C` is `C0` with some circles of `L` removed. */
  ghost predicate Shrunk(C: map<Handle, HandlePair>, C0: map<Handle, HandlePair>, L: seq<Handle>)
  {
    && (forall c :: c in C ==> c in C0 && C[c] == C0[c])
    && (forall c :: c in C0 && c !in L ==> c in C)
  }

  /** One unlinking step on the maps alone. */
  lemma UnlinkStepMaps(S: map<Handle, seq<Handle>>, C: map<Handle, HandlePair>, sh: Handle, sh2: Handle, ch: Handle)
    requires ListsDistinct(S) && OthersLinked(S, C, sh) && PairsListed(S, C)
    requires ch in C && C[ch].Mentions(sh) && C[ch].Mentions(sh2) && sh2 != sh
    ensures sh2 in S && ch in S[sh2]
    ensures ListsDistinct(S[sh2 := RemoveFirst(S[sh2], ch)])
    ensures OthersLinked(S[sh2 := RemoveFirst(S[sh2], ch)], C - {ch}, sh)
    ensures PairsListed(S[sh2 := RemoveFirst(S[sh2], ch)], C - {ch})
  {
    assert PairLinked(S, C[ch], ch);
    var S' := S[sh2 := RemoveFirst(S[sh2], ch)];
    var C' := C - {ch};
    RemoveFirstDistinct(S[sh2], ch);
    forall h, c | h in S' && h != sh && c in S'[h] ensures c in C' && C'[c].Mentions(h) {
      assert c in S[h];
    }
    forall c | c in C' ensures PairLinked(S', C'[c], c) {
      assert PairLinked(S, C[c], c);
    }
  }

  lemma UnlinkStep(st: Intersecter, sh: Handle, L: seq<Handle>, k: nat, C0: map<Handle, HandlePair>)
    requires Unlinking(st, sh, L, k, C0) && k < |L|
    ensures Unlinking(Unlink(st, sh, L[k]), sh, L, k + 1, C0)
    ensures Unlink(st, sh, L[k]).spheres == st.spheres && Unlink(st, sh, L[k]).circles == st.circles
    ensures Unlink(st, sh, L[k]).tree == st.tree && Unlink(st, sh, L[k]).nextAddr == st.nextAddr
  {
    var ch := L[k];
    var S, C := st.sphereCircles, st.circleSpheres;
    assert ch in C && C[ch].Mentions(sh);
    var p := C[ch];
    var sh2 := if p.first != sh then p.first else p.second;
    assert PairLinked(S, p, ch);
    UnlinkStepMaps(S, C, sh, sh2, ch);
    UnlinkStepBookkeeping(st, sh, sh2, L, k, C0, RemoveFirst(S[sh2], ch));
    var r := Unlink(st, sh, ch);
    assert r.sphereCircles == S[sh2 := RemoveFirst(S[sh2], ch)];
    assert r.circleSpheres == C - {ch};
  }

  /** The parts of the unlinking invariant that one step keeps whatever the
      other sphere's new list is. */
  lemma UnlinkStepBookkeeping(st: Intersecter, sh: Handle, sh2: Handle, L: seq<Handle>, k: nat,
                              C0: map<Handle, HandlePair>, list: seq<Handle>)
    requires Unlinking(st, sh, L, k, C0) && k < |L| && sh2 != sh && sh2 in st.sphereCircles
    ensures var S', C' := st.sphereCircles[sh2 := list], st.circleSpheres - {L[k]};
      && sh in S' && S'[sh] == L
      && KeysStored(S', st.spheres)
      && CirclesAllocated(C', st.circles, st.nextAddr)
      && TodoLinked(C', L, k + 1, sh)
      && DoneGone(C', L, k + 1)
      && Shrunk(C', C0, L)
  {
    var C' := st.circleSpheres - {L[k]};
    forall i | k + 1 <= i < |L| ensures L[i] != L[k] { }
    assert TodoLinked(C', L, k + 1, sh);
  }

  /** The three assertions of each `remove_sphere_links` step hold at every
      step of the loop: the circle under the iterator has an entry whose
      pair names `sh`, the other sphere of the pair is not `sh`, and that
      other sphere has a circle list. */
  lemma UnlinkAssertionsHold(st: Intersecter, sh: Handle, L: seq<Handle>, k: nat, C0: map<Handle, HandlePair>)
    requires Unlinking(st, sh, L, k, C0) && k < |L|
    ensures var C := st.circleSpheres;
      && L[k] in C
      && (C[L[k]].first == sh || C[L[k]].second == sh)
      && var sh2 := if C[L[k]].first != sh then C[L[k]].first else C[L[k]].second;
      && sh2 != sh
      && sh2 in st.sphereCircles
  {
    assert L[k] in st.circleSpheres;
    assert PairLinked(st.sphereCircles, st.circleSpheres[L[k]], L[k]);
  }

  lemma {:induction false} UnlinkAllKeepsInvariant(st: Intersecter, sh: Handle, L: seq<Handle>, k: nat, C0: map<Handle, HandlePair>)
    requires Unlinking(st, sh, L, k, C0)
    ensures Unlinking(UnlinkAll(st, sh, L[k..]), sh, L, |L|, C0)
    ensures UnlinkAll(st, sh, L[k..]).spheres == st.spheres && UnlinkAll(st, sh, L[k..]).circles == st.circles
    ensures UnlinkAll(st, sh, L[k..]).tree == st.tree && UnlinkAll(st, sh, L[k..]).nextAddr == st.nextAddr
    decreases |L| - k
  {
    if k < |L| {
      UnlinkStep(st, sh, L, k, C0);
      assert L[k..][1..] == L[k + 1..];
      UnlinkAllKeepsInvariant(Unlink(st, sh, L[k]), sh, L, k + 1, C0);
    }
  }

  /** After the loop no circle left in the map touches `sh`. */
  lemma UnlinkedNoMention(u: Intersecter, sh: Handle, L: seq<Handle>, C0: map<Handle, HandlePair>)
    requires Unlinking(u, sh, L, |L|, C0)
    ensures forall c :: c in u.circleSpheres ==> !u.circleSpheres[c].Mentions(sh)
  {
    var C' := u.circleSpheres;
    forall c | c in C' ensures !C'[c].Mentions(sh) {
      assert PairLinked(u.sphereCircles, C'[c], c);
    }
  }

  /** Dropping the emptied key of `sh` restores `LinksOk`. */
  lemma DropKeyKeepsLinks(u: Intersecter, sh: Handle, L: seq<Handle>, C0: map<Handle, HandlePair>)
    requires Unlinking(u, sh, L, |L|, C0)
    ensures LinksOk(u.(sphereCircles := u.sphereCircles - {sh}))
  {
    UnlinkedNoMention(u, sh, L, C0);
    var S' := u.sphereCircles - {sh};
    var C' := u.circleSpheres;
    forall c | c in C' ensures PairLinked(S', C'[c], c) {
      assert PairLinked(u.sphereCircles, C'[c], c);
    }
  }

  /** The circle map left by the loop is `C0` without the circles of `sh`. */
  lemma UnlinkedCircles(u: Intersecter, sh: Handle, L: seq<Handle>, C0: map<Handle, HandlePair>)
    requires Unlinking(u, sh, L, |L|, C0)
    requires forall c :: c in L ==> c in C0 && C0[c].Mentions(sh)
    ensures forall c :: c in u.circleSpheres <==> c in C0 && !C0[c].Mentions(sh)
    ensures forall c :: c in u.circleSpheres ==> u.circleSpheres[c] == C0[c]
  {
    UnlinkedNoMention(u, sh, L, C0);
  }

  /** `remove_sphere_links(sh)` keeps the maps in agreement, leaves no trace
      of `sh` in either map, and drops from the circle map exactly the circles
      cut from `sh`. */
  lemma RemoveLinksSpec(st: Intersecter, sh: Handle)
    requires LinksOk(st)
    ensures var r := RemoveLinks(st, sh);
      && LinksOk(r)
      && sh !in r.sphereCircles
      && (forall c :: c in r.circleSpheres ==> !r.circleSpheres[c].Mentions(sh))
      && (forall c :: c in r.circleSpheres <==> c in st.circleSpheres && !st.circleSpheres[c].Mentions(sh))
      && (forall c :: c in r.circleSpheres ==> r.circleSpheres[c] == st.circleSpheres[c])
      && r.spheres == st.spheres && r.tree == st.tree && r.circles == st.circles && r.nextAddr == st.nextAddr
  {
    var S, C := st.sphereCircles, st.circleSpheres;
    if sh in S {
      var L := S[sh];
      assert L[0..] == L;
      UnlinkAllKeepsInvariant(st, sh, L, 0, C);
      var u := UnlinkAll(st, sh, L);
      DropKeyKeepsLinks(u, sh, L, C);
      UnlinkedCircles(u, sh, L, C);
    } else {
      forall c | c in C ensures !C[c].Mentions(sh) {
        assert PairLinked(S, C[c], c);
      }
    }
  }

  // ---------------------------------------------------------------------
  // Proofs: insertion

  lemma WellAddressedMono<T>(cells: seq<Cell<T>>, n: nat, n': nat)
    requires WellAddressed(cells, n) && n <= n'
    ensures WellAddressed(cells, n')
  {
  }

  /** Pushing a cell at the next unused address keeps addresses distinct. */
  lemma WellAddressedPush<T>(x: Cell<T>, cells: seq<Cell<T>>, n: nat, n': nat)
    requires WellAddressed(cells, n) && 0 < x.addr && x.addr == n && n < n'
    ensures WellAddressed([x] + cells, n')
  {
    var t := [x] + cells;
    forall i | 0 <= i < |t| ensures 0 < t[i].addr < n' {
      if i > 0 { assert t[i] == cells[i - 1]; }
    }
    forall i, j | 0 <= i < j < |t| ensures t[i].addr != t[j].addr {
      assert t[j] == cells[j - 1];
      if i > 0 { assert t[i] == cells[i - 1]; }
    }
  }

  /** The circles linked by a scan are the old ones, untouched, plus new
      ones at the fresh addresses, each cut from the new sphere. */
  lemma {:induction false} GrowShape(C: map<Handle, HandlePair>, sh1: Handle, base: nat, ms: seq<Meeting>)
    requires forall c :: c in C ==> c.addr < base
    ensures forall c :: c in Grow(C, sh1, base, ms) <==> c in C || base <= c.addr < base + |ms|
    ensures forall c :: c in C ==> Grow(C, sh1, base, ms)[c] == C[c]
    ensures forall c :: c in Grow(C, sh1, base, ms) && c !in C ==> Grow(C, sh1, base, ms)[c].first == sh1
    decreases |ms|
  {
    if ms != [] {
      var C1 := C[Handle(base) := HandlePair(sh1, ms[0].partner)];
      GrowShape(C1, sh1, base + 1, ms[1..]);
    }
  }

  /** The state right after the new sphere is pushed, before the scan. */
  lemma PushFrontReady(st: Intersecter, s: Sphere, cands: seq<Cell<Sphere>>)
    requires Valid(st)
    requires forall c :: c in cands ==> c in st.spheres
    ensures var p := PushFront(st, s);
      && LinksOk(p) && WellAddressed(p.circles, p.nextAddr) && p.nextAddr > 0
      && IsStored(p.spheres, st.nextAddr)
      && (forall c :: c in cands ==> c in p.spheres && c.addr != st.nextAddr)
  {
    var p := PushFront(st, s);
    forall h | h in p.sphereCircles ensures IsStored(p.spheres, h.addr) {
      StoredPrepend(Cell(st.nextAddr, s), st.spheres, h.addr);
    }
    assert p.spheres[0].addr == st.nextAddr;
    forall c | c in cands ensures c.addr != st.nextAddr {
      var i :| 0 <= i < |st.spheres| && st.spheres[i] == c;
    }
    WellAddressedMono(st.circles, st.nextAddr, p.nextAddr);
  }

  /** Insertion keeps the intersecter valid whatever it decides. */
  lemma AdmitKeepsValid(st: Intersecter, s: Sphere, k: Kernel, cands: seq<Cell<Sphere>>, forcedDup: bool)
    requires Valid(st)
    requires forall c :: c in cands ==> c in st.spheres
    ensures Valid(Admit(st, s, k, cands, forcedDup).0)
  {
    var sh1 := Handle(st.nextAddr);
    var p := PushFront(st, s);
    PushFrontReady(st, s, cands);
    ScanKeepsLinks(p, sh1, s, cands, k);
    var sc := Scan(p, sh1, s, cands, k);
    var u := sc.0;
    assert u.spheres == [Cell(st.nextAddr, s)] + st.spheres;
    if sc.1 || forcedDup {
      UndoKeepsValid(st, s, u);
    } else {
      WellAddressedPush(Cell(st.nextAddr, s), st.spheres, st.nextAddr, u.nextAddr);
    }
  }

  /** Undoing an insertion (unlinking the pushed sphere and popping it)
      leaves a valid intersecter. */
  lemma UndoKeepsValid(st: Intersecter, s: Sphere, u: Intersecter)
    requires Valid(st)
    requires LinksOk(u) && WellAddressed(u.circles, u.nextAddr) && u.nextAddr >= st.nextAddr
    requires u.spheres == [Cell(st.nextAddr, s)] + st.spheres && u.tree == st.tree
    ensures var r := RemoveLinks(u, Handle(st.nextAddr)); Valid(r.(spheres := u.spheres[1..]))
  {
    var sh1 := Handle(st.nextAddr);
    RemoveLinksSpec(u, sh1);
    var r := RemoveLinks(u, sh1).(spheres := u.spheres[1..]);
    assert u.spheres[1..] == st.spheres;
    forall h | h in r.sphereCircles ensures IsStored(st.spheres, h.addr) {
      StoredPrepend(Cell(st.nextAddr, s), st.spheres, h.addr);
    }
    WellAddressedMono(st.spheres, st.nextAddr, u.nextAddr);
  }

  /** Circles already linked are older than the next address and were cut
      from stored spheres, so none of them mentions the next handle. */
  lemma OldCirclesAvoidNext(st: Intersecter)
    requires Valid(st)
    ensures forall c :: c in st.circleSpheres ==> c.addr < st.nextAddr && !st.circleSpheres[c].Mentions(Handle(st.nextAddr))
  {
    var C := st.circleSpheres;
    forall c | c in C ensures !C[c].Mentions(Handle(st.nextAddr)) {
      assert PairLinked(st.sphereCircles, C[c], c);
      var i :| 0 <= i < |st.spheres| && st.spheres[i].addr == C[c].first.addr;
      var j :| 0 <= j < |st.spheres| && st.spheres[j].addr == C[c].second.addr;
    }
  }

  /** An insertion rejects the new sphere exactly when it was a forced
      duplicate or equals a candidate; otherwise it returns the handle of the
      pushed sphere. */
  lemma AdmitDecides(st: Intersecter, s: Sphere, k: Kernel, cands: seq<Cell<Sphere>>, forcedDup: bool)
    requires st.nextAddr > 0
    ensures var h := Admit(st, s, k, cands, forcedDup).1;
      && (h.IsNull() <==> forcedDup || exists c :: c in cands && c.value == s)
      && (!h.IsNull() ==> h == Handle(st.nextAddr))
  {
    ScanFindsDuplicate(PushFront(st, s), Handle(st.nextAddr), s, cands, k);
  }

  /** An accepted sphere is pushed to storage and appended to the tree, and
      exactly the circles of `Meetings` are stored and linked to it. */
  lemma AdmitAccepts(st: Intersecter, s: Sphere, k: Kernel, cands: seq<Cell<Sphere>>, forcedDup: bool)
    requires st.nextAddr > 0
    requires !forcedDup && forall c :: c in cands ==> c.value != s
    ensures var (r, h) := Admit(st, s, k, cands, forcedDup);
      && r.spheres == [Cell(st.nextAddr, s)] + st.spheres
      && r.tree == st.tree + [Cell(st.nextAddr, s)]
      && r.circles == NewCells(st.nextAddr + 1, Meetings(s, cands, k)) + st.circles
      && r.circleSpheres == Grow(st.circleSpheres, h, st.nextAddr + 1, Meetings(s, cands, k))
  {
    AdmitDecides(st, s, k, cands, forcedDup);
    ScanCreates(PushFront(st, s), Handle(st.nextAddr), s, cands, k);
  }

  /** Unlinking `sh1` after a scan that linked circles to it gives back the
      circle map from before the scan. */
  lemma UnlinkUndoesGrow(C: map<Handle, HandlePair>, R: map<Handle, HandlePair>, sh1: Handle, base: nat, ms: seq<Meeting>)
    requires forall c :: c in C ==> c.addr < base && !C[c].Mentions(sh1)
    requires forall c :: c in R <==> c in Grow(C, sh1, base, ms) && !Grow(C, sh1, base, ms)[c].Mentions(sh1)
    requires forall c :: c in R ==> R[c] == Grow(C, sh1, base, ms)[c]
    ensures R == C
  {
    GrowShape(C, sh1, base, ms);
  }

  /** A rejected sphere leaves the sphere storage, the tree and the circle
      map as they were, and no link of its handle behind. */
  lemma AdmitRejects(st: Intersecter, s: Sphere, k: Kernel, cands: seq<Cell<Sphere>>, forcedDup: bool)
    requires Valid(st)
    requires forall c :: c in cands ==> c in st.spheres
    requires forcedDup || exists c :: c in cands && c.value == s
    ensures var (r, h) := Admit(st, s, k, cands, forcedDup);
      && r.spheres == st.spheres && r.tree == st.tree && r.circleSpheres == st.circleSpheres
      && Handle(st.nextAddr) !in r.sphereCircles
  {
    var sh1 := Handle(st.nextAddr);
    var p := PushFront(st, s);
    PushFrontReady(st, s, cands);
    ScanFindsDuplicate(p, sh1, s, cands, k);
    ScanCreates(p, sh1, s, cands, k);
    ScanKeepsLinks(p, sh1, s, cands, k);
    var u := Scan(p, sh1, s, cands, k).0;
    RemoveLinksSpec(u, sh1);
    OldCirclesAvoidNext(st);
    UnlinkUndoesGrow(st.circleSpheres, RemoveLinks(u, sh1).circleSpheres, sh1, st.nextAddr + 1, Meetings(s, cands, k));
  }

  // ---------------------------------------------------------------------
  // Proofs: add_sphere

  /** The tree only answers stored spheres. */
  lemma TreeInStorage(st: Intersecter)
    requires Valid(st)
    ensures forall c :: c in st.tree ==> c in st.spheres
    ensures |st.tree| == |st.spheres|
  {
    forall c | c in st.tree ensures c in st.spheres {
      assert c in multiset(st.tree);
    }
    assert |multiset(st.tree)| == |multiset(st.spheres)|;
  }

  /** The candidates `add_sphere` scans, as corrected. */
  function ScanSet(st: Intersecter, s: Sphere, k: Kernel): (r: seq<Cell<Sphere>>)
    ensures forall c :: c in r ==> c in st.tree
  {
    if |st.tree| > 1 then Candidates(st.tree, s, k) else st.tree
  }

  lemma AddSphereKeepsValid(st: Intersecter, s: Sphere, k: Kernel)
    requires Valid(st)
    ensures Valid(AddSphere(st, s, k).0)
    ensures Valid(AddSphereAsWritten(st, s, k).0)
  {
    TreeInStorage(st);
    AdmitKeepsValid(st, s, k, ScanSet(st, s, k), false);
    if |st.tree| > 1 {
      AdmitKeepsValid(st, s, k, Candidates(st.tree, s, k), false);
    } else {
      AdmitKeepsValid(st, s, k, [], |st.spheres| == 1 && s == st.spheres[0].value);
    }
  }

  /** With boxes that meet themselves, a stored sphere equal to `s` is among
      the spheres the corrected insertion scans. */
  lemma StoredIsScanned(st: Intersecter, s: Sphere, k: Kernel)
    requires Valid(st) && BoxesReflexive(k)
    ensures (exists c :: c in st.spheres && c.value == s) <==> (exists c :: c in ScanSet(st, s, k) && c.value == s)
  {
    TreeInStorage(st);
    if exists c :: c in st.spheres && c.value == s {
      var c :| c in st.spheres && c.value == s;
      assert c in multiset(st.spheres);
      assert c in st.tree;
      assert k.boxesMeet(s, c.value);
      assert c in ScanSet(st, s, k);
    }
  }

  /** With boxes that meet themselves, `add_sphere` rejects a sphere exactly
      when an equal sphere is already stored. */
  lemma AddSphereRejectsDuplicates(st: Intersecter, s: Sphere, k: Kernel)
    requires Valid(st) && BoxesReflexive(k)
    ensures AddSphere(st, s, k).1.IsNull() <==> exists c :: c in st.spheres && c.value == s
  {
    StoredIsScanned(st, s, k);
    AdmitDecides(st, s, k, ScanSet(st, s, k), false);
  }

  /** The size guard as written does not change which spheres are rejected:
      with a single stored sphere, the equality test stands in for the scan. */
  lemma AddSphereAsWrittenRejectsDuplicates(st: Intersecter, s: Sphere, k: Kernel)
    requires Valid(st) && BoxesReflexive(k)
    ensures AddSphereAsWritten(st, s, k).1.IsNull() <==> exists c :: c in st.spheres && c.value == s
  {
    if |st.tree| > 1 {
      StoredIsScanned(st, s, k);
      AdmitDecides(st, s, k, Candidates(st.tree, s, k), false);
    } else {
      TreeInStorage(st);
      var forced := |st.spheres| == 1 && s == st.spheres[0].value;
      AdmitDecides(st, s, k, [], forced);
      if exists c :: c in st.spheres && c.value == s {
        var c :| c in st.spheres && c.value == s;
        assert st.spheres == [st.spheres[0]];
      }
    }
  }

  /** `add_sphere`, as written and corrected, keeps the stored spheres
      pairwise different. */
  lemma AddSphereKeepsNoDuplicates(st: Intersecter, s: Sphere, k: Kernel)
    requires Valid(st) && BoxesReflexive(k) && NoDuplicateSpheres(st)
    ensures NoDuplicateSpheres(AddSphere(st, s, k).0)
    ensures NoDuplicateSpheres(AddSphereAsWritten(st, s, k).0)
  {
    TreeInStorage(st);
    AddSphereRejectsDuplicates(st, s, k);
    assert AddSphere(st, s, k) == Admit(st, s, k, ScanSet(st, s, k), false);
    AdmitKeepsNoDuplicates(st, s, k, ScanSet(st, s, k), false);
    AddSphereAsWrittenRejectsDuplicates(st, s, k);
    if |st.tree| > 1 {
      assert AddSphereAsWritten(st, s, k) == Admit(st, s, k, Candidates(st.tree, s, k), false);
      AdmitKeepsNoDuplicates(st, s, k, Candidates(st.tree, s, k), false);
    } else {
      var forced := |st.spheres| == 1 && s == st.spheres[0].value;
      assert AddSphereAsWritten(st, s, k) == Admit(st, s, k, [], forced);
      AdmitKeepsNoDuplicates(st, s, k, [], forced);
    }
  }

  /** An admission that rejects exactly the stored duplicates keeps the
      stored spheres pairwise different. */
  lemma AdmitKeepsNoDuplicates(st: Intersecter, s: Sphere, k: Kernel, cands: seq<Cell<Sphere>>, forcedDup: bool)
    requires Valid(st) && NoDuplicateSpheres(st)
    requires forall c :: c in cands ==> c in st.spheres
    requires Admit(st, s, k, cands, forcedDup).1.IsNull() <==> exists c :: c in st.spheres && c.value == s
    ensures NoDuplicateSpheres(Admit(st, s, k, cands, forcedDup).0)
  {
    AdmitDecides(st, s, k, cands, forcedDup);
    if Admit(st, s, k, cands, forcedDup).1.IsNull() {
      AdmitRejects(st, s, k, cands, forcedDup);
    } else {
      AdmitAccepts(st, s, k, cands, forcedDup);
      PushKeepsNoDuplicates(st.spheres, Cell(st.nextAddr, s));
    }
  }

  /** Pushing a sphere equal to no stored one keeps them pairwise different. */
  lemma PushKeepsNoDuplicates(spheres: seq<Cell<Sphere>>, x: Cell<Sphere>)
    requires forall i, j :: 0 <= i < j < |spheres| ==> spheres[i].value != spheres[j].value
    requires forall c :: c in spheres ==> c.value != x.value
    ensures forall i, j :: 0 <= i < j < |[x] + spheres| ==> ([x] + spheres)[i].value != ([x] + spheres)[j].value
  {
    var r := [x] + spheres;
    forall i, j | 0 <= i < j < |r| ensures r[i].value != r[j].value {
      assert r[j] == spheres[j - 1];
      if i > 0 { assert r[i] == spheres[i - 1]; }
    }
  }

  /** The box test lets through every pair of spheres that really meet. */
  ghost predicate BoxesSound(k: Kernel)
  {
    forall a: Sphere, b: Sphere :: !k.meet(a, b).Disjoint? ==> k.boxesMeet(a, b)
  }

  lemma {:induction false} MeetingsCover(s1: Sphere, cands: seq<Cell<Sphere>>, k: Kernel)
    requires forall c :: c in cands ==> c.value != s1
    ensures forall c :: c in cands && !k.meet(s1, c.value).Disjoint? ==>
      exists m :: m in Meetings(s1, cands, k) && m.partner == Handle(c.addr)
    decreases |cands|
  {
    if cands != [] {
      assert forall c :: c in cands[1..] ==> c in cands;
      MeetingsCover(s1, cands[1..], k);
      var ms := Meetings(s1, cands, k);
      var rest := Meetings(s1, cands[1..], k);
      assert forall m :: m in rest ==> m in ms;
      forall c | c in cands && !k.meet(s1, c.value).Disjoint?
        ensures exists m :: m in ms && m.partner == Handle(c.addr)
      {
        if c == cands[0] {
          assert ms[0].partner == Handle(c.addr);
        } else {
          var j :| 0 <= j < |cands| && cands[j] == c;
          assert cands[1..][j - 1] == c;
        }
      }
    }
  }

  /** Some circle of `C` maps to the pair `p`. */
  ghost predicate HasPair(C: map<Handle, HandlePair>, p: HandlePair)
  {
    exists ch :: ch in C && C[ch] == p
  }

  lemma {:induction false} GrowLinks(C: map<Handle, HandlePair>, sh1: Handle, base: nat, ms: seq<Meeting>)
    requires forall c :: c in C ==> c.addr < base
    ensures forall m :: m in ms ==> HasPair(Grow(C, sh1, base, ms), HandlePair(sh1, m.partner))
    decreases |ms|
  {
    if ms != [] {
      var C1 := C[Handle(base) := HandlePair(sh1, ms[0].partner)];
      GrowLinks(C1, sh1, base + 1, ms[1..]);
      GrowShape(C1, sh1, base + 1, ms[1..]);
      var G := Grow(C, sh1, base, ms);
      assert G == Grow(C1, sh1, base + 1, ms[1..]);
      forall m | m in ms ensures HasPair(G, HandlePair(sh1, m.partner)) {
        if m == ms[0] {
          assert Handle(base) in G && G[Handle(base)] == HandlePair(sh1, m.partner);
        } else {
          var j :| 0 <= j < |ms| && ms[j] == m;
          assert ms[1..][j - 1] == m;
        }
      }
    }
  }

  /** The evidently intended property of `add_sphere`: a new sphere that is
      accepted gets one circle linked with every stored sphere it meets. */
  lemma AddSphereLinksEveryMeeting(st: Intersecter, s: Sphere, k: Kernel)
    requires Valid(st) && BoxesSound(k)
    requires forall c :: c in st.spheres ==> c.value != s
    ensures var (r, h) := AddSphere(st, s, k);
      && !h.IsNull()
      && forall c :: c in st.spheres && !k.meet(s, c.value).Disjoint? ==> HasPair(r.circleSpheres, HandlePair(h, Handle(c.addr)))
  {
    TreeInStorage(st);
    var cands := ScanSet(st, s, k);
    AdmitDecides(st, s, k, cands, false);
    AdmitAccepts(st, s, k, cands, false);
    OldCirclesAvoidNext(st);
    MeetingsCover(s, cands, k);
    GrowLinks(st.circleSpheres, Handle(st.nextAddr), st.nextAddr + 1, Meetings(s, cands, k));
    forall c | c in st.spheres ensures c in cands || k.meet(s, c.value).Disjoint? {
      assert c in multiset(st.spheres);
      assert c in st.tree;
    }
  }

  /** `add_sphere` as written: the second sphere, met by the first, is
      accepted without any circle being cut from it. */
  lemma AddSphereAsWrittenMissesSecond(st: Intersecter, s: Sphere, k: Kernel)
    requires Valid(st) && |st.tree| == 1 && st.tree[0].value != s
    ensures var (r, h) := AddSphereAsWritten(st, s, k);
      && !h.IsNull()
      && r.circles == st.circles && r.circleSpheres == st.circleSpheres
      && forall ch :: ch in r.circleSpheres ==> !r.circleSpheres[ch].Mentions(h)
  {
    TreeInStorage(st);
    assert st.spheres[0] in multiset(st.tree);
    var forced := |st.spheres| == 1 && s == st.spheres[0].value;
    AdmitDecides(st, s, k, [], forced);
    AdmitAccepts(st, s, k, [], forced);
    OldCirclesAvoidNext(st);
  }

  /** The insert iterator, as written and corrected, keeps the intersecter
      valid and, with boxes that meet themselves, free of equal spheres. */
  lemma {:induction false} InsertAllKeepsValid(st: Intersecter, ss: seq<Sphere>, k: Kernel)
    requires Valid(st) && BoxesReflexive(k) && NoDuplicateSpheres(st)
    ensures Valid(InsertAllAsWritten(st, ss, k)) && NoDuplicateSpheres(InsertAllAsWritten(st, ss, k))
    ensures Valid(InsertAll(st, ss, k)) && NoDuplicateSpheres(InsertAll(st, ss, k))
    decreases |ss|
  {
    if ss != [] {
      AddSphereKeepsValid(st, ss[0], k);
      AddSphereKeepsNoDuplicates(st, ss[0], k);
      InsertAllKeepsValid(AddSphereAsWritten(st, ss[0], k).0, ss[1..], k);
      InsertAllKeepsValid(AddSphere(st, ss[0], k).0, ss[1..], k);
    }
  }

  // ---------------------------------------------------------------------
  // Proofs: removal and lookups

  lemma {:induction false} EraseAtSpec<T>(cells: seq<Cell<T>>, a: nat, n: nat)
    requires WellAddressed(cells, n)
    ensures WellAddressed(EraseAt(cells, a), n)
    ensures !IsStored(EraseAt(cells, a), a)
    ensures forall b :: b != a ==> (IsStored(EraseAt(cells, a), b) <==> IsStored(cells, b))
    decreases |cells|
  {
    if cells != [] {
      var t := cells[1..];
      assert WellAddressed(t, n) by {
        forall i, j | 0 <= i < j < |t| ensures t[i].addr != t[j].addr {
          assert t[i] == cells[i + 1] && t[j] == cells[j + 1];
        }
      }
      forall b ensures IsStored(cells, b) <==> cells[0].addr == b || IsStored(t, b) {
        assert cells == [cells[0]] + t;
        StoredPrepend(cells[0], t, b);
      }
      if cells[0].addr == a {
        forall i | 0 <= i < |t| ensures t[i].addr != a {
          assert t[i] == cells[i + 1];
        }
      } else {
        EraseAtSpec(t, a, n);
        var r := EraseAt(t, a);
        forall b ensures IsStored([cells[0]] + r, b) <==> cells[0].addr == b || IsStored(r, b) {
          StoredPrepend(cells[0], r, b);
        }
        assert !IsStored(r, cells[0].addr) by {
          forall i | 0 <= i < |t| ensures t[i].addr != cells[0].addr {
            assert t[i] == cells[i + 1];
          }
        }
        WellAddressedPrepend(cells[0], r, n);
      }
    }
  }

  lemma WellAddressedPrepend<T>(x: Cell<T>, cells: seq<Cell<T>>, n: nat)
    requires WellAddressed(cells, n) && 0 < x.addr < n && !IsStored(cells, x.addr)
    ensures WellAddressed([x] + cells, n)
  {
    var t := [x] + cells;
    forall i, j | 0 <= i < j < |t| ensures t[i].addr != t[j].addr {
      assert t[j] == cells[j - 1];
      if i > 0 { assert t[i] == cells[i - 1]; }
    }
  }

  /** `remove_sphere(sh)` reports whether `sh` was stored, erases it from
      storage and from the tree, leaves no link of it behind and keeps the
      intersecter valid. */
  lemma RemoveSphereSpec(st: Intersecter, sh: Handle)
    requires Valid(st)
    ensures var (r, removed) := RemoveSphere(st, sh);
      && (removed <==> IsStored(st.spheres, sh.addr))
      && Valid(r)
      && !IsStored(r.spheres, sh.addr)
      && (forall b :: b != sh.addr ==> (IsStored(r.spheres, b) <==> IsStored(st.spheres, b)))
      && (removed ==> r.tree == r.spheres)
      && (!removed ==> r.spheres == st.spheres && r.tree == st.tree)
      && sh !in r.sphereCircles
      && (forall c :: c in r.circleSpheres ==> !r.circleSpheres[c].Mentions(sh))
  {
    RemoveLinksSpec(st, sh);
    var u := RemoveLinks(st, sh);
    EraseAtSpec(u.spheres, sh.addr, u.nextAddr);
    var (r, removed) := RemoveSphere(st, sh);
    forall h | h in r.sphereCircles ensures IsStored(r.spheres, h.addr) {
      assert h != sh;
    }
  }

  lemma ValueAtStored<T>(cells: seq<Cell<T>>, c: Cell<T>, n: nat)
    requires WellAddressed(cells, n) && c in cells
    ensures ValueAt(cells, c.addr) == Some(c.value)
  {
    var r := ValueAt(cells, c.addr);
    var i :| 0 <= i < |cells| && cells[i] == c;
    assert IsStored(cells, c.addr);
    var j :| 0 <= j < |cells| && cells[j] == Cell(c.addr, r.value);
  }

  /** `find_sphere(s)`, corrected: a non-null answer is a stored sphere equal
      to `s`, and with boxes that meet themselves the answer is null exactly
      when no stored sphere equals `s`. */
  lemma FindSphereSpec(st: Intersecter, s: Sphere, k: Kernel)
    requires Valid(st) && BoxesReflexive(k)
    ensures var h := FindSphere(st, s, k);
      && (!h.IsNull() ==> ValueAt(st.spheres, h.addr) == Some(s))
      && (h.IsNull() <==> forall c :: c in st.spheres ==> c.value != s)
  {
    TreeInStorage(st);
    var cands := Candidates(st.tree, s, k);
    var h := FindSphere(st, s, k);
    forall c | c in cands ensures c.addr > 0 {
      var i :| 0 <= i < |st.spheres| && st.spheres[i] == c;
    }
    if !h.IsNull() {
      var c :| c in cands && c.value == s && h == Handle(c.addr);
      ValueAtStored(st.spheres, c, st.nextAddr);
    }
    forall c | c in st.spheres && c.value == s ensures c in cands {
      assert c in multiset(st.spheres);
      assert c in st.tree;
      assert k.boxesMeet(s, c.value);
    }
  }

  /** `find_sphere(s)` as written only finds the very object stored: for a
      caller's copy, stored nowhere, it answers null even when an equal
      sphere is stored, which the corrected lookup finds. */
  lemma FindSphereAsWrittenMissesCopies(st: Intersecter, obj: Cell<Sphere>, k: Kernel)
    requires Valid(st) && BoxesReflexive(k) && !IsStored(st.spheres, obj.addr)
    ensures FindSphereAsWritten(st, obj, k).IsNull()
    ensures (exists c :: c in st.spheres && c.value == obj.value) ==> !FindSphere(st, obj.value, k).IsNull()
  {
    TreeInStorage(st);
    FindSphereSpec(st, obj.value, k);
    forall c | c in st.spheres ensures c.addr != obj.addr {
      var i :| 0 <= i < |st.spheres| && st.spheres[i] == c;
    }
  }

  /** `circles_on_sphere` and `originating_spheres` agree: a linked circle
      is listed on a sphere exactly when it was cut from that sphere, and an
      unlinked circle is listed nowhere and has two null originating
      spheres. */
  lemma LookupsAgree(st: Intersecter, sh: Handle, ch: Handle)
    requires Valid(st)
    ensures ch in st.circleSpheres ==> (ch in CirclesOnSphere(st, sh) <==> OriginatingSpheres(st, ch).Mentions(sh))
    ensures ch !in st.circleSpheres ==>
      (ch !in CirclesOnSphere(st, sh) && OriginatingSpheres(st, ch).first.IsNull() && OriginatingSpheres(st, ch).second.IsNull())
  {
    if ch in st.circleSpheres {
      assert PairLinked(st.sphereCircles, st.circleSpheres[ch], ch);
    }
  }

  /** `find_circle_in_sphere(sh, c)`: a non-null answer is the first circle
      listed on `sh` whose stored value is `c`; null means no circle listed
      on `sh` has that value. */
  lemma {:induction false} FindCircleInSpec(circles: seq<Cell<Circle>>, list: seq<Handle>, c: Circle)
    requires forall ch :: ch in list ==> !ch.IsNull()
    ensures var h := FindCircleIn(circles, list, c);
      && (!h.IsNull() ==> h in list && ValueAt(circles, h.addr) == Some(c))
      && (h.IsNull() ==> forall ch :: ch in list ==> ValueAt(circles, ch.addr) != Some(c))
      && (!h.IsNull() ==> exists j :: 0 <= j < |list| && list[j] == h
                                      && forall k :: 0 <= k < j ==> ValueAt(circles, list[k].addr) != Some(c))
    decreases |list|
  {
    if list != [] {
      assert forall ch :: ch in list[1..] ==> ch in list;
      FindCircleInSpec(circles, list[1..], c);
      forall ch | ch in list && ch != list[0] ensures ch in list[1..] {
        var j :| 0 <= j < |list| && list[j] == ch;
        assert list[1..][j - 1] == ch;
      }
    }
  }

  lemma FindCircleInSphereSpec(st: Intersecter, sh: Handle, c: Circle)
    requires Valid(st)
    ensures var h := FindCircleInSphere(st, sh, c);
      && (!h.IsNull() ==> h in CirclesOnSphere(st, sh) && ValueAt(st.circles, h.addr) == Some(c)
                          && OriginatingSpheres(st, h).Mentions(sh))
      && (h.IsNull() ==> forall ch :: ch in CirclesOnSphere(st, sh) ==> ValueAt(st.circles, ch.addr) != Some(c))
  {
    var list := CirclesOf(st.sphereCircles, sh);
    forall ch | ch in list ensures !ch.IsNull() {
      assert ch in st.circleSpheres;
    }
    FindCircleInSpec(st.circles, list, c);
  }

  /** The by-value overloads of `circles_on_sphere` and
      `find_circle_in_sphere` as written go through the address-keyed
      `find_sphere`: for a caller's copy, stored nowhere, they answer no
      circle at all, whatever is stored. */
  lemma ValueLookupsAsWrittenMissCopies(st: Intersecter, obj: Cell<Sphere>, c: Circle, k: Kernel)
    requires Valid(st) && BoxesReflexive(k) && !IsStored(st.spheres, obj.addr)
    ensures CirclesOnSphereValueAsWritten(st, obj, k) == []
    ensures FindCircleInSphereValueAsWritten(st, obj, c, k).IsNull()
  {
    FindSphereAsWrittenMissesCopies(st, obj, k);
  }

  /** Through the corrected lookup, the by-value overloads answer for the
      stored sphere equal to `s` exactly what the handle overloads answer for
      its handle, and nothing when no stored sphere equals `s`. */
  lemma ValueLookupsSpec(st: Intersecter, s: Sphere, c: Circle, k: Kernel)
    requires Valid(st) && BoxesReflexive(k) && NoDuplicateSpheres(st)
    ensures (forall x :: x in st.spheres ==> x.value != s) ==>
      CirclesOnSphereValue(st, s, k) == [] && FindCircleInSphereValue(st, s, c, k).IsNull()
    ensures forall x :: x in st.spheres && x.value == s ==>
      && CirclesOnSphereValue(st, s, k) == CirclesOnSphere(st, Handle(x.addr))
      && FindCircleInSphereValue(st, s, c, k) == FindCircleInSphere(st, Handle(x.addr), c)
  {
    FindSphereSpec(st, s, k);
    var h := FindSphere(st, s, k);
    forall x | x in st.spheres && x.value == s ensures h == Handle(x.addr) {
      assert Cell(h.addr, s) in st.spheres;
      var i :| 0 <= i < |st.spheres| && st.spheres[i] == x;
      var j :| 0 <= j < |st.spheres| && st.spheres[j] == Cell(h.addr, s);
      assert i == j;
    }
  }

  /** `bbox()` on a valid intersecter: the default box exactly while at most
      one sphere is stored, otherwise the box around exactly the stored
      spheres. */
  lemma BboxOfStorage(st: Intersecter)
    requires Valid(st)
    ensures Bbox(st) == DefaultBox <==> |st.spheres| <= 1
    ensures Bbox(st).BoxAround? ==> forall v :: v in Bbox(st).spheres <==> exists c :: c in st.spheres && c.value == v
  {
    TreeInStorage(st);
    if |st.tree| > 1 {
      var vs := SphereValues(st.tree);
      forall v ensures v in vs <==> exists c :: c in st.spheres && c.value == v {
        if v in vs {
          var i :| 0 <= i < |vs| && vs[i] == v;
          assert st.tree[i] in st.spheres;
        }
        if exists c :: c in st.spheres && c.value == v {
          var c :| c in st.spheres && c.value == v;
          assert c in multiset(st.spheres);
          assert c in st.tree;
          var i :| 0 <= i < |st.tree| && st.tree[i] == c;
          assert vs[i] == v;
        }
      }
    }
  }
}

=== FILE: sweep_init.dfy ===
/** Event generation for one sphere (main.cpp, `initialize_E`): every circle
    lying on the sphere contributes events according to its class, every
    unordered pair of circles contributes events at the points where the two
    circles cross or touch, the normal events are grouped into one site per
    point, and the queue is rebuilt from the sites.

    Classification, theta-extremal points, the pole axis, theta order and
    circle/circle intersection are CGAL's; they are the `SweepKernel`
    oracles. A violated `CGAL_assertion` (the debug build) is a `Fail`. */
module SweepInit {
  import opened Handles
  import opened Geometry
  import opened Results
  import opened Events
  import SI = SphereIntersecter

  datatype CircleClass = NormalCircle | ThreadedCircle | PolarCircle | BipolarCircle

  /** One object of an intersection result: a point with its multiplicity,
      or a whole circle. */
  datatype MeetItem = MeetPoint(point: Point, multiplicity: nat) | MeetCircle(circle: Circle)

  datatype SweepKernel = SweepKernel(
    classify: (Circle, Sphere) -> CircleClass,
    thetaExtremal: (Circle, Sphere) -> (Point, Point),
    poleHits: (Circle, Sphere) -> seq<Point>,
    thetaLess: (Sphere, Vector, Vector) -> bool,
    meet: (Circle, Circle) -> seq<MeetItem>)

  /** A normal event filed at a point. */
  datatype NormalItem = CriticalItem(critical: CriticalEvent) | CrossItem(cross: IntersectionEvent)
  datatype Emission = Emission(point: Point, item: NormalItem)

  /** Everything the circle loop produces, in production order. */
  datatype Harvest = Harvest(normals: seq<Emission>, polars: seq<PolarSite>, bipolars: seq<BipolarSite>)

  function Join(a: Harvest, b: Harvest): Harvest
  {
    Harvest(a.normals + b.normals, a.polars + b.polars, a.bipolars + b.bipolars)
  }

  // ---------------------------------------------------------------------
  // The loop schedule

  /** One iteration of the outer loop body (the circle's own events) or of
      the inner loop (the pair `i`, `j`). */
  datatype Step = ClassStep(i: nat) | PairStep(i: nat, j: nat)

  function PairSteps(i: nat, j: nat, n: nat): (r: seq<Step>)
    requires i < n
    ensures forall t :: t in r ==> StepInRange(t, n)
    decreases n - j
  {
    if j >= n then [] else [PairStep(i, j)] + PairSteps(i, j + 1, n)
  }

  function StepsFrom(i: nat, n: nat): (r: seq<Step>)
    ensures forall t :: t in r ==> StepInRange(t, n)
    decreases n - i
  {
    if i >= n then [] else [ClassStep(i)] + PairSteps(i, i + 1, n) + StepsFrom(i + 1, n)
  }

  /** The iterations of the two nested loops over `n` circles, in order. */
  function Steps(n: nat): (r: seq<Step>)
    ensures forall t :: t in r ==> StepInRange(t, n)
  {
    StepsFrom(0, n)
  }

  ghost predicate NoRepeats<T>(s: seq<T>)
  {
    forall a, b :: 0 <= a < b < |s| ==> s[a] != s[b]
  }

  lemma {:induction false} PairStepsSpec(i: nat, j: nat, n: nat)
    requires i < n
    ensures forall t :: t in PairSteps(i, j, n) <==> t.PairStep? && t.i == i && j <= t.j < n
    ensures NoRepeats(PairSteps(i, j, n))
    decreases n - j
  {
    if j < n {
      PairStepsSpec(i, j + 1, n);
      var rest := PairSteps(i, j + 1, n);
      var all := PairSteps(i, j, n);
      assert all == [PairStep(i, j)] + rest;
      forall a, b | 0 <= a < b < |all| ensures all[a] != all[b] {
        if a == 0 {
          assert all[b] in rest;
        } else {
          assert all[a] == rest[a - 1] && all[b] == rest[b - 1];
        }
      }
    }
  }

  lemma NoRepeatsConcat<T>(a: seq<T>, b: seq<T>)
    requires NoRepeats(a) && NoRepeats(b) && forall x :: x in a ==> x !in b
    ensures NoRepeats(a + b)
  {
    var c := a + b;
    forall x, y | 0 <= x < y < |c| ensures c[x] != c[y] {
      if y < |a| {
        assert c[x] == a[x] && c[y] == a[y];
      } else if x < |a| {
        assert c[x] == a[x] && c[y] == b[y - |a|];
        assert c[x] in a && c[y] in b;
      } else {
        assert c[x] == b[x - |a|] && c[y] == b[y - |a|];
      }
    }
  }

  lemma {:induction false} StepsFromSpec(i: nat, n: nat)
    ensures forall t :: t in StepsFrom(i, n) <==>
      (t.ClassStep? && i <= t.i < n) || (t.PairStep? && i <= t.i < t.j < n)
    ensures NoRepeats(StepsFrom(i, n))
    decreases n - i
  {
    if i < n {
      PairStepsSpec(i, i + 1, n);
      StepsFromSpec(i + 1, n);
      var ps := PairSteps(i, i + 1, n);
      var rest := StepsFrom(i + 1, n);
      NoRepeatsConcat([ClassStep(i)], ps);
      NoRepeatsConcat([ClassStep(i)] + ps, rest);
      assert StepsFrom(i, n) == [ClassStep(i)] + ps + rest;
    }
  }

  /** The loops visit every circle once and every unordered pair of
      distinct circles exactly once, as (earlier, later). */
  lemma ScheduleVisitsEachPairOnce(n: nat)
    ensures forall i: nat :: ClassStep(i) in Steps(n) <==> i < n
    ensures forall i: nat, j: nat :: PairStep(i, j) in Steps(n) <==> i < j < n
    ensures forall t :: t in Steps(n) ==> t.ClassStep? || t.i < t.j
    ensures NoRepeats(Steps(n))
  {
    StepsFromSpec(0, n);
  }

  // ---------------------------------------------------------------------
  // Events of one circle and of one pair

  /** The two meridian normals of a bipolar circle with plane normal `n`,
      `n` and `-n`, sorted by theta (`std::sort` with `Compare_theta_3`). */
  function SortedNormals(s: Sphere, n: Vector, k: SweepKernel): (r: (Vector, Vector))
    ensures (r == (n, n.Neg()) || r == (n.Neg(), n))
    ensures r.1 == r.0.Neg()
    ensures k.thetaLess(s, r.0, r.1) || !k.thetaLess(s, r.1, r.0)
  {
    NegInvolutive(n);
    if k.thetaLess(s, n.Neg(), n) then (n.Neg(), n) else (n, n.Neg())
  }

  /** The pole a polar circle passes through: South exactly when the pole
      point lies above the centre of the sphere. */
  function PoleOf(s: Sphere, p: Point): (pole: Pole)
    ensures pole == South <==> s.center.z < p.z
  {
    if s.center.z < p.z then South else North
  }

  /** The debug assertions of the class branch hold. */
  predicate ClassOk(c: Circle, s: Sphere, k: SweepKernel)
  {
    k.classify(c, s) == PolarCircle ==> |k.poleHits(c, s)| == 1
  }

  /** The events of one circle `ch` (value `c`) on sphere `sh` (value `s`). */
  function ClassHarvest(sh: Handle, s: Sphere, ch: Handle, c: Circle, k: SweepKernel): (r: Result<Harvest>)
    ensures r.Ok? <==> ClassOk(c, s, k)
  {
    var ceb := EventBuilder(sh).PrepareCircleEvent(ch);
    match k.classify(c, s)
    case NormalCircle =>
      var (p0, p1) := k.thetaExtremal(c, s);
      Ok(Harvest([Emission(p0, CriticalItem(ceb.Critical(p0, Start))),
                  Emission(p1, CriticalItem(ceb.Critical(p1, End)))], [], []))
    case ThreadedCircle => Ok(Harvest([], [], []))
    case PolarCircle =>
      var hits := k.poleHits(c, s);
      if |hits| != 1 then Fail("pole_inters.size() == 1")
      else
        var pole := PoleOf(s, hits[0]);
        Ok(Harvest([], [PolarSite(ceb.Polar(hits[0], pole, Start)), PolarSite(ceb.Polar(hits[0], pole, End))], []))
    case BipolarCircle =>
      var (n0, n1) := SortedNormals(s, c.normal, k);
      Ok(Harvest([], [], [BipolarSite(ceb.Bipolar(n0, Start)), BipolarSite(ceb.Bipolar(n1, End))]))
  }

  /** A normal circle contributes a start event at its first theta-extremal
      point and an end event at the second, and never fails. */
  lemma NormalCircleEvents(sh: Handle, s: Sphere, ch: Handle, c: Circle, k: SweepKernel)
    requires k.classify(c, s) == NormalCircle
    ensures var (p0, p1) := k.thetaExtremal(c, s);
      ClassHarvest(sh, s, ch, c, k)
        == Ok(Harvest([Emission(p0, CriticalItem(CriticalEvent(sh, ch, Start, p0))),
                       Emission(p1, CriticalItem(CriticalEvent(sh, ch, End, p1)))], [], []))
  {
  }

  /** A threaded circle contributes nothing. */
  lemma ThreadedCircleEvents(sh: Handle, s: Sphere, ch: Handle, c: Circle, k: SweepKernel)
    requires k.classify(c, s) == ThreadedCircle
    ensures ClassHarvest(sh, s, ch, c, k) == Ok(Harvest([], [], []))
  {
  }

  /** A polar circle that cuts the pole axis once contributes a start then
      an end polar site at that point, both at the pole it passes through. */
  lemma PolarCircleEvents(sh: Handle, s: Sphere, ch: Handle, c: Circle, k: SweepKernel)
    requires k.classify(c, s) == PolarCircle && |k.poleHits(c, s)| == 1
    ensures var p := k.poleHits(c, s)[0];
      ClassHarvest(sh, s, ch, c, k)
        == Ok(Harvest([], [PolarSite(PolarEvent(sh, ch, Start, p, PoleOf(s, p))),
                           PolarSite(PolarEvent(sh, ch, End, p, PoleOf(s, p)))], []))
  {
  }

  /** A bipolar circle contributes a start and an end site on `ch` whose
      normals are the plane normal and its opposite, in theta order. */
  lemma BipolarCircleEvents(sh: Handle, s: Sphere, ch: Handle, c: Circle, k: SweepKernel)
    requires k.classify(c, s) == BipolarCircle
    ensures var r := ClassHarvest(sh, s, ch, c, k);
      && r.Ok? && r.value.normals == [] && r.value.polars == []
      && |r.value.bipolars| == 2
      && var (e0, e1) := (r.value.bipolars[0].event, r.value.bipolars[1].event);
      && e0.IsStart() && e1.IsEnd()
      && e0.circle == ch && e1.circle == ch && e0.sphere == sh && e1.sphere == sh
      && e1.normal == e0.normal.Neg()
      && (e0.normal == c.normal || e0.normal == c.normal.Neg())
      && (k.thetaLess(s, e0.normal, e1.normal) || !k.thetaLess(s, e1.normal, e0.normal))
  {
    var (n0, n1) := SortedNormals(s, c.normal, k);
    assert ClassHarvest(sh, s, ch, c, k)
      == Ok(Harvest([], [], [BipolarSite(BipolarEvent(sh, ch, Start, n0)), BipolarSite(BipolarEvent(sh, ch, End, n1))]));
  }

  /** The debug assertions of the pair branch hold: two different circles,
      and a two-object result made of two simple points. */
  predicate PairOk(ch1: Handle, c1: Circle, ch2: Handle, c2: Circle, k: SweepKernel)
  {
    var m := k.meet(c1, c2);
    && ch1 != ch2 && c1 != c2
    && (|m| >= 2 ==> |m| == 2 && m[0].MeetPoint? && m[1].MeetPoint?
                     && m[0].multiplicity == 1 && m[1].multiplicity == 1)
  }

  /** The normal events one pair of circles contributes. */
  function PairHarvest(sh: Handle, ch1: Handle, c1: Circle, ch2: Handle, c2: Circle, k: SweepKernel): (r: Result<seq<Emission>>)
    ensures r.Ok? <==> PairOk(ch1, c1, ch2, c2, k)
    ensures r.Ok? ==> forall e :: e in r.value ==>
      e.item.CrossItem? && e.item.cross.circles == (ch1, ch2) && e.item.cross.sphere == sh
      && e.item.cross.point == e.point
  {
    var eb := EventBuilder(sh);
    var m := k.meet(c1, c2);
    if !(ch1 != ch2 && c1 != c2) then Fail("ch1 != ch2 && c1 != c2")
    else if |m| == 0 then Ok([])
    else if |m| == 1 then
      if m[0].MeetPoint? then
        Ok([Emission(m[0].point, CrossItem(eb.Intersection(ch1, ch2, m[0].point, Tangency)))])
      else Ok([])
    else if |m| != 2 then Fail("circle_intersections.size() == 2")
    else if !(m[0].MeetPoint? && m[1].MeetPoint? && m[0].multiplicity == 1 && m[1].multiplicity == 1) then
      Fail("cap1.second == 1 && cap2.second == 1")
    else
      var p1, p2 := m[0].point, m[1].point;
      Ok([Emission(p1, CrossItem(eb.Intersection(ch1, ch2, p1, LargestCrossing))),
          Emission(p1, CrossItem(eb.Intersection(ch1, ch2, p1, SmallestCrossing))),
          Emission(p2, CrossItem(eb.Intersection(ch1, ch2, p2, LargestCrossing))),
          Emission(p2, CrossItem(eb.Intersection(ch1, ch2, p2, SmallestCrossing)))])
  }

  /** What a pair contributes, by intersection result: nothing for no
      intersection or a common circle, one tangency at a single point, and
      at each of two crossing points a largest then a smallest crossing. */
  lemma PairHarvestCases(sh: Handle, ch1: Handle, c1: Circle, ch2: Handle, c2: Circle, k: SweepKernel)
    requires PairOk(ch1, c1, ch2, c2, k)
    ensures var r := PairHarvest(sh, ch1, c1, ch2, c2, k).value;
      var m := k.meet(c1, c2);
      && (|m| == 0 ==> r == [])
      && (|m| == 1 && m[0].MeetCircle? ==> r == [])
      && (|m| == 1 && m[0].MeetPoint? ==> |r| == 1 && r[0].point == m[0].point && r[0].item.cross.itype == Tangency)
      && (|m| == 2 ==>
            (&& |r| == 4
             && r[0].point == m[0].point && r[1].point == m[0].point
             && r[2].point == m[1].point && r[3].point == m[1].point
             && r[0].item.cross.itype == LargestCrossing && r[1].item.cross.itype == SmallestCrossing
             && r[2].item.cross.itype == LargestCrossing && r[3].item.cross.itype == SmallestCrossing))
  {
  }

  // ---------------------------------------------------------------------
  // The two loops

  predicate StepInRange(t: Step, n: nat)
  {
    match t
    case ClassStep(i) => i < n
    case PairStep(i, j) => i < n && j < n
  }

  predicate StepOk(t: Step, sh: Handle, s: Sphere, circles: seq<Cell<Circle>>, k: SweepKernel)
    requires StepInRange(t, |circles|)
  {
    match t
    case ClassStep(i) => ClassOk(circles[i].value, s, k)
    case PairStep(i, j) => PairOk(Handle(circles[i].addr), circles[i].value, Handle(circles[j].addr), circles[j].value, k)
  }

  function StepHarvest(t: Step, sh: Handle, s: Sphere, circles: seq<Cell<Circle>>, k: SweepKernel): (r: Result<Harvest>)
    requires StepInRange(t, |circles|)
    ensures r.Ok? <==> StepOk(t, sh, s, circles, k)
  {
    match t
    case ClassStep(i) => ClassHarvest(sh, s, Handle(circles[i].addr), circles[i].value, k)
    case PairStep(i, j) =>
      var r := PairHarvest(sh, Handle(circles[i].addr), circles[i].value, Handle(circles[j].addr), circles[j].value, k);
      if r.Fail? then Fail(r.reason) else Ok(Harvest(r.value, [], []))
  }

  function RunSteps(steps: seq<Step>, sh: Handle, s: Sphere, circles: seq<Cell<Circle>>, k: SweepKernel): (r: Result<Harvest>)
    requires forall t :: t in steps ==> StepInRange(t, |circles|)
    decreases |steps|
  {
    if steps == [] then Ok(Harvest([], [], []))
    else
      var h := StepHarvest(steps[0], sh, s, circles, k);
      if h.Fail? then Fail(h.reason)
      else
        var rest := RunSteps(steps[1..], sh, s, circles, k);
        if rest.Fail? then Fail(rest.reason) else Ok(Join(h.value, rest.value))
  }

  /** The loops run to the end exactly when no debug assertion fails. */
  lemma {:induction false} RunStepsOk(steps: seq<Step>, sh: Handle, s: Sphere, circles: seq<Cell<Circle>>, k: SweepKernel)
    requires forall t :: t in steps ==> StepInRange(t, |circles|)
    ensures RunSteps(steps, sh, s, circles, k).Ok? <==> forall t :: t in steps ==> StepOk(t, sh, s, circles, k)
    decreases |steps|
  {
    if steps != [] {
      assert forall t :: t in steps[1..] ==> t in steps;
      RunStepsOk(steps[1..], sh, s, circles, k);
      assert forall t :: t in steps ==> t == steps[0] || t in steps[1..];
    }
  }

  // ---------------------------------------------------------------------
  // Grouping normal events by point (ADD_TO_NE_SITE)

  /** Index of the site at point `p`, or `|sites|` when there is none. */
  function FindSite(sites: seq<NormalSite>, p: Point): (i: nat)
    ensures i <= |sites|
    ensures i < |sites| ==> sites[i].point == p
    ensures forall j :: 0 <= j < i ==> sites[j].point != p
  {
    if sites == [] then 0
    else if sites[0].point == p then 0
    else 1 + FindSite(sites[1..], p)
  }

  function Deposit(n: NormalSite, item: NormalItem): (r: NormalSite)
    ensures r.point == n.point && r.sphere == n.sphere
    ensures r.critical == n.critical + (if item.CriticalItem? then [item.critical] else [])
    ensures r.intersections == n.intersections + (if item.CrossItem? then [item.cross] else [])
  {
    match item
    case CriticalItem(e) => AddCritical(n, e)
    case CrossItem(e) => AddIntersection(n, e)
  }

  /** One `ADD_TO_NE_SITE(point, event)`: find the site at the point,
      creating an empty one when there is none, and add the event to it. */
  function AddToSite(sites: seq<NormalSite>, sh: Handle, em: Emission): seq<NormalSite>
  {
    var i := FindSite(sites, em.point);
    if i == |sites| then sites + [Deposit(NewNormalSite(sh, em.point), em.item)]
    else sites[i := Deposit(sites[i], em.item)]
  }

  function Group(sites: seq<NormalSite>, sh: Handle, ems: seq<Emission>): seq<NormalSite>
    decreases |ems|
  {
    if ems == [] then sites else Group(AddToSite(sites, sh, ems[0]), sh, ems[1..])
  }

  /** Reference: the critical events emitted at `p`, in emission order. */
  function CriticalAt(ems: seq<Emission>, p: Point): seq<CriticalEvent>
    decreases |ems|
  {
    if ems == [] then []
    else
      var last := ems[|ems| - 1];
      CriticalAt(ems[..|ems| - 1], p) + (if last.point == p && last.item.CriticalItem? then [last.item.critical] else [])
  }

  /** Reference: the intersection events emitted at `p`, in emission order. */
  function CrossAt(ems: seq<Emission>, p: Point): seq<IntersectionEvent>
    decreases |ems|
  {
    if ems == [] then []
    else
      var last := ems[|ems| - 1];
      CrossAt(ems[..|ems| - 1], p) + (if last.point == p && last.item.CrossItem? then [last.item.cross] else [])
  }

  function SitePoints(sites: seq<NormalSite>): set<Point>
  {
    set i | 0 <= i < |sites| :: sites[i].point
  }

  function EmissionPoints(ems: seq<Emission>): set<Point>
  {
    set i | 0 <= i < |ems| :: ems[i].point
  }

  /** `sites` is the grouping of `ems`: one site per emitted point, each
      holding exactly the events emitted at its point, in order. */
  ghost predicate GroupedAs(sites: seq<NormalSite>, sh: Handle, ems: seq<Emission>)
  {
    && (forall a, b :: 0 <= a < b < |sites| ==> sites[a].point != sites[b].point)
    && SitePoints(sites) == EmissionPoints(ems)
    && (forall a :: 0 <= a < |sites| ==>
          (&& sites[a].sphere == sh
           && sites[a].critical == CriticalAt(ems, sites[a].point)
           && sites[a].intersections == CrossAt(ems, sites[a].point)))
  }

  lemma NothingAtUnusedPoint(ems: seq<Emission>, p: Point)
    requires p !in EmissionPoints(ems)
    ensures CriticalAt(ems, p) == [] && CrossAt(ems, p) == []
    decreases |ems|
  {
    if ems != [] {
      var init := ems[..|ems| - 1];
      assert ems[|ems| - 1].point in EmissionPoints(ems);
      NothingAtUnusedPoint(init, p);
    }
  }

  /** One more emission adds its point and its event at that point. */
  lemma EmissionSnoc(ems: seq<Emission>, em: Emission)
    ensures EmissionPoints(ems + [em]) == EmissionPoints(ems) + {em.point}
    ensures forall p :: (CriticalAt(ems + [em], p)
                         == CriticalAt(ems, p) + (if em.point == p && em.item.CriticalItem? then [em.item.critical] else []))
    ensures forall p :: (CrossAt(ems + [em], p)
                         == CrossAt(ems, p) + (if em.point == p && em.item.CrossItem? then [em.item.cross] else []))
  {
    var all := ems + [em];
    assert all[..|all| - 1] == ems;
    forall p | p in EmissionPoints(all) ensures p in EmissionPoints(ems) + {em.point} {
      var j :| 0 <= j < |all| && all[j].point == p;
      if j < |ems| { assert ems[j].point == p; }
    }
    forall p | p in EmissionPoints(ems) ensures p in EmissionPoints(all) {
      var j :| 0 <= j < |ems| && ems[j].point == p;
      assert all[j].point == p;
    }
    assert all[|ems|].point == em.point;
  }

  lemma SitePointsAppend(sites: seq<NormalSite>, n: NormalSite)
    ensures SitePoints(sites + [n]) == SitePoints(sites) + {n.point}
  {
    var r := sites + [n];
    forall p | p in SitePoints(r) ensures p in SitePoints(sites) + {n.point} {
      var j :| 0 <= j < |r| && r[j].point == p;
      if j < |sites| { assert sites[j].point == p; }
    }
    forall p | p in SitePoints(sites) ensures p in SitePoints(r) {
      var j :| 0 <= j < |sites| && sites[j].point == p;
      assert r[j].point == p;
    }
    assert r[|sites|].point == n.point;
  }

  lemma SitePointsUpdate(sites: seq<NormalSite>, i: nat, n: NormalSite)
    requires i < |sites| && n.point == sites[i].point
    ensures SitePoints(sites[i := n]) == SitePoints(sites)
  {
    var r := sites[i := n];
    forall p | p in SitePoints(r) ensures p in SitePoints(sites) {
      var j :| 0 <= j < |r| && r[j].point == p;
      assert sites[j].point == p;
    }
    forall p | p in SitePoints(sites) ensures p in SitePoints(r) {
      var j :| 0 <= j < |sites| && sites[j].point == p;
      assert r[j].point == p;
    }
  }

  /** `ADD_TO_NE_SITE` keeps the grouping: after filing one more event,
      the sites are the grouping of the longer emission sequence. */
  lemma AddToSiteKeepsGrouping(sites: seq<NormalSite>, sh: Handle, ems: seq<Emission>, em: Emission)
    requires GroupedAs(sites, sh, ems)
    ensures GroupedAs(AddToSite(sites, sh, em), sh, ems + [em])
  {
    var i := FindSite(sites, em.point);
    if i == |sites| {
      assert AddToSite(sites, sh, em) == sites + [Deposit(NewNormalSite(sh, em.point), em.item)];
      AddToNewSite(sites, sh, ems, em);
    } else {
      assert AddToSite(sites, sh, em) == sites[i := Deposit(sites[i], em.item)];
      AddToOldSite(sites, sh, ems, em, i);
    }
  }

  /** The event of a point without a site opens a new site holding it. */
  lemma AddToNewSite(sites: seq<NormalSite>, sh: Handle, ems: seq<Emission>, em: Emission)
    requires GroupedAs(sites, sh, ems)
    requires forall j :: 0 <= j < |sites| ==> sites[j].point != em.point
    ensures GroupedAs(sites + [Deposit(NewNormalSite(sh, em.point), em.item)], sh, ems + [em])
  {
    EmissionSnoc(ems, em);
    assert em.point !in SitePoints(sites);
    NothingAtUnusedPoint(ems, em.point);
    SitePointsAppend(sites, Deposit(NewNormalSite(sh, em.point), em.item));
  }

  /** The event of a point with a site is appended to that site. */
  lemma AddToOldSite(sites: seq<NormalSite>, sh: Handle, ems: seq<Emission>, em: Emission, i: nat)
    requires GroupedAs(sites, sh, ems)
    requires i < |sites| && sites[i].point == em.point
    ensures GroupedAs(sites[i := Deposit(sites[i], em.item)], sh, ems + [em])
  {
    EmissionSnoc(ems, em);
    SitePointsUpdate(sites, i, Deposit(sites[i], em.item));
  }

  lemma {:induction false} GroupSpec(sites: seq<NormalSite>, sh: Handle, done: seq<Emission>, ems: seq<Emission>)
    requires GroupedAs(sites, sh, done)
    ensures GroupedAs(Group(sites, sh, ems), sh, done + ems)
    decreases |ems|
  {
    if ems == [] {
      assert done + ems == done;
    } else {
      AddToSiteKeepsGrouping(sites, sh, done, ems[0]);
      assert done + ems == (done + [ems[0]]) + ems[1..];
      GroupSpec(AddToSite(sites, sh, ems[0]), sh, done + [ems[0]], ems[1..]);
    }
  }

  /** The normal sites built from the emissions: one per emitted point,
      each holding exactly the events emitted at its point, in order. */
  lemma GroupingIsPerPoint(sh: Handle, ems: seq<Emission>)
    ensures GroupedAs(Group([], sh, ems), sh, ems)
  {
    assert EmissionPoints([]) == {};
    assert SitePoints([]) == {};
    GroupSpec([], sh, [], ems);
    assert [] + ems == ems;
  }

  // ---------------------------------------------------------------------
  // Building the queue

  function NormalSites(ns: seq<NormalSite>): (r: seq<AnySite>)
    ensures |r| == |ns| && forall i :: 0 <= i < |ns| ==> r[i] == NormalAt(ns[i])
  {
    seq(|ns|, i requires 0 <= i < |ns| => NormalAt(ns[i]))
  }

  function PolarSites(ps: seq<PolarSite>): (r: seq<AnySite>)
    ensures |r| == |ps| && forall i :: 0 <= i < |ps| ==> r[i] == PolarAt(ps[i])
  {
    seq(|ps|, i requires 0 <= i < |ps| => PolarAt(ps[i]))
  }

  function BipolarSites(bs: seq<BipolarSite>): (r: seq<AnySite>)
    ensures |r| == |bs| && forall i :: 0 <= i < |bs| ==> r[i] == BipolarAt(bs[i])
  {
    seq(|bs|, i requires 0 <= i < |bs| => BipolarAt(bs[i]))
  }

  /** A loop of `push` calls. */
  function PushAll(q: EventQueue, xs: seq<AnySite>): (r: EventQueue)
    ensures multiset(r.sites) == multiset(q.sites) + multiset(xs)
    ensures r.Size() == q.Size() + |xs|
    decreases |xs|
  {
    if xs == [] then q
    else
      assert xs == [xs[0]] + xs[1..];
      PushAll(Push(q, xs[0]), xs[1..])
  }

  /** `initialize_E(sh, circles)` on queue `q`. */
  function InitializeE(sh: Handle, s: Sphere, circles: seq<Cell<Circle>>, q: EventQueue, k: SweepKernel): Result<EventQueue>
  {
    var steps := Steps(|circles|);
    match RunSteps(steps, sh, s, circles, k)
    case Fail(why) => Fail(why)
    case Ok(h) =>
      var normal := Group([], sh, h.normals);
      Ok(PushAll(PushAll(PushAll(Clear(q), NormalSites(normal)), PolarSites(h.polars)), BipolarSites(h.bipolars)))
  }

  /** `initialize_E` succeeds exactly when no debug assertion fails; the
      queue it leaves holds nothing of its previous contents, one normal
      site per emitted point, grouping the events emitted there, and every
      polar and bipolar site. */
  lemma InitializeESpec(sh: Handle, s: Sphere, circles: seq<Cell<Circle>>, q: EventQueue, k: SweepKernel)
    ensures InitializeE(sh, s, circles, q, k).Ok? <==> forall t :: t in Steps(|circles|) ==> StepOk(t, sh, s, circles, k)
    ensures InitializeE(sh, s, circles, q, k).Ok? ==>
      var h := RunSteps(Steps(|circles|), sh, s, circles, k).value;
      var normal := Group([], sh, h.normals);
      && GroupedAs(normal, sh, h.normals)
      && multiset(InitializeE(sh, s, circles, q, k).value.sites)
           == multiset(NormalSites(normal)) + multiset(PolarSites(h.polars)) + multiset(BipolarSites(h.bipolars))
      && InitializeE(sh, s, circles, q, k).value.Size() == |SitePoints(normal)| + |h.polars| + |h.bipolars|
  {
    ScheduleVisitsEachPairOnce(|circles|);
    RunStepsOk(Steps(|circles|), sh, s, circles, k);
    var r := RunSteps(Steps(|circles|), sh, s, circles, k);
    if r.Ok? {
      var normal := Group([], sh, r.value.normals);
      GroupingIsPerPoint(sh, r.value.normals);
      DistinctPointsCount(normal);
    }
  }

  lemma {:induction false} DistinctPointsCount(sites: seq<NormalSite>)
    requires forall a, b :: 0 <= a < b < |sites| ==> sites[a].point != sites[b].point
    ensures |SitePoints(sites)| == |sites|
    decreases |sites|
  {
    if sites != [] {
      var init := sites[..|sites| - 1];
      DistinctPointsCount(init);
      var last := sites[|sites| - 1].point;
      assert SitePoints(sites) == SitePoints(init) + {last} by {
        forall p | p in SitePoints(sites) ensures p in SitePoints(init) + {last} {
          var j :| 0 <= j < |sites| && sites[j].point == p;
          if j < |sites| - 1 { assert init[j].point == p; }
        }
        forall p | p in SitePoints(init) ensures p in SitePoints(sites) {
          var j :| 0 <= j < |init| && init[j].point == p;
          assert sites[j].point == p;
        }
      }
    }
  }

  // ---------------------------------------------------------------------
  // The sphere handle of `run_for`

  /** `run_for(sphere)` up to the assertion that the handle is not null, as
      written: both insertions are `add_sphere` as written, and the fallback
      looks the sphere up with `find_sphere` as written, which matches on the
      address of the caller's object `obj`. */
  function RunForHandleAsWritten(st: SI.Intersecter, obj: Cell<Sphere>, k: SI.Kernel): Result<(SI.Intersecter, Handle)>
  {
    var (st1, h1) := SI.AddSphereAsWritten(st, obj.value, k);
    if !h1.IsNull() then Ok((st1, h1))
    else
      var h2 := SI.FindSphereAsWritten(st1, obj, k);
      if !h2.IsNull() then Ok((st1, h2))
      else
        var (st3, h3) := SI.AddSphereAsWritten(st1, obj.value, k);
        if h3.IsNull() then Fail("sh.is_null() == false") else Ok((st3, h3))
  }

  /** `run_for(sphere)` over the corrected `add_sphere` and the lookup by
      value. */
  function RunForHandle(st: SI.Intersecter, s: Sphere, k: SI.Kernel): Result<(SI.Intersecter, Handle)>
  {
    var (st1, h1) := SI.AddSphere(st, s, k);
    if !h1.IsNull() then Ok((st1, h1))
    else
      var h2 := SI.FindSphere(st1, s, k);
      if !h2.IsNull() then Ok((st1, h2))
      else
        var (st3, h3) := SI.AddSphere(st1, s, k);
        if h3.IsNull() then Fail("sh.is_null() == false") else Ok((st3, h3))
  }

  /** The intended behaviour: `run_for` always obtains a handle to a stored
      sphere equal to its argument, inserting it when it is new. */
  lemma RunForHandleFindsSphere(st: SI.Intersecter, s: Sphere, k: SI.Kernel)
    requires SI.Valid(st) && SI.BoxesReflexive(k)
    ensures RunForHandle(st, s, k).Ok?
    ensures var (st', h) := RunForHandle(st, s, k).value;
      !h.IsNull() && SI.Valid(st') && SI.ValueAt(st'.spheres, h.addr) == Some(s)
  {
    SI.AddSphereKeepsValid(st, s, k);
    SI.AddSphereRejectsDuplicates(st, s, k);
    var (st1, h1) := SI.AddSphere(st, s, k);
    var cands := SI.ScanSet(st, s, k);
    SI.TreeInStorage(st);
    SI.AdmitDecides(st, s, k, cands, false);
    if h1.IsNull() {
      SI.AdmitRejects(st, s, k, cands, false);
      SI.FindSphereSpec(st1, s, k);
    } else {
      SI.AdmitAccepts(st, s, k, cands, false);
      assert st1.spheres[0] == Cell(h1.addr, s);
      SI.ValueAtStored(st1.spheres, st1.spheres[0], st1.nextAddr);
    }
  }

  /** Inserting a sphere equal to a stored one, as written or corrected,
      returns null and leaves the intersecter valid with the same spheres. */
  lemma RejectedInsertKeepsSpheres(st: SI.Intersecter, s: Sphere, k: SI.Kernel)
    requires SI.Valid(st) && SI.BoxesReflexive(k)
    requires exists c :: c in st.spheres && c.value == s
    ensures SI.AddSphere(st, s, k).1.IsNull()
    ensures SI.Valid(SI.AddSphere(st, s, k).0)
    ensures SI.AddSphere(st, s, k).0.spheres == st.spheres
    ensures SI.AddSphereAsWritten(st, s, k).1.IsNull()
    ensures SI.Valid(SI.AddSphereAsWritten(st, s, k).0)
    ensures SI.AddSphereAsWritten(st, s, k).0.spheres == st.spheres
  {
    SI.AddSphereKeepsValid(st, s, k);
    SI.AddSphereRejectsDuplicates(st, s, k);
    SI.AddSphereAsWrittenRejectsDuplicates(st, s, k);
    SI.TreeInStorage(st);
    var cands := SI.ScanSet(st, s, k);
    assert SI.AddSphere(st, s, k) == SI.Admit(st, s, k, cands, false);
    SI.AdmitDecides(st, s, k, cands, false);
    SI.AdmitRejects(st, s, k, cands, false);
    if |st.tree| > 1 {
      var cs := SI.Candidates(st.tree, s, k);
      assert SI.AddSphereAsWritten(st, s, k) == SI.Admit(st, s, k, cs, false);
      SI.AdmitDecides(st, s, k, cs, false);
      SI.AdmitRejects(st, s, k, cs, false);
    } else {
      var forced := |st.spheres| == 1 && s == st.spheres[0].value;
      assert SI.AddSphereAsWritten(st, s, k) == SI.Admit(st, s, k, [], forced);
      SI.AdmitDecides(st, s, k, [], forced);
      SI.AdmitRejects(st, s, k, [], forced);
    }
  }

  /** As written, a sphere already stored, passed as a caller's copy that
      is not itself stored, makes the handle assertion fail. */
  lemma RunForHandleAsWrittenFailsOnCopies(st: SI.Intersecter, obj: Cell<Sphere>, k: SI.Kernel)
    requires SI.Valid(st) && SI.BoxesReflexive(k)
    requires !SI.IsStored(st.spheres, obj.addr)
    requires exists c :: c in st.spheres && c.value == obj.value
    ensures RunForHandleAsWritten(st, obj, k).Fail?
    ensures RunForHandle(st, obj.value, k).Ok?
  {
    RunForHandleFindsSphere(st, obj.value, k);
    RejectedInsertKeepsSpheres(st, obj.value, k);
    var st1 := SI.AddSphereAsWritten(st, obj.value, k).0;
    SI.FindSphereAsWrittenMissesCopies(st1, obj, k);
    RejectedInsertKeepsSpheres(st1, obj.value, k);
  }
}

=== FILE: text.dfy ===
/** The string operations the Python helpers rely on, as Python 2 defines
    them for byte strings: `strip()`, the argument-less `split()` and
    `sep.join(parts)`. */
module Text {

  /** The characters `str.isspace()` accepts. */
  predicate IsSpace(c: char)
  {
    c == ' ' || c == '\t' || c == '\n' || c == '\r' || c as int == 11 || c as int == 12
  }

  predicate AllSpace(s: string)
  {
    forall i :: 0 <= i < |s| ==> IsSpace(s[i])
  }

  predicate NoSpace(s: string)
  {
    forall i :: 0 <= i < |s| ==> !IsSpace(s[i])
  }

  /** The number of leading whitespace characters of `s`. */
  function Lead(s: string): (n: nat)
    ensures n <= |s|
    ensures forall k :: 0 <= k < n ==> IsSpace(s[k])
    ensures n < |s| ==> !IsSpace(s[n])
  {
    if s == [] || !IsSpace(s[0]) then 0
    else
      var n := Lead(s[1..]);
      assert forall k :: 1 <= k < n + 1 ==> s[k] == s[1..][k - 1];
      n + 1
  }

  /** The number of trailing whitespace characters of `s`. */
  function Trail(s: string): (n: nat)
    ensures n <= |s|
    ensures forall k :: |s| - n <= k < |s| ==> IsSpace(s[k])
    ensures n < |s| ==> !IsSpace(s[|s| - 1 - n])
  {
    if s == [] || !IsSpace(s[|s| - 1]) then 0
    else
      var n := Trail(s[..|s| - 1]);
      assert forall k :: 0 <= k < |s| - 1 ==> s[k] == s[..|s| - 1][k];
      n + 1
  }

  /** `s.strip()`: `s` without its leading and trailing whitespace. */
  function Strip(s: string): (r: string)
    ensures r == [] || (!IsSpace(r[0]) && !IsSpace(r[|r| - 1]))
  {
    if Lead(s) < |s| - Trail(s) then s[Lead(s)..|s| - Trail(s)] else []
  }

  /** What `strip()` keeps is the slice of `s` after its `Lead(s)` leading
      whitespace characters, and only whitespace lies around it. */
  lemma StripSpec(s: string)
    ensures Lead(s) + |Strip(s)| <= |s| && Strip(s) == s[Lead(s)..Lead(s) + |Strip(s)|]
    ensures AllSpace(s[..Lead(s)]) && AllSpace(s[Lead(s) + |Strip(s)|..])
  {
    var i, j := Lead(s), |s| - Trail(s);
    SpacePrefix(s, i);
    if i < j {
      SpaceSuffix(s, j);
    } else {
      SpaceSuffix(s, i);
    }
  }

  lemma SpacePrefix(s: string, n: nat)
    requires n <= |s| && forall k :: 0 <= k < n ==> IsSpace(s[k])
    ensures AllSpace(s[..n])
  {
  }

  lemma SpaceSuffix(s: string, n: nat)
    requires n <= |s| && forall k :: n <= k < |s| ==> IsSpace(s[k])
    ensures AllSpace(s[n..])
  {
    assert forall k :: 0 <= k < |s| - n ==> s[n..][k] == s[n + k];
  }

  /** Stripping twice strips nothing more. */
  lemma StripIdempotent(s: string)
    ensures Strip(Strip(s)) == Strip(s)
  {
    var r := Strip(s);
    if r != [] {
      assert Lead(r) == 0;
      assert Trail(r) == 0;
    }
  }

  /** The longest prefix of `s` without whitespace. */
  function Word(s: string): (w: string)
    ensures |w| <= |s| && w == s[..|w|] && NoSpace(w)
    ensures |w| < |s| ==> IsSpace(s[|w|])
  {
    if s == [] || IsSpace(s[0]) then []
    else
      var t := Word(s[1..]);
      assert [s[0]] + t == s[..1 + |t|];
      [s[0]] + t
  }

  /** `s.split()`: the maximal runs of non-whitespace characters. */
  function Split(s: string): (fs: seq<string>)
    ensures forall k :: 0 <= k < |fs| ==> fs[k] != [] && NoSpace(fs[k])
    decreases |s|
  {
    if s == [] then []
    else if IsSpace(s[0]) then Split(s[1..])
    else
      var w := Word(s);
      [w] + Split(s[|w|..])
  }

  /** `sep.join(parts)`. */
  function Join(sep: string, parts: seq<string>): (r: string)
    ensures |parts| == 1 ==> r == parts[0]
  {
    if parts == [] then []
    else if |parts| == 1 then parts[0]
    else parts[0] + sep + Join(sep, parts[1..])
  }

  /** The length of a join: the parts plus one separator between each two. */
  lemma {:induction false} JoinLength(sep: string, parts: seq<string>)
    requires |parts| > 0
    ensures |Join(sep, parts)| == SumLengths(parts) + (|parts| - 1) * |sep|
  {
    if |parts| > 1 {
      JoinLength(sep, parts[1..]);
    }
  }

  function SumLengths(parts: seq<string>): nat
  {
    if parts == [] then 0 else |parts[0]| + SumLengths(parts[1..])
  }

  /** Words glued by single spaces split back into the same words. */
  lemma {:induction false} SplitJoinRoundTrip(fs: seq<string>)
    requires forall k :: 0 <= k < |fs| ==> fs[k] != [] && NoSpace(fs[k])
    ensures Split(Join(" ", fs)) == fs
    decreases |fs|
  {
    if fs == [] {
    } else if |fs| == 1 {
      SplitWordThen(fs[0], []);
      assert fs[0] + [] == fs[0];
    } else {
      var rest := Join(" ", fs[1..]);
      assert Join(" ", fs) == fs[0] + (" " + rest);
      SplitWordThen(fs[0], " " + rest);
      SplitSkipsSpace(' ', rest);
      SplitJoinRoundTrip(fs[1..]);
      assert fs == [fs[0]] + fs[1..];
    }
  }

  /** Leading whitespace separates no field. */
  lemma SplitSkipsSpace(c: char, t: string)
    requires IsSpace(c)
    ensures Split([c] + t) == Split(t)
  {
    assert ([c] + t)[1..] == t;
  }

  /** A word followed by nothing or by whitespace is the first field. */
  lemma SplitWordThen(w: string, t: string)
    requires w != [] && NoSpace(w)
    requires t == [] || IsSpace(t[0])
    ensures Split(w + t) == [w] + Split(t)
  {
    WordOfWord(w, t);
    assert (w + t)[|w|..] == t;
  }

  /** A word followed by nothing or by whitespace is read whole. */
  lemma {:induction false} WordOfWord(w: string, t: string)
    requires w != [] && NoSpace(w)
    requires t == [] || IsSpace(t[0])
    ensures Word(w + t) == w
    decreases |w|
  {
    var s := w + t;
    assert s[1..] == w[1..] + t;
    if |w| > 1 {
      WordOfWord(w[1..], t);
    } else {
      assert s[1..] == t;
    }
  }
}
